=== FILE: README.md ===
# Sound-Surfer, modelled in Dafny

Sound-Surfer is a small physics-and-sound game. Particles fall from
**particle sources**, each pitched by the source's repeating frequency
pattern. Fixed **sound sources** (circles) push a particle away when it comes
within their wave range and the pitches are close. **Sinks** pull nearby
particles of their pitch and absorb those that reach them. A level is
complete when every sink has absorbed its quota. Then the next of six levels
is loaded from `levelN.txt`. Every sounding entity owns a voice in a software
**mixer**. The mixer's audio callback averages the active voices into each
output frame.

The project models four parts of the game:

- `Mixing.dfy`: the mixer (`src/ofSoundMixer.cpp`).
  - A `SoundMixer` class holds the voice table, the waveform mode and the
    sample clock.
  - The envelope rules (ping, play, stop, remove) are pure functions on the
    table.
  - The audio callback is a method that fills an `array<real>` frame by frame.
- `Entities.dfy`: the entities (`src/Particle.cpp`).
  - `SoundParticle`, `SoundSource`, `ParticleSource` and `ParticleSink` are
    classes whose fields change in place.
  - The geometry and the envelope arithmetic they use are functions.
  - The mixer calls an entity would make are returned as `MixerCall` values.
    The level delivers them.
- `LevelFile.dfy` and `Levels.dfy`: the level (`src/Level.cpp`).
  - `LevelFile` is the file format: words, numbers and directives.
  - `Levels.Level` is a class that loads a file, previews the sinks, emits
    particles, steps every particle and removes those that leave. It also
    handles contacts and keys, and releases every voice when it is destroyed.
  - Each phase of a frame is proved equal to a function on a `Scene` value:
    `Begun`, `Emitted`, `Swept` and `Frame`. The frame-level lemmas are
    proved about those functions.
- `Game.dfy`: the application shell (`src/ofApp.cpp`).
  - An `App` class owns the mixer and the current level.
  - It replaces a complete level by the next one in the cycle and handles
    keys, window size and the audio callback.

The parts of the game that the model cannot see become parameters:
- the clock (`now`);
- the window size;
- the distance between two points (`dist`);
- the float conversion of a word (`scan`);
- the file system (`files`, a map from a file name to its lines);
- the per-voice waveform sample (`sample`).

## Model

| member | source | states |
|---|---|---|
| Mixing.PingVolume | src/ofSoundMixer.cpp:38 | Ping's volume is `lerp(v, 1, 0.8)` = 0.2·v + 0.8, independent of the old volume; for v in [0,1] it lies in [0.8, 1] and never falls below v |
| Mixing.PlayVolume | src/ofSoundMixer.cpp:48 | Play's volume is a fifth of the louder of the request and the current volume; it never exceeds that maximum, and lies in [0, 0.2] when both are in [0, 1] |
| Mixing.StopVolume | src/ofSoundMixer.cpp:58 | Stop keeps 90% of the current volume: never negative for a non-negative volume, never louder, strictly quieter while sounding |
| Mixing.SetVolume | src/ofSoundMixer.cpp:29-58 | writing one slot's volume keeps the table's length, that slot's frequency and every other slot |
| Mixing.ApplyCall | src/ofSoundMixer.cpp:28-60 | one ping/play/stop/remove call keeps the length and every frequency, touches only its own slot, and changes nothing when the handle is outside the table (the guard at lines 33, 43, 53) |
| Mixing.RemoveAsWritten | src/ofSoundMixer.cpp:28-30 | removal as written is defined exactly for a handle inside the table, where it silences that slot |
| Mixing.RemoveAsWrittenPastEnd | src/ofSoundMixer.cpp:28-30 | the handle equal to the table's length and the handle -1 are outside what removal as written can do, while the guarded removal leaves the table as it is |
| Mixing.ApplyCallKeepsRange | src/ofSoundMixer.cpp:32-60 | a call whose volume argument is in [0, 1] keeps every volume in [0, 1] |
| Mixing.ApplyCallsKeepsRange | src/ofSoundMixer.cpp:32-60 | `ApplyCalls`, calls delivered in order: any sequence of such calls keeps every volume in [0, 1] |
| Mixing.ApplyCallsKeepsFrequencies | src/ofSoundMixer.cpp:28-60 | no sequence of calls changes the table's length or any voice's frequency |
| Mixing.PlayFullIdempotent | src/ofSoundMixer.cpp:48 | playing a voice at full volume settles it at 0.2, and playing it again at full volume changes nothing |
| Mixing.RemoveAll | src/Level.cpp:39-45 | tearing down entities issues one removal per owned voice, in order |
| Mixing.RemovesSilence | src/ofSoundMixer.cpp:28-30 | removing a list of voices silences each listed voice and leaves every other slot and the length as they were |
| Mixing.AppendCommutes | src/ofSoundMixer.cpp:23-26 | appending a voice commutes with calls on voices already present, so calls may be delivered after a later registration |
| Mixing.ActiveSoundsOnly | src/ofSoundMixer.cpp:90-95 | the active voices (`Active`) are voices of the table with volume > 0, and there are none exactly when every voice is silent |
| Mixing.SumSamplesSnoc | src/ofSoundMixer.cpp:90-95 | `SumSamples`, the running sum of the loop at lines 90-95: the running sum over one more voice adds that voice's sample |
| Mixing.FrameSampleAsWritten | src/ofSoundMixer.cpp:96 | the frame value as written is undefined (0/0) exactly when no voice is active |
| Mixing.SilentTableDividesByZero | src/ofSoundMixer.cpp:88-96 | with every voice silent, the frame as written divides by zero while the corrected frame is 0 |
| Mixing.SoundingTableAgrees | src/ofSoundMixer.cpp:88-96 | with some voice sounding, the corrected frame (`FrameSample`) equals the frame as written |
| Mixing.Slot | src/ofSoundMixer.cpp:87 | the output index of channel c of frame f lies at or after c |
| Mixing.SlotIsProduct | src/ofSoundMixer.cpp:87 | the output index of channel c of frame f is f·n + c, as the loop's `i += nChannels` stepping gives |
| Mixing.SlotWithin | src/ofSoundMixer.cpp:98-100 | every channel of frame f lies inside frame f's block |
| Mixing.SlotBefore | src/ofSoundMixer.cpp:87-100 | every channel of an earlier frame lies before a later frame's block, so frames never overwrite each other |
| Mixing.WriteFrame | src/ofSoundMixer.cpp:98-100 | every channel of frame f receives the value, and nothing outside frame f changes |
| Mixing.SoundMixer.constructor | src/ofSoundMixer.cpp:5-12 | exactly `numSources` voices (none for a negative count), voice i silent at 770 − 110·i Hz; sine mode and the clock at 0 |
| Mixing.SoundMixer.AddSource | src/ofSoundMixer.cpp:23-26 | the handle returned is the old length, the record is appended there and every existing voice is kept |
| Mixing.SoundMixer.RemoveSource | src/ofSoundMixer.cpp:28-30 | corrected removal: a handle inside the table silences that voice only and reports true; any other handle reports false and changes nothing |
| Mixing.SoundMixer.Ping | src/ofSoundMixer.cpp:32-40 | a valid handle gets `PingVolume`, only in its own slot; an invalid one changes nothing |
| Mixing.SoundMixer.Play | src/ofSoundMixer.cpp:42-50 | a valid handle gets `PlayVolume` of the request and its current volume, only in its own slot; an invalid one changes nothing |
| Mixing.SoundMixer.Stop | src/ofSoundMixer.cpp:52-60 | a valid handle decays by `StopVolume`, only in its own slot; an invalid one changes nothing |
| Mixing.SoundMixer.SetMode | src/ofSoundMixer.cpp:62-64 | the mode changes and nothing else |
| Mixing.SoundMixer.Apply | src/ofSoundMixer.cpp:28-60 | delivering one call has exactly the effect `ApplyCall` describes |
| Mixing.SoundMixer.ApplyAll | src/ofSoundMixer.cpp:28-60 | delivering calls in order has exactly the effect of applying them one after the other |
| Mixing.SoundMixer.MixFrame | src/ofSoundMixer.cpp:88-95 | the count is the number of voices with volume > 0 and the sum is the sum of exactly their samples |
| Mixing.SoundMixer.AudioOut | src/ofSoundMixer.cpp:84-103 | each channel of frame f gets the mean sample of the active voices at clock old+f (0 when none is active); nothing past `bufferSize·nChannels` is written; the clock advances by one per frame; the voices are untouched |
| Entities.RimDistance | src/Particle.cpp:101-102 | the depth inside a wave range is in [0, 1] for a distance within the range, and is non-negative exactly when the distance is within it |
| Entities.RimDistanceDecreasing | src/Particle.cpp:102 | the depth strictly decreases as the distance grows |
| Entities.RepulsionMagnitude | src/Particle.cpp:108-113 | for a non-negative pitch and a depth in [0, 1], the push is non-negative and at most 0.1·pitch |
| Entities.SquareBelow | src/Particle.cpp:109-112 | the products the two branches scale, pitch·depth and pitch·depth², are non-negative for a non-negative pitch and depth, and at most the pitch for a depth in [0, 1] |
| Entities.RepulsionBranches | src/Particle.cpp:108-113 | a particle whose prior depth exceeds its current depth (moving outward) is pushed by 0.06·pitch·depth, otherwise by 0.1·pitch·depth² |
| Entities.SinkBand | src/Particle.cpp:221-237 | the band a sink's `BandOf` reports for a particle: captured iff the pitches differ by at most 20 and the distance is at most 25; pulled iff the pitches match and 25 < distance ≤ 100; ignored iff the pitches differ by more than 20 or the distance exceeds 100 |
| Entities.Advance | src/Particle.cpp:164-167 | a cursor inside a pattern of n moves to (index + 1) mod n and stays in range |
| Entities.AdvanceByAdds | src/Particle.cpp:164-167 | advancing k1 and then k2 times is advancing k1 + k2 times |
| Entities.AdvanceByWithin | src/Particle.cpp:164-167 | k draws that stay short of the end move the cursor by exactly k |
| Entities.AdvanceByFullCycle | src/Particle.cpp:162-169 | after as many draws as the pattern is long, the cursor is back where it started |
| Entities.ReplayStretch | src/Particle.cpp:162-169 | draws that stay short of the end return the pattern's stretch from the cursor on, in order |
| Entities.ReplayFromStart | src/Particle.cpp:162-169 | from a fresh source the first n draws, for a pattern of n, return the whole pattern in order, and the cursor is back at 0 |
| Entities.SoundParticle.constructor | src/Particle.cpp:15-21 | the particle keeps its pitch; its voice is the mixer's old length, where a silent voice at its pitch is appended; the mixer's mode and clock are kept |
| Entities.SoundParticle.MoveBody | src/Particle.cpp:50 | the physics moves the body only; the recorded positions stay until the next update |
| Entities.SoundParticle.Update | src/Particle.cpp:47-51 | the particle asks its own voice to decay, the prior position becomes the old current one and the current one becomes the body's position |
| Entities.SoundSource.constructor | src/Particle.cpp:72-82 | the source keeps its pitch and position and registers one silent voice at its pitch at the end of the table |
| Entities.SoundSource.ShouldRepel | src/Particle.cpp:93-97 | true exactly when the particle is within the wave range of 200 and the pitches differ by at most 20 |
| Entities.SoundSource.Repel | src/Particle.cpp:99-115 | the push is away from the source with the branch magnitude of the current and prior depths, and the source plays its own voice at the current depth, which is in [0, 1] while the particle is in range |
| Entities.ParticleSource.constructor | src/Particle.cpp:150-152 | corrected construction: the pattern and position as given, the last emission at 0, the cursor at 0 and the emission count at 0 |
| Entities.ParticleSource.Uninitialised | src/Particle.h:96 | construction as written: the emission count holds whatever indeterminate value it is given; the other fields are as in the corrected constructor |
| Entities.ParticleSource.GetEmissionCount | src/Particle.cpp:158-160 | reports the emission count |
| Entities.ParticleSource.ShouldEmitParticle | src/Particle.cpp:171-179 | emits exactly when more than 3 seconds have passed since the last emission; an emission records `now` and counts one more; otherwise nothing changes; the cursor never moves |
| Entities.ParticleSource.GetFrequency | src/Particle.cpp:162-169 | returns the pitch under the cursor and advances the cursor cyclically (for a non-empty pattern) |
| Entities.ParticleSource.NextFrequency | src/Particle.cpp:162-169 | corrected draw: a pitch exactly when the pattern is non-empty, namely the one under the cursor, which advances cyclically; an empty pattern yields none and leaves the cursor |
| Entities.ParticleSink.constructor | src/Particle.cpp:197-206 | the sink keeps its quota, pitch and position, starts empty and not playing, and registers one silent voice at its pitch |
| Entities.ParticleSink.Attract | src/Particle.cpp:221-237 | reports a capture exactly in the captured band, asks for a pull of strength 50 exactly in the pulled band, counts one more exactly on a capture, and keeps the playing flag |
| Entities.ParticleSink.Play | src/Particle.cpp:243-246 | the sink is playing and asks for its voice at full volume; its count is kept |
| Entities.ParticleSink.Stop | src/Particle.cpp:248-251 | the sink is silent and asks for its voice at volume 0; its count is kept |
| Entities.SinkCapacityScenario | src/Particle.cpp:234-241 | `IsFull` holds once the count reaches the quota: a sink of quota 3 is not full after two captures and full after the third; a pull at distance 30 does not count |
| Entities.EmissionCountAsWrittenExample | src/Particle.h:96 | as written, a fresh source reports whatever its uninitialised counter holds (7 in the example) |
| Entities.EmissionCountScenario | src/Particle.cpp:158-179 | a correctly built source reports 0, then 1 after its first emission, and refuses a second emission at the same instant |
| LevelFile.Word | src/Level.cpp:67 | a word is the longest prefix free of white space, and it ends at white space or at the end of the line |
| LevelFile.Tokens | src/Level.cpp:65-67 | the words of a line are non-empty and free of white space, and there are none exactly when the line is all white space |
| LevelFile.NumericRun | src/Level.cpp:72 | the stream reads that many leading numbers, and the next word (if any) fails to convert |
| LevelFile.Truncate | src/Level.cpp:87 | float-to-int conversion of a pattern entry truncates toward zero |
| LevelFile.DigitRun | src/Level.cpp:95 | the leading digits of a word, up to the first other character |
| LevelFile.IntPrefixReadsDigits | src/Level.cpp:93-95 | `>>` into an int (`IntPrefix`, `DigitsValue`) reads a sign and the digits at the front of the word and stops at the first non-digit |
| LevelFile.SignedPrefix | src/Level.cpp:95 | a word without a sign reads as its digits, and as their negation after a minus sign |
| LevelFile.DigitsValueOf | src/Level.cpp:95 | digits followed by a non-digit are read as exactly those digits |
| LevelFile.DigitRunOf | src/Level.cpp:95 | the digit run stops where the digits end |
| LevelFile.QuotaStopsAtExponent | src/Level.cpp:93-95 | a quota written `1e1` reads as 1: the int extraction stops at the `e` |
| LevelFile.Pattern | src/Level.cpp:85-88 | the pattern holds every number after the position, up to the first failure, each truncated, in order |
| LevelFile.Directives | src/Level.cpp:58-62 | a file gives at most one directive per line |
| LevelFile.LineDirectives | src/Level.cpp:59-62 | a line gives at most one directive; which lines give none is stated by `SkippedLinesAddNothing` |
| LevelFile.SkippedLinesAddNothing | src/Level.cpp:58-62 | an empty or comment line (`Skipped`) after the title leaves the file's directives as they were, and any other line adds exactly one |
| Levels.DirectivesSnoc | src/Level.cpp:58 | one more line after the title adds exactly that line's directives at the end |
| LevelFile.TitleNeverParsed | src/Level.cpp:54-58 | two files that differ only in their first line hold the same directives: the title is never read as a directive |
| LevelFile.ParseDirective | src/Level.cpp:64-99 | the first word (`Prefix`) alone selects box, sound, source or sink, and any other first word builds nothing; the floats are the successive extractions (`Operand`, 0 from the first failure on) and a sink's quota is an int extraction (`IntOperand`) |
| LevelFile.SourceWithoutPattern | src/Level.cpp:82-91 | a `source x y` line with no pitches gives a particle source with an empty pattern |
| LevelFile.TokensOfWordSpace | src/Level.cpp:65-67 | a word followed by a space comes off the front of a line as one token |
| LevelFile.TokensOfSpaceThen | src/Level.cpp:65-67 | white space before the words is skipped |
| LevelFile.TokensOfWordThen | src/Level.cpp:65-67 | a word followed by white space (or the end) is the next token |
| LevelFile.WordBeforeSpace | src/Level.cpp:67 | a word is read up to the white space that ends it |
| Levels.DistinctErase | src/Level.cpp:150-151 | erasing one entry of a list without repeats leaves a list without repeats |
| Levels.Add | src/Level.cpp:70-99 | building a directive adds one voice for a sound source or a sink and none otherwise |
| Levels.LoadExtends | src/Level.cpp:58-100 | loading only appends: every list of the level keeps its earlier entries, in front |
| Levels.LoadAppend | src/Level.cpp:58-100 | `Load`, the entities a run of directives builds: loading two runs of directives is loading the first and then the second |
| Levels.LoadedQuiet | src/Level.cpp:76-99 | every voice a level file adds sounds at no more than a fifth of full volume |
| Levels.DirectivesStep | src/Level.cpp:58 | each iteration of the reading loop adds its line's directives after those already read |
| Levels.LoadNextLine | src/Level.cpp:58-100 | building line i on top of the entities of the lines before it gives the entities of the file up to and including line i |
| Levels.PlayFreshVoice | src/Level.cpp:96-98 | a sink's fresh silent voice, played at full volume, sounds at `PlayVolume(1, 0)` and nothing else changes |
| Levels.PreviewOneAtATime | src/Level.cpp:122 | sink i previews (`InPreview`) while the time since the start lies strictly between i and i + 1, so at most one sink previews at any moment |
| Levels.PreviewCalls | src/Level.cpp:119-128 | the preview pass makes one call per sink: full volume during its own second since the start, volume 0 otherwise |
| Levels.Spawned | src/Level.cpp:131-139 | a pass creates at most one particle per source |
| Levels.SpawnedStep | src/Level.cpp:131-139 | source k adds its particle (if any) after those of the sources before it |
| Levels.SilentVoicesAppend | src/Level.cpp:135 | the voices of two runs of particles are those of the first followed by those of the second |
| Levels.GateOncePerInstant | src/Particle.cpp:171-179 | `Gate`, a source's emission check as a function: once a source's gate has opened at `now`, it stays shut at `now`, and asking again changes nothing |
| Levels.GateKeepsCursor | src/Particle.cpp:162-169 | the gate keeps the source's cursor in range |
| Levels.SpawnedNoneWhenShut | src/Level.cpp:131-139 | when no source's period has elapsed, no particle is created |
| Levels.SpawnedOneEach | src/Level.cpp:131-139 | when every source emits, each creates exactly one particle, in source order, at the source's position, pitched by the pattern entry under its cursor |
| Levels.GatedStep | src/Level.cpp:131-133 | gating source k after sources 0..k−1 is gating sources 0..k |
| Levels.Newborn | src/Level.cpp:135-137 | each new particle starts at its source's position with its pitch and the next free voice, in order |
| Levels.NewbornAppend | src/Level.cpp:135-137 | one more spawn adds one more particle, on the next free voice |
| Levels.EmissionEnds | src/Level.cpp:131-139 | when the pass ends, every source has been gated |
| Levels.EmissionStarts | src/Level.cpp:131-139 | when the pass starts, nothing has been gated, spawned or registered |
| Levels.MatchingExactly | src/Level.cpp:155-160 | the repellants are exactly the sound sources that should repel the particle |
| Levels.RepelOnlyUnopposed | src/Level.cpp:161-165 | a particle is repelled (one push and one play) when exactly one source reaches it, and not at all when none or two or more do |
| Levels.RemovalsAppend | src/Level.cpp:146-174 | the removals in two runs of events add up |
| Levels.RepelNeverRemoves | src/Level.cpp:161-165 | repulsion never removes a voice |
| Levels.PullsNeverRemove | src/Level.cpp:167-174 | the sinks' pulls (`Pulls`: one for every sink whose band pulls the particle, in sink order, with the sinks after an absorbing one still asked) never remove a voice |
| Levels.RemovedOnceIfLeaving | src/Level.cpp:146-174 | in the corrected pass, a particle's step (`Interactions`: its repulsion and its pulls, on screen or not, then its removal if it leaves) removes its voice exactly once if it leaves (off screen or absorbed by some sink) and never otherwise |
| Levels.Survivors | src/Level.cpp:142-175 | no more particles stay than there were |
| Levels.SurvivorsExactly | src/Level.cpp:142-175 | a particle stays exactly when it does not leave (`Leaves`: off screen or captured by some sink), and nothing else stays |
| Levels.SurvivorsVoiced | src/Level.cpp:142-175 | the staying particles still own their voices |
| Levels.StayingViews | src/Level.cpp:142-175 | the staying particles' views are the staying views |
| Levels.StayingExactly | src/Level.cpp:142-175 | a view stays exactly when it does not leave |
| Levels.AbsorbAddsCapturing | src/Level.cpp:146-174 | one particle's step adds to the sinks' counts, all told, exactly the number of sinks that absorb it (`CapturingSinks`), whether it is on screen or not |
| Levels.AbsorbEvery | src/Level.cpp:168-174 | counts that rose by one at every sink whose band captures the particle, and stayed at every other, are `Absorb`'s (every capturing sink counts, Particle.cpp:234) |
| Levels.SurvivorsStep | src/Level.cpp:142-175 | stepping particle k adds it to those staying exactly when it does not leave |
| Levels.AllStepEventsStep | src/Level.cpp:142-175 | stepping particle k adds its events after those of the particles before it |
| Levels.TallyStep | src/Level.cpp:142-175 | stepping particle k adds one to the count of every sink that absorbs it, on screen or off (`Captures`, `CapturedBy`), to the counts of the particles before it |
| Levels.Calls | src/Level.cpp:142-175 | the mixer calls among a step's events |
| Levels.Pushes | src/Level.cpp:142-175 | the forces among a step's events, and only forces |
| Levels.CallsAndPushesSplit | src/Level.cpp:142-175 | every event is either a mixer call or a force |
| Levels.CallsAppend | src/Level.cpp:142-175 | the calls of two runs of events are those of the first followed by those of the second |
| Levels.ClockStartsOnce | src/Level.cpp:114-116 | over `Frame`, a whole update as a function of the scene: the clock starts on the first frame and never moves after |
| Levels.PreviewIsExclusive | src/Level.cpp:119-128 | after any frame at most one sink is previewing, and each one previews exactly during its own second |
| Levels.CountsNeverDrop | src/Level.cpp:168-174 | sinks' counts never go down in a frame, so a full sink stays full |
| Levels.VoicesOnlyGrow | src/Level.cpp:112-176 | in a frame the voice table grows by one voice per new particle, and no voice is retuned |
| Levels.ParticlesAfterFrame | src/Level.cpp:142-175 | after a frame the particles are the arrivals, updated, that do not leave; none that should stay is lost |
| Levels.EmitsOncePerInstant | src/Level.cpp:131-139 | a second frame at the same instant creates no particle |
| Levels.CapturingSinks | src/Level.cpp:168-174 | the number of sinks that absorb the particle is at most the number of sinks |
| Levels.CapturingSinksExactly | src/Level.cpp:168-174 | that number is positive exactly when some sink's band captures the particle |
| Levels.LeavesIffErased | src/Level.cpp:146-174 | the corrected pass removes a particle exactly when the pass as written erases at its index at least once (`ErasesAsWritten`: once if it is off screen, plus once per absorbing sink) |
| Levels.ErasesAsWritten | src/Level.cpp:148-174 | as written, stepping a particle erases at the loop index at least once when it is off screen, and at most once more per sink |
| Levels.OffScreenCaptureErasesTwice | src/Level.cpp:150-172 | a particle off screen and within a sink's capture radius makes the pass as written erase twice at the loop index (the particle, then the one stepped before it), where the corrected pass removes its voice once |
| Levels.EraseRun | src/Level.cpp:150-151 | a run of e erases with `i--` after each is undefined once an erase falls before the start; otherwise it removes e entries and moves the index back by e |
| Levels.Kept | src/Level.cpp:142-175 | a correct pass keeps no more than it had |
| Levels.KeptExactly | src/Level.cpp:142-175 | a correct pass keeps exactly the positions whose step erases nothing |
| Levels.SweepAgreesWhenSingle | src/Level.cpp:142-175 | while no step erases more than once, the loop as written (`SweepAsWritten`, on positions, with `i--` after each erase) keeps exactly what the correct pass keeps |
| Levels.SweepAsWritten | src/Level.cpp:142-175 | the loop as written, on positions, keeps no more particles than it had, each a position of the original list, unless an erase falls before the start |
| Levels.SweepKeeps | src/Level.cpp:142-175 | the as-written loop agrees with the correct pass from a position whose step erases nothing |
| Levels.PassOver | src/Level.cpp:142-175 | the as-written loop moves past a particle whose step erases nothing |
| Levels.SweepErases | src/Level.cpp:150-172 | the as-written loop agrees with the correct pass from a position erased once |
| Levels.KeptStep | src/Level.cpp:142-175 | the correct pass keeps a position and goes on, or drops it and goes on |
| Levels.EraseSingle | src/Level.cpp:150-151 | one erase at the index removes that entry and keeps the rest in order |
| Levels.DoubleCaptureErasesNeighbour | src/Level.cpp:168-174 | as written, a particle absorbed by two sinks, stepped after one that stays, erases the staying one too, where a correct pass keeps it |
| Levels.DoubleCaptureFirstUndefined | src/Level.cpp:168-174 | as written, the first particle absorbed by two sinks makes the pass erase before the start of the vector |
| Levels.ContactCalls | src/Level.cpp:312-325 | a contact plays, at full volume, exactly the voice of each side that carries one |
| Levels.ContactSoundsBoth | src/Level.cpp:312-325 | a contact between two voiced bodies leaves both voices at 0.2 and every other voice as it was |
| Levels.TunedKeptByCalls | src/ofSoundMixer.cpp:28-60 | mixer calls never retune a voice, so every entity keeps a slot tuned to its pitch |
| Levels.Level.constructor | src/Level.cpp:17-37 | the title is `Title`, the first line (empty for an empty file); the level holds one entity per directive, in file order, each with its voice registered; no particle; the clock has not started |
| Levels.Level.LoadBody | src/Level.cpp:58-100 | every line after the title has been built, in order, and the mixer's mode and clock, the particles and the start time are untouched |
| Levels.Level.LoadLineAt | src/Level.cpp:58-100 | reading line i extends the level built from the lines before it by that line's directives |
| Levels.Level.LoadLine | src/Level.cpp:59-99 | a skipped line builds nothing; any other line builds its directive after the earlier entities |
| Levels.Level.Build | src/Level.cpp:70-99 | one directive becomes one box, sound source, particle source or sink, appended, with its voice |
| Levels.Level.AddSound | src/Level.cpp:76-81 | a sound source and its silent voice are appended |
| Levels.Level.AddSource | src/Level.cpp:82-91 | a particle source with the pattern read is appended; no voice is registered |
| Levels.Level.AddSink | src/Level.cpp:92-99 | an empty sink is appended and starts playing at once |
| Levels.Level.PlaySink | src/Level.cpp:123 | sink k plays and its voice is played at full volume; its count is kept |
| Levels.Level.StopSink | src/Level.cpp:126 | sink k stops and its voice is played at volume 0; its count is kept |
| Levels.Level.Complete | src/Level.cpp:103-110 | true exactly when every sink is full; a level without sinks is complete at once |
| Levels.Level.OnContactStart | src/Level.cpp:312-325 | the mixer receives exactly the contact's calls |
| Levels.Level.KeyPressed | src/Level.cpp:227-231 | 'r' drops every particle and silences exactly their voices; any other key changes nothing |
| Levels.Level.Close | src/Level.cpp:39-45 | the destructor removes every entity and silences exactly the voices they owned; the table keeps its length |
| Levels.Level.StartClock | src/Level.cpp:113-116 | the first update records the time; later ones keep it |
| Levels.Level.PreviewSink | src/Level.cpp:119-128 | one more sink of the preview pass is set |
| Levels.Level.SwitchSink | src/Level.cpp:122-127 | sink k plays if asked and stops otherwise, and its voice follows |
| Levels.Level.PreviewSinks | src/Level.cpp:118-128 | each sink plays exactly in its own second, counts are kept, and the mixer receives the preview calls |
| Levels.Level.OpenGate | src/Level.cpp:132-133 | source k's gate opens or stays shut as `Gate` says, and a pitch is drawn exactly when it emits |
| Levels.Level.AddParticle | src/Level.cpp:135-137 | a fresh particle at the source's position is appended, on a new silent voice at its pitch |
| Levels.Level.GateAt | src/Level.cpp:131-133 | source k's gate during the emission pass |
| Levels.Level.SpawnAt | src/Level.cpp:135-137 | the particle of source k joins the list |
| Levels.Level.EmitAt | src/Level.cpp:131-139 | source k has been handled by the emission pass |
| Levels.Level.EmitEach | src/Level.cpp:131-139 | every source has been handled by the emission pass |
| Levels.Level.EmitParticles | src/Level.cpp:131-139 | the sources are gated, the new particles join at the end of the list in source order, and each has a new silent voice |
| Levels.Level.EmitFrame | src/Level.cpp:131-139 | the emission pass equals `Emitted` on the level's scene |
| Levels.Level.Repellants | src/Level.cpp:155-160 | the repellants are the sound sources that should repel, in order |
| Levels.Level.RepelBy | src/Level.cpp:161-165 | the repulsion events follow `RepelEvents` |
| Levels.Level.AttractAll | src/Level.cpp:167-174 | every sink is asked: the particle is captured exactly when some sink absorbs it, each absorbing sink counts one more and no other sink changes count, the pulls are those of every pulling sink in order, and the playing flags are kept |
| Levels.Level.AttractEach | src/Level.cpp:167-174 | the sink loop runs over every sink, with no stop at a capture |
| Levels.Level.AttractAt | src/Level.cpp:168-173 | sink j's attraction extends the loop's captures, pulls and counts by that sink's |
| Levels.Level.Interact | src/Level.cpp:146-174 | on screen or not, the particle is repelled and asked by every sink; it leaves exactly when `Leaves` says (off screen or absorbed); the events are `Interactions`, with its removal once at the end if it leaves; every absorbing sink counts it (`Absorb`) |
| Levels.Level.ShiftAt | src/Level.cpp:143-144 | the particle's update advances its history and asks its voice to decay |
| Levels.Level.Update | src/Level.cpp:112-176 | a whole frame equals `Frame` on the level's scene, and the forces returned are those of the particle pass |
| Levels.Level.BeginFrame | src/Level.cpp:113-128 | the clock and preview passes equal `Begun` on the level's scene |
| Levels.Level.PreviewFrame | src/Level.cpp:118-128 | the preview pass changes only the playing flags and the voices, as `PreviewCalls` says |
| Levels.Level.Advance | src/Level.cpp:130-175 | the emission and particle passes equal `Swept` after `Emitted` on the level's scene |
| Levels.Level.StepAndMix | src/Level.cpp:141-175 | the particle pass keeps exactly the staying particles, tallies the captures, returns the forces and delivers the calls to the mixer |
| Levels.Level.Deliver | src/Level.cpp:141-175 | the pass's calls reach the mixer in order; counts, flags and particles are kept |
| Levels.Level.StepFrame | src/Level.cpp:141-175 | the particle pass equals `Swept` on the level's scene |
| Levels.Level.StepParticles | src/Level.cpp:141-175 | every particle updates once; exactly those that do not leave stay; the events and counts follow the corrected pass |
| Levels.Level.KeepSurvivors | src/Level.cpp:150-151 | the staying particles replace the level's list and the level stays valid; views, counts, flags and cursors are kept |
| Levels.Level.SweepAll | src/Level.cpp:142-175 | the loop over a list of distinct particles yields the survivors, the events and the counts of the corrected pass |
| Levels.Level.Sweep | src/Level.cpp:142-175 | the loop ends with every particle stepped |
| Levels.Level.SweepStarts | src/Level.cpp:142 | before the loop nothing has been stepped |
| Levels.Level.SweepEnds | src/Level.cpp:175 | after the loop the list holds the survivors and the events and counts are complete |
| Levels.Level.StepAt | src/Level.cpp:143-174 | one iteration steps the particle at index i and erases it exactly when it leaves |
| Levels.Level.SweptToNext | src/Level.cpp:150-151 | after the k-th particle's step the list holds the survivors so far and then the particles not yet stepped |
| Levels.Level.StepKth | src/Level.cpp:143-174 | the k-th particle's step adds its events and captures and keeps it exactly when it does not leave |
| Levels.Level.ListStep | src/Level.cpp:150-151 | erasing at the loop index drops exactly that particle |
| Game.NextIndex | src/ofApp.cpp:51-54 | the next index is one more, back to 0 after the last level, and stays among the six |
| Game.AdvancedIsModular | src/ofApp.cpp:51-54 | advancing n times from level i reaches level (i + n) mod 6 |
| Game.CycleVisitsEveryLevel | src/ofApp.cpp:50-59 | six advances come back to the start, and every level is reached within them |
| Game.Decimal | src/ofApp.cpp:56 | a number is written as decimal digits without a leading zero, one digit exactly below 10 |
| Game.DecimalRoundTrip | src/ofApp.cpp:56 | reading back the digits gives the number, so no two numbers are written alike |
| Game.ShownReadsBack | src/ofApp.cpp:56 | an int the stream writes (`Shown`) is read back by an int extraction as itself |
| Game.LevelFileName | src/ofApp.cpp:55-58 | level i reads `level<i+1>.txt`, and the first level reads `level1.txt`, the file setup opens |
| Game.LevelFileNamesDiffer | src/ofApp.cpp:55-58 | different levels read different files |
| Game.SinkLevelFailsAsWritten | src/ofApp.cpp:26-27 | as written, a level file with a sink line builds a sink through a null mixer pointer |
| Game.EveryLevelBuilds | src/ofApp.cpp:26-27 | with every entity class handed the mixer, every level file can be built |
| Game.BuildLevel | src/ofApp.cpp:58 | a new level on the shared mixer holds the file's title and directives, has no particle and has not started |
| Game.App.constructor | src/ofApp.cpp:13-37 | the window size is kept; the mixer starts with no voices; the first level is read from `level1.txt`; the help key is up |
| Game.App.NextLevel | src/ofApp.cpp:50-59 | the old level's voices are all silenced and the next level in the cycle is read from its own file onto the same mixer |
| Game.App.CloseLevel | src/ofApp.cpp:52 | deleting the level removes every voice it owns |
| Game.App.Update | src/ofApp.cpp:40-47 | a complete level gives way to the next one, whose clock starts now; otherwise the current level runs exactly `Frame` |
| Game.App.Play | src/ofApp.cpp:46 | the current level runs exactly `Frame`, and its clock starts on its first frame |
| Game.App.ReplaceIfComplete | src/ofApp.cpp:42-45 | a complete level is replaced by the next one: the old level's voices are silenced and the new level holds the next file's title and entities, with no particle and its clock not started; an incomplete level and the mixer are left untouched |
| Game.App.KeyPressed | src/ofApp.cpp:87-104 | the level sees the key first; 'h' raises the help flag; 'n' silences the old level's voices and loads the next level's file, as `NextLevel` does; 'r' clears the particles and silences exactly their voices; other keys change neither the particles nor the voices |
| Game.App.KeyReleased | src/ofApp.cpp:107-111 | releasing 'h' lowers the help flag; other keys keep it |
| Game.App.WindowResized | src/ofApp.cpp:138-141 | the new size is recorded |
| Game.App.AudioOut | src/ofApp.cpp:154-158 | the callback is handed on to the mixer with the same guarantees as `SoundMixer.AudioOut` |

## Left out

- Drawing is not modelled: level, entity and help drawing, fonts, images, colours and the title text on screen (`src/ofApp.cpp:62-84`, `src/Level.cpp:178-225`).
- The waveform of each voice is the parameter `sample`. `SampleSignal` (`src/ofSoundMixer.cpp:66-82`) uses floating-point sine and fmod, which the model does not reproduce.
- The sound stream is not modelled: its setup and teardown (`src/ofSoundMixer.cpp:15, 18-21`), the mixer mutex and the concurrency between the audio thread and the game loop.
- Box2D is not modelled: the physics world, body setup, gravity and the effect of forces (`src/ofApp.cpp:15-18, 41`).
  - Forces are returned as `Push` events.
  - `Entities.SoundParticle.MoveBody` stands for the physics moving a body between frames.
- Mouse handling and the lines a player draws are not modelled (`src/Level.cpp:239-310`, `src/ofApp.cpp:114-135`), nor is the 'u' key that erases the last line. The 'r' key's clearing of those lines is not modelled either; its clearing of the particles is.
- The 't' fullscreen key, `gotMessage`, `dragEvent` and `onContactEnd` are not modelled; the last three do nothing.
- The clock (`ofGetElapsedTimef`), the window size (`ofGetWidth`, `ofGetHeight`) and the file system are parameters.
  - A frame reads the clock once as `now`, where the source reads it at several points of one update.
  - A file that cannot be opened reads as no lines.
  - The absolute-path prefix of a file name is not modelled.
- Converting a word to a float is the parameter `scan`.
  - `LevelFile.Truncate` models the float-to-int conversion of pattern entries (`src/Level.cpp:86-87`).
  - A sink's quota is read by `>>` into an int (`src/Level.cpp:93-95`), modelled exactly by `LevelFile.IntPrefix`; int overflow is not modelled.
  - A number the stream fails to read is modelled as 0.
- Arithmetic is on reals and unbounded integers: float rounding and 32-bit overflow are not modelled.
- A sink's quota is modelled as the `int` the loader reads (`src/Level.cpp:93-96`), not the float it is stored in.
- LevelFile.Operand: the model converts a word to a float whole or not at all. The stream can stop inside a word: `12abc` reads 12, and the next extraction then fails on `abc`. The word-level `scan` cannot express that split.
- The particle pass collects its mixer calls and hands them to the mixer after the pass. No voice is registered during that pass, and `Mixing.AppendCommutes` shows that delivering calls after registrations gives the same table.
- The particle pass works on a local list, which it writes back once at the end.
- The physics stores a particle's voice as the body's user data. This is modelled as the `Fixture` value it carries; the pointer itself is not.
- The application constructor and `setup` are merged into `Game.App.constructor`.
- `Level::Initialize` and the `Initialize` calls of the entity classes are modelled only as the `Bindings` each class receives.
- `Level`'s `!box2d` early return, the font loading and the contact-listener registration (`src/Level.cpp:18-36`) are not modelled.
- The empty-file-name check in the `Level` constructor is not modelled: every file name the game uses is non-empty.
- The `if (sm)` check in the audio callback is not modelled: the mixer always exists in the model.
- `Mixing.SoundMixer`'s sample clock belongs to each mixer. The source keeps it in a function-local `static int` (`src/ofSoundMixer.cpp:86`), which every mixer would share; the game creates only one mixer.
- The `source &&` and `sink &&` null checks in the update loop always hold in the model.
- Levels.Level.LoadBody: requires a level with no particle sources or sinks, since the loader only runs from the constructor on an empty level.
- Entities.ParticleSource.GetFrequency: requires a non-empty pattern. For an empty one the source's indexing is undefined; that case is modelled by `Entities.ParticleSource.NextFrequency` and reported under Findings.
- Game.App.Update: when the level is replaced, the contract states the new level's index, title and start time, not the frame the new level then runs.

## Findings

| source | as written | input that shows it | evidently intended | confidence | as-written member | corrected member |
|---|---|---|---|---|---|---|
| src/ofSoundMixer.cpp:28-30 | `RemoveSource` writes the slot with no range check, and ends without returning its `bool` | `RemoveSource(n)` on a table of n voices, or `RemoveSource(-1)` | refuse a handle outside the table, as `Ping`, `Play` and `Stop` do, and report whether it removed | high; not executed | Mixing.RemoveAsWrittenPastEnd | Mixing.SoundMixer.RemoveSource |
| src/ofSoundMixer.cpp:96 | the frame is divided by the number of active voices even when that number is 0 | any frame in which every voice is silent, such as right after setup | silence (0) when no voice sounds | high; not executed | Mixing.SilentTableDividesByZero | Mixing.SoundMixer.AudioOut |
| src/Particle.h:96 | `emissionCount` is never initialised, so `getEmissionCount` reports an indeterminate value | a fresh particle source asked for its count | counting from 0 | high; not executed | Entities.EmissionCountAsWrittenExample | Entities.EmissionCountScenario |
| src/Particle.cpp:163 | `getFrequency` indexes the pattern without checking that it is non-empty | the level line `source 100 100`, whose pattern is empty, once the source emits | no pitch (no particle) for an empty pattern | medium; not executed | LevelFile.SourceWithoutPattern | Entities.ParticleSource.NextFrequency |
| src/Level.cpp:150-172 | after erasing an off-screen particle the loop still steps it through the sources and sinks, and every capturing sink erases at index i again | a particle within 25 of two matching sinks, stepped after a particle that stays; or an off-screen particle within a sink's capture radius | keep every interaction of the loop (repulsion, and every sink's attraction and count, on screen or not) and erase the particle once, after the sink loop, if it left the screen or some sink absorbed it | high; not executed | Levels.ErasesAsWritten, Levels.SweepAsWritten, Levels.DoubleCaptureErasesNeighbour, Levels.OffScreenCaptureErasesTwice | Levels.Level.StepParticles, Levels.Level.Interact, Levels.RemovedOnceIfLeaving |
| src/ofApp.cpp:26-27 | setup hands the mixer to `SoundSource` and `SoundParticle` but never to `ParticleSink` | any level file with a `sink` line, so its sink registers through a null pointer | hand the mixer to every class that registers voices, as `Game.App.Valid` keeps with `bound == SetupBindings` | high; not executed | Game.SinkLevelFailsAsWritten | Game.App.constructor, Game.BuildLevel, Game.EveryLevelBuilds |

=== FILE: Entities.dfy ===
/** The game's entities (src/Particle.cpp): particles with a one-step
    position history, sound sources that repel particles of a matching tone,
    particle sources that emit on a fixed cadence through a cyclic pattern of
    pitches, and particle sinks that pull in and count matching particles.
    Every entity but the particle source owns one mixer voice. Forces and
    envelope calls are returned as values; distances come from the caller. */
module Entities {
  import opened Wrappers
  import opened Mixing

  /** A point of the play field. */
  datatype Vec2 = Vec2(x: real, y: real)

  /** Where a default-constructed ofVec2f points. */
  const Origin: Vec2 := Vec2(0.0, 0.0)

  /** Radius of a sound source's influence (WAVE_RANGE). */
  const WaveRange: real := 200.0
  /** Largest pitch difference, in Hz, at which entities interact. */
  const ToneTolerance: real := 20.0
  /** Repulsion gains of the two branches of repel. */
  const LinearGain: real := 0.06
  const QuadraticGain: real := 0.1
  /** A sink pulls matching particles within this radius (sinkRadius)... */
  const SinkRadius: real := 100.0
  /** ... and absorbs them within this one. */
  const CaptureRadius: real := 25.0
  /** Strength of a sink's pull. */
  const AttractionStrength: real := 50.0
  /** Seconds that must pass between two emissions (emissionFreq). */
  const EmissionPeriod: real := 3.0

  /** A force that the physics world is asked to apply to a particle. */
  datatype Force =
    | Repulsion(from: Vec2, magnitude: real)
    | Attraction(to: Vec2, magnitude: real)

  function Abs(x: real): real
  {
    if x < 0.0 then -x else x
  }

  /** Whether two pitches are close enough for entities to interact. */
  predicate ToneMatches(a: real, b: real)
  {
    !(Abs(a - b) > ToneTolerance)
  }

  /** How far inside a sound source's influence a particle at `distance`
      from its centre is: 1 at the centre, 0 on the rim. */
  function RimDistance(distance: real): (r: real)
    ensures 0.0 <= distance <= WaveRange ==> 0.0 <= r <= 1.0
    ensures distance <= WaveRange <==> 0.0 <= r
  {
    (WaveRange - distance) / WaveRange
  }

  /** A particle closer to the centre is deeper inside the influence. */
  lemma RimDistanceDecreasing(d1: real, d2: real)
    requires d1 < d2
    ensures RimDistance(d2) < RimDistance(d1)
  {
  }

  /** Strength of a repulsion: linear in the depth when the particle was
      deeper on the previous tick (it is moving out), quadratic otherwise. */
  function RepulsionMagnitude(freq: real, rim: real, priorRim: real): (r: real)
    ensures 0.0 <= freq && 0.0 <= rim ==> 0.0 <= r
    ensures 0.0 <= freq && 0.0 <= rim <= 1.0 ==> r <= QuadraticGain * freq
  {
    SquareBelow(freq, rim);
    if priorRim > rim then LinearGain * (freq * rim) else QuadraticGain * (freq * (rim * rim))
  }

  /** Bounds on the two products a repulsion scales: both are non-negative
      for a non-negative pitch and depth, and at most the pitch for a depth
      in [0, 1]. */
  lemma SquareBelow(freq: real, rim: real)
    ensures 0.0 <= freq && 0.0 <= rim ==> 0.0 <= freq * rim && 0.0 <= freq * (rim * rim)
    ensures 0.0 <= freq && 0.0 <= rim <= 1.0 ==> freq * rim <= freq && freq * (rim * rim) <= freq
  {
    if 0.0 <= freq && 0.0 <= rim {
      assert 0.0 <= rim * rim;
      if rim <= 1.0 {
        assert rim * rim <= rim * 1.0;
        assert freq * (rim * rim) <= freq * 1.0;
        assert freq * rim <= freq * 1.0;
      }
    }
  }

  /** Moving out (deeper before than now) selects the linear branch;
      moving in or standing still selects the quadratic one. */
  lemma RepulsionBranches(freq: real, rim: real, priorRim: real)
    ensures priorRim > rim ==> RepulsionMagnitude(freq, rim, priorRim) == LinearGain * freq * rim
    ensures priorRim <= rim ==> RepulsionMagnitude(freq, rim, priorRim) == QuadraticGain * freq * rim * rim
  {
    assert LinearGain * (freq * rim) == LinearGain * freq * rim;
    assert freq * (rim * rim) == freq * rim * rim;
    assert QuadraticGain * (freq * rim * rim) == QuadraticGain * freq * rim * rim;
  }

  /** Where a particle at `distance` from a sink stands with respect to it. */
  datatype Band = Ignored | Pulled | Captured

  /** The band of a particle at `distance` whose pitch differs from the
      sink's by `toneDiff` Hz. */
  function SinkBand(distance: real, toneDiff: real): (b: Band)
    ensures b == Captured <==> Abs(toneDiff) <= ToneTolerance && distance <= CaptureRadius
    ensures b == Pulled <==> Abs(toneDiff) <= ToneTolerance && CaptureRadius < distance <= SinkRadius
    ensures b == Ignored <==> Abs(toneDiff) > ToneTolerance || distance > SinkRadius
  {
    if Abs(toneDiff) > ToneTolerance then Ignored
    else if distance > SinkRadius then Ignored
    else if distance > CaptureRadius then Pulled
    else Captured
  }

  /** Next value of a pattern cursor over `n` pitches: one step on, and back
      to the start past the end. */
  function Advance(index: int, n: int): (r: int)
    ensures 0 <= index < n ==> 0 <= r < n && r == (index + 1) % n
  {
    if index + 1 >= n then 0 else index + 1
  }

  /** The cursor after `k` steps. */
  function AdvanceBy(index: int, n: int, k: nat): int
    decreases k
  {
    if k == 0 then index else AdvanceBy(Advance(index, n), n, k - 1)
  }

  /** The pitches that `k` successive draws return from cursor `index`. */
  function Replay(pattern: seq<int>, index: int, k: nat): seq<int>
    requires 0 <= index < |pattern|
    decreases k
  {
    if k == 0 then [] else [pattern[index]] + Replay(pattern, Advance(index, |pattern|), k - 1)
  }

  lemma {:induction false} AdvanceByAdds(a: int, n: int, k1: nat, k2: nat)
    ensures AdvanceBy(a, n, k1 + k2) == AdvanceBy(AdvanceBy(a, n, k1), n, k2)
    decreases k1
  {
    if k1 > 0 {
      AdvanceByAdds(Advance(a, n), n, k1 - 1, k2);
    }
  }

  lemma {:induction false} AdvanceByWithin(a: int, n: int, k: nat)
    requires 0 <= a && a + k < n
    ensures AdvanceBy(a, n, k) == a + k
    decreases k
  {
    if k > 0 {
      AdvanceByWithin(a + 1, n, k - 1);
    }
  }

  /** After as many draws as the pattern is long, the cursor is back where it started. */
  lemma AdvanceByFullCycle(index: int, n: int)
    requires 0 <= index < n
    ensures AdvanceBy(index, n, n) == index
  {
    AdvanceByAdds(index, n, n - index - 1, index + 1);
    AdvanceByWithin(index, n, n - index - 1);
    assert AdvanceBy(n - 1, n, 1) == 0;
    AdvanceByAdds(n - 1, n, 1, index);
    if index > 0 {
      AdvanceByWithin(0, n, index);
    }
  }

  /** Draws from `index` that stay before the end return the pattern's
      stretch from `index` on. */
  lemma {:induction false} ReplayStretch(pattern: seq<int>, index: int, k: nat)
    requires 0 <= index && index + k <= |pattern| && index < |pattern|
    ensures Replay(pattern, index, k) == pattern[index..index + k]
    decreases k
  {
    if k > 0 && index + 1 < |pattern| {
      ReplayStretch(pattern, index + 1, k - 1);
    }
  }

  /** From a fresh cursor, the first |pattern| draws return the pattern in
      order, and the cursor is then back at its start, so the draws go on
      replaying it. */
  lemma ReplayFromStart(pattern: seq<int>)
    requires |pattern| > 0
    ensures Replay(pattern, 0, |pattern|) == pattern
    ensures AdvanceBy(0, |pattern|, |pattern|) == 0
  {
    ReplayStretch(pattern, 0, |pattern|);
    AdvanceByFullCycle(0, |pattern|);
  }

  /** What the game's rules read of a particle: its pitch, its voice, where
      the physics world has its body and the history its updates recorded. */
  datatype ParticleView = ParticleView(frequency: real, voice: int, body: Vec2, current: Vec2, prior: Vec2)

  /** A particle as an update leaves it: the history moves one step on. */
  function Advanced(v: ParticleView): ParticleView
  {
    v.(current := v.body, prior := v.current)
  }

  /** A moving projectile with a one-tick position history. */
  class SoundParticle {
    /** Pitch of the particle's voice. */
    const frequency: real
    /** The particle's voice, also the payload its physics body carries for contacts. */
    const voice: int
    /** Where the physics world has the body now (getPosition). */
    var body: Vec2
    /** Position recorded by the latest update, and the one before. */
    var current: Vec2
    var prior: Vec2

    /** Registers a silent voice at `freq` and places the body at `at`. */
    constructor (freq: real, at: Vec2, mixer: SoundMixer)
      modifies mixer
      ensures frequency == freq && body == at && current == Origin && prior == Origin
      ensures voice == |old(mixer.voices)|
      ensures mixer.voices == old(mixer.voices) + [SoundProperties(0.0, freq)]
      ensures mixer.mode == old(mixer.mode) && mixer.tick == old(mixer.tick)
    {
      frequency := freq;
      var id := mixer.AddSource(SoundProperties(0.0, freq));
      voice := id;
      body := at;
      current := Origin;
      prior := Origin;
    }

    /** What the rules read of this particle. */
    function View(): ParticleView
      reads this
    {
      ParticleView(frequency, voice, body, current, prior)
    }

    /** The physics world moved the body. */
    method MoveBody(to: Vec2)
      modifies this
      ensures body == to && current == old(current) && prior == old(prior)
    {
      body := to;
    }

    /** One tick: fades the particle's voice and shifts the history. */
    method Update() returns (call: MixerCall)
      modifies this
      ensures call == Stop(voice)
      ensures prior == old(current) && current == old(body) && body == old(body)
      ensures View() == Advanced(old(View()))
    {
      call := Stop(voice);
      prior := current;
      current := body;
    }
  }

  /** An immobile sound source that repels particles of its own tone. */
  class SoundSource {
    const pos: Vec2
    const frequency: real
    const voice: int

    /** Registers a silent voice at `freq`. */
    constructor (freq: real, at: Vec2, mixer: SoundMixer)
      modifies mixer
      ensures frequency == freq && pos == at
      ensures voice == |old(mixer.voices)|
      ensures mixer.voices == old(mixer.voices) + [SoundProperties(0.0, freq)]
      ensures mixer.mode == old(mixer.mode) && mixer.tick == old(mixer.tick)
    {
      frequency := freq;
      pos := at;
      var id := mixer.AddSource(SoundProperties(0.0, freq));
      voice := id;
    }

    /** Whether the particle is inside this source's influence and close
        enough in pitch to be repelled. */
    function ShouldRepel(particle: ParticleView, dist: (Vec2, Vec2) -> real): (r: bool)
      ensures r <==> dist(pos, particle.body) <= WaveRange
                     && Abs(particle.frequency - frequency) <= ToneTolerance
    {
      !(dist(pos, particle.body) > WaveRange || Abs(particle.frequency - frequency) > ToneTolerance)
    }

    /** The push away from this source and the envelope call on its own
        voice, both scaled by how deep the particle is inside the influence. */
    function Repel(particle: ParticleView, dist: (Vec2, Vec2) -> real): (r: (Force, MixerCall))
      ensures r.0 == Repulsion(pos, RepulsionMagnitude(frequency,
                                                      RimDistance(dist(pos, particle.current)),
                                                      RimDistance(dist(pos, particle.prior))))
      ensures r.1 == Play(voice, RimDistance(dist(pos, particle.current)))
      ensures 0.0 <= dist(pos, particle.current) <= WaveRange ==> ArgumentInRange(r.1)
    {
      var distanceFromRim := RimDistance(dist(pos, particle.current));
      var priorDistanceFromRim := RimDistance(dist(pos, particle.prior));
      (Repulsion(pos, RepulsionMagnitude(frequency, distanceFromRim, priorDistanceFromRim)),
       Play(voice, distanceFromRim))
    }
  }

  /** A pattern cursor that points into the pattern, or is 0 for an empty one. */
  predicate CursorInRange(pattern: seq<int>, index: int)
  {
    0 <= index && (|pattern| > 0 ==> index < |pattern|) && (|pattern| == 0 ==> index == 0)
  }

  /** An emitter of particles, one every EmissionPeriod seconds, with
      pitches drawn from a cyclic pattern. */
  class ParticleSource {
    const pos: Vec2
    const pattern: seq<int>
    var lastEmissionTime: real
    var emissionCount: int
    var patternIndex: int

    /** The cursor points into the pattern, or is 0 for an empty pattern. */
    ghost predicate Valid()
      reads this
    {
      CursorInRange(pattern, patternIndex)
    }

    /** A source with every counter at its intended start. */
    constructor (p: seq<int>, at: Vec2)
      ensures Valid()
      ensures pattern == p && pos == at
      ensures lastEmissionTime == 0.0 && emissionCount == 0 && patternIndex == 0
    {
      pattern := p;
      pos := at;
      lastEmissionTime := 0.0;
      emissionCount := 0;
      patternIndex := 0;
    }

    /** The constructor as written: `emissionCount` is never initialised, so
        it starts at whatever `indeterminate` the memory held. */
    constructor Uninitialised(p: seq<int>, at: Vec2, indeterminate: int)
      ensures Valid()
      ensures pattern == p && pos == at
      ensures lastEmissionTime == 0.0 && emissionCount == indeterminate && patternIndex == 0
    {
      pattern := p;
      pos := at;
      lastEmissionTime := 0.0;
      emissionCount := indeterminate;
      patternIndex := 0;
    }

    method GetEmissionCount() returns (count: int)
      ensures count == emissionCount
    {
      count := emissionCount;
    }

    /** The emission gate: open once more than EmissionPeriod seconds have
        passed since the last emission, and then it records this one. */
    method ShouldEmitParticle(now: real) returns (emit: bool)
      modifies this
      ensures emit <==> now - old(lastEmissionTime) > EmissionPeriod
      ensures emit ==> lastEmissionTime == now && emissionCount == old(emissionCount) + 1
      ensures !emit ==> lastEmissionTime == old(lastEmissionTime) && emissionCount == old(emissionCount)
      ensures patternIndex == old(patternIndex)
    {
      emit := false;
      if now - lastEmissionTime > EmissionPeriod {
        emissionCount := emissionCount + 1;
        lastEmissionTime := now;
        emit := true;
      }
    }

    /** getFrequency as written: reads the pattern at the cursor with no
        check that the pattern has an element, then advances the cursor. */
    method GetFrequency() returns (freq: real)
      requires Valid() && |pattern| > 0
      modifies this
      ensures Valid()
      ensures freq == pattern[old(patternIndex)] as real
      ensures patternIndex == Advance(old(patternIndex), |pattern|)
      ensures lastEmissionTime == old(lastEmissionTime) && emissionCount == old(emissionCount)
    {
      freq := pattern[patternIndex] as real;
      patternIndex := patternIndex + 1;
      if patternIndex >= |pattern| {
        patternIndex := 0;
      }
    }

    /** getFrequency with the missing check: an empty pattern has no pitch to
        give, and the cursor stays put. */
    method NextFrequency() returns (freq: Option<real>)
      requires Valid()
      modifies this
      ensures Valid()
      ensures freq.Some? <==> |pattern| > 0
      ensures |pattern| > 0 ==> freq == Some(pattern[old(patternIndex)] as real)
      ensures patternIndex == if |pattern| > 0 then Advance(old(patternIndex), |pattern|) else old(patternIndex)
      ensures lastEmissionTime == old(lastEmissionTime) && emissionCount == old(emissionCount)
    {
      if |pattern| == 0 {
        return None;
      }
      var f := GetFrequency();
      freq := Some(f);
    }
  }

  /** A sink that pulls in particles of its tone and counts those it absorbs. */
  class ParticleSink {
    const pos: Vec2
    const frequency: real
    /** Capacity: the sink is full once it has absorbed this many particles. */
    const limit: int
    const voice: int
    var collectionCount: int
    var isPlaying: bool

    /** Registers a silent voice at `freq`; nothing collected yet. */
    constructor (lim: int, freq: real, at: Vec2, mixer: SoundMixer)
      modifies mixer
      ensures limit == lim && frequency == freq && pos == at
      ensures collectionCount == 0 && !isPlaying
      ensures voice == |old(mixer.voices)|
      ensures mixer.voices == old(mixer.voices) + [SoundProperties(0.0, freq)]
      ensures mixer.mode == old(mixer.mode) && mixer.tick == old(mixer.tick)
    {
      limit := lim;
      frequency := freq;
      pos := at;
      collectionCount := 0;
      isPlaying := false;
      var id := mixer.AddSource(SoundProperties(0.0, freq));
      voice := id;
    }

    /** The band the particle stands in with respect to this sink. */
    function BandOf(particle: ParticleView, dist: (Vec2, Vec2) -> real): Band
    {
      SinkBand(dist(pos, particle.body), particle.frequency - frequency)
    }

    /** Pulls a matching particle within SinkRadius, and absorbs it, counting
        it, once it is within CaptureRadius. */
    method Attract(particle: SoundParticle, dist: (Vec2, Vec2) -> real) returns (captured: bool, pull: Option<Force>)
      modifies this
      ensures captured <==> BandOf(particle.View(), dist) == Captured
      ensures pull == if BandOf(particle.View(), dist) == Pulled then Some(Attraction(pos, AttractionStrength)) else None
      ensures collectionCount == old(collectionCount) + (if captured then 1 else 0)
      ensures isPlaying == old(isPlaying)
    {
      var distance := dist(pos, particle.body);
      if Abs(particle.frequency - frequency) > ToneTolerance {
        return false, None;
      }
      if distance > SinkRadius {
        return false, None;
      }
      if distance > CaptureRadius {
        return false, Some(Attraction(pos, AttractionStrength));
      } else {
        collectionCount := collectionCount + 1;
        return true, None;
      }
    }

    /** Whether the sink has absorbed as many particles as it holds. */
    predicate IsFull()
      reads this
    {
      collectionCount >= limit
    }

    /** Starts the sink's pitch. */
    method Play() returns (call: MixerCall)
      modifies this
      ensures isPlaying && call == MixerCall.Play(voice, 1.0)
      ensures collectionCount == old(collectionCount)
    {
      isPlaying := true;
      call := MixerCall.Play(voice, 1.0);
    }

    /** Stops the sink's pitch: a Play at volume 0, which lets the voice fade. */
    method Stop() returns (call: MixerCall)
      modifies this
      ensures !isPlaying && call == MixerCall.Play(voice, 0.0)
      ensures collectionCount == old(collectionCount)
    {
      isPlaying := false;
      call := MixerCall.Play(voice, 0.0);
    }
  }

  /** The distance every particle in these scenarios is at. */
  function FixedDistance(d: real): (Vec2, Vec2) -> real
  {
    (a: Vec2, b: Vec2) => d
  }

  /** A sink of capacity 3 is not full after two captures and is full after
      the third; a particle at distance 30 is only pulled and leaves the
      count as it was. */
  method SinkCapacityScenario() returns (fullAfterTwo: bool, fullAfterThree: bool, countAfterPull: int)
    ensures !fullAfterTwo && fullAfterThree && countAfterPull == 3
  {
    var mixer := new SoundMixer(0);
    var sink := new ParticleSink(3, 440.0, Vec2(100.0, 100.0), mixer);
    var particle := new SoundParticle(440.0, Vec2(100.0, 110.0), mixer);
    var captured, pull := sink.Attract(particle, FixedDistance(10.0));
    captured, pull := sink.Attract(particle, FixedDistance(10.0));
    fullAfterTwo := sink.IsFull();
    captured, pull := sink.Attract(particle, FixedDistance(10.0));
    fullAfterThree := sink.IsFull();
    captured, pull := sink.Attract(particle, FixedDistance(30.0));
    countAfterPull := sink.collectionCount;
  }

  /** As written, a fresh source reports whatever its uninitialised counter
      held (here 7) before it has emitted anything. */
  method EmissionCountAsWrittenExample() returns (reported: int)
    ensures reported == 7
  {
    var source := new ParticleSource.Uninitialised([440], Origin, 7);
    reported := source.GetEmissionCount();
  }

  /** With the counter initialised, the reported count is the number of
      emissions: none before the gate opens, one after. */
  method EmissionCountScenario() returns (before: int, after: int, again: bool)
    ensures before == 0 && after == 1 && !again
  {
    var source := new ParticleSource([440], Origin);
    before := source.GetEmissionCount();
    var emitted := source.ShouldEmitParticle(3.5);
    after := source.GetEmissionCount();
    again := source.ShouldEmitParticle(5.0);
  }
}

=== FILE: Game.dfy ===
/** The application shell (src/ofApp.cpp): it owns the mixer and the level
    being played, replaces a completed level with the next of six in a
    cycle, and keeps the few pieces of state its key and window handlers
    update. Reading a level file is a parameter `files` from a file name to
    its lines; a file that cannot be opened reads as no lines. */
module Game {
  import opened Wrappers
  import opened Mixing
  import opened Entities
  import opened LevelFile
  import opened Levels

  /** How many levels the game cycles through. */
  const LevelCount := 6

  // ---------------------------------------------------------------------
  // The level index and the file name it selects

  /** The index after `i`: one more, back to the first level after the last. */
  function NextIndex(i: int): (j: int)
    ensures -1 <= i < LevelCount ==> 0 <= j < LevelCount
    ensures i + 1 < LevelCount ==> j == i + 1
    ensures i + 1 >= LevelCount ==> j == 0
  {
    if i + 1 >= LevelCount then 0 else i + 1
  }

  /** The index after `n` advances from `i`. */
  function Advanced(i: int, n: nat): int
    decreases n
  {
    if n == 0 then i else NextIndex(Advanced(i, n - 1))
  }

  /** Advancing through the levels is counting modulo their number. */
  lemma {:induction false} AdvancedIsModular(i: int, n: nat)
    requires 0 <= i < LevelCount
    ensures Advanced(i, n) == (i + n) % LevelCount
    decreases n
  {
    if n > 0 {
      AdvancedIsModular(i, n - 1);
      var p, q := (i + n - 1) % LevelCount, (i + n - 1) / LevelCount;
      assert i + n == q * LevelCount + p + 1;
      if p + 1 == LevelCount {
        assert i + n == (q + 1) * LevelCount;
      }
    }
  }

  /** How many advances lead from level `i` to level `k`. */
  function Gap(i: int, k: int): int
  {
    if i <= k then k - i else k - i + LevelCount
  }

  /** Six advances come back to the level they started from, and every
      level is reached within them. */
  lemma CycleVisitsEveryLevel(i: int)
    requires 0 <= i < LevelCount
    ensures Advanced(i, LevelCount) == i
    ensures forall k :: 0 <= k < LevelCount ==> 0 <= Gap(i, k) < LevelCount && Advanced(i, Gap(i, k)) == k
  {
    AdvancedIsModular(i, LevelCount);
    forall k | 0 <= k < LevelCount
      ensures 0 <= Gap(i, k) < LevelCount && Advanced(i, Gap(i, k)) == k
    {
      AdvancedIsModular(i, Gap(i, k));
    }
  }

  /** The character of decimal digit `d`. */
  function DigitChar(d: int): char
    requires 0 <= d < 10
  {
    ('0' as int + d) as char
  }

  /** How a stream writes a natural number: decimal digits, most
      significant first, without leading zeros. */
  function Decimal(n: nat): (s: string)
    ensures 1 <= |s|
    ensures forall k :: 0 <= k < |s| ==> IsDigit(s[k])
    ensures n < 10 <==> |s| == 1
    ensures 0 < n ==> s[0] != '0'
    decreases n
  {
    if n < 10 then [DigitChar(n)] else Decimal(n / 10) + [DigitChar(n % 10)]
  }

  /** Reading back what the stream wrote gives the number again, so no two
      numbers are written alike. */
  lemma {:induction false} DecimalRoundTrip(n: nat)
    ensures DecimalValue(Decimal(n)) == n
    decreases n
  {
    if n >= 10 {
      DecimalRoundTrip(n / 10);
      var s := Decimal(n);
      assert s[..|s| - 1] == Decimal(n / 10);
    }
  }

  /** How a stream writes an int: a minus sign before a negative one. */
  function Shown(n: int): string
  {
    if n < 0 then "-" + Decimal(-n) else Decimal(n)
  }

  /** An int the stream writes is read back by `>>` into an int as itself. */
  lemma ShownReadsBack(n: int)
    ensures IntPrefix(Shown(n)) == Some(n)
  {
    var m: nat := if n < 0 then -n else n;
    DecimalRoundTrip(m);
    IntPrefixReadsDigits(Decimal(m), []);
    assert Decimal(m) + [] == Decimal(m);
    if n < 0 {
      assert ['-'] + (Decimal(m) + []) == Shown(n);
    }
  }

  /** The file of level `index`, numbered from one: the six levels are the
      files level1.txt to level6.txt, the first of them the one setup opens. */
  function LevelFileName(index: int): (name: string)
    ensures 0 <= index < LevelCount ==> name == "level" + [DigitChar(index + 1)] + ".txt"
    ensures index == 0 ==> name == "level1.txt"
  {
    "level" + Shown(index + 1) + ".txt"
  }

  /** Different levels read different files. */
  lemma LevelFileNamesDiffer(i: int, j: int)
    requires 0 <= i < LevelCount && 0 <= j < LevelCount && i != j
    ensures LevelFileName(i) != LevelFileName(j)
  {
    var a, b := LevelFileName(i), LevelFileName(j);
    var da, db := Decimal(i + 1), Decimal(j + 1);
    assert a == "level" + da + ".txt" && b == "level" + db + ".txt";
    DecimalRoundTrip(i + 1);
    DecimalRoundTrip(j + 1);
    assert a[5] == da[0] && b[5] == db[0];
    assert da == [da[0]] && db == [db[0]];
  }

  // ---------------------------------------------------------------------
  // Which entity classes can reach the mixer

  /** SoundSource, SoundParticle and ParticleSink each keep their own static
      pointer to the mixer, null until that class's Initialize runs. */
  datatype Bindings = Bindings(sources: bool, particles: bool, sinks: bool)

  /** Whether building directive `d` finds the mixer its entity registers
      with: a sound source and a sink register a voice when built, and a
      particle source's particles register theirs when spawned. */
  predicate Builds(b: Bindings, d: Directive)
  {
    match d
    case SoundDirective(_, _, _) => b.sources
    case SourceDirective(_, _, _) => b.particles
    case SinkDirective(_, _, _, _) => b.sinks
    case _ => true
  }

  /** Whether every directive of a file can be built. */
  predicate AllBuild(b: Bindings, ds: seq<Directive>)
  {
    forall k :: 0 <= k < |ds| ==> Builds(b, ds[k])
  }

  /** The pointers setup hands out as written: SoundSource's and
      SoundParticle's, never ParticleSink's. */
  const SetupBindingsAsWritten := Bindings(true, true, false)

  /** The pointers setup is evidently meant to hand out: one to every class
      that registers voices. */
  const SetupBindings := Bindings(true, true, true)

  /** As written, a level file with a sink line builds a sink through a
      null mixer pointer. */
  lemma SinkLevelFailsAsWritten(lines: seq<string>, scan: Scanner, k: int)
    requires 0 <= k < |Directives(lines, scan)| && Directives(lines, scan)[k].SinkDirective?
    ensures !AllBuild(SetupBindingsAsWritten, Directives(lines, scan))
  {
    assert !Builds(SetupBindingsAsWritten, Directives(lines, scan)[k]);
  }

  /** With every class initialised, every level file can be built. */
  lemma EveryLevelBuilds(lines: seq<string>, scan: Scanner)
    ensures AllBuild(SetupBindings, Directives(lines, scan))
  {
  }

  /** The contents of a level not yet loaded, on a mixer holding `voices`. */
  function Unloaded(voices: seq<SoundProperties>): Contents
  {
    Contents([], [], [], [], voices)
  }

  /** A new level on mixer `m`, read from `lines`: the constructor, then
      loadFromFile. */
  method BuildLevel(m: SoundMixer, b: Bindings, lines: seq<string>, scan: Scanner) returns (l: Level)
    requires AllBuild(b, Directives(lines, scan))
    modifies m
    ensures fresh(l) && l.Valid() && l.mixer == m
    ensures l.title == Title(lines)
    ensures l.Snapshot() == Load(Unloaded(old(m.voices)), Directives(lines, scan))
    ensures l.particles == [] && l.startTime == -1.0
    ensures forall s :: s in l.sources ==> fresh(s)
    ensures forall s :: s in l.sinks ==> fresh(s)
    ensures m.mode == old(m.mode) && m.tick == old(m.tick)
  {
    l := new Level(m, lines, scan);
  }

  // ---------------------------------------------------------------------
  // The application

  class App {
    /** The mixer every level registers with. */
    const mixer: SoundMixer
    var windowWidth: real
    var windowHeight: real
    /** Which of the six levels is being played. */
    var currentLevelIndex: int
    var currentLevel: Level
    /** Whether the help key is held down. */
    var hkey: bool
    /** The entity classes that have been handed the mixer. */
    var bound: Bindings

    /** The level plays on the application's mixer, is valid, and is one
        of the six; every entity class can reach the mixer. */
    ghost predicate Valid()
      reads this, currentLevel, currentLevel.sources, mixer
    {
      currentLevel.mixer == mixer && currentLevel.Valid() &&
      0 <= currentLevelIndex < LevelCount && bound == SetupBindings
    }

    /** The application constructor followed by setup: a mixer with no
        seeded voices, every entity class bound to it, and the first level
        read from level1.txt. */
    constructor (width: real, height: real, files: string -> seq<string>, scan: Scanner)
      ensures Valid() && fresh(mixer) && fresh(currentLevel)
      ensures windowWidth == width && windowHeight == height && !hkey
      ensures currentLevelIndex == 0
      ensures currentLevel.title == Title(files("level1.txt"))
      ensures currentLevel.Snapshot() == Load(Unloaded([]), Directives(files("level1.txt"), scan))
      ensures currentLevel.particles == [] && currentLevel.startTime == -1.0
    {
      windowWidth, windowHeight := width, height;
      hkey := false;
      var m := new SoundMixer(0);
      mixer := m;
      bound := SetupBindings;
      currentLevelIndex := 0;
      EveryLevelBuilds(files("level1.txt"), scan);
      var l := BuildLevel(m, SetupBindings, files("level1.txt"), scan);
      currentLevel := l;
    }

    /** Deletes the current level, silencing every voice it owned, and
        loads the next one in the cycle. */
    method NextLevel(files: string -> seq<string>, scan: Scanner)
      requires Valid()
      modifies this`currentLevelIndex, this`currentLevel, currentLevel, mixer
      ensures Valid() && fresh(currentLevel)
      ensures currentLevelIndex == NextIndex(old(currentLevelIndex))
      ensures currentLevel.title == Title(files(LevelFileName(currentLevelIndex)))
      ensures currentLevel.Snapshot() ==
                Load(Unloaded(ApplyCalls(old(mixer.voices), RemoveAll(old(currentLevel.OwnedVoices())))),
                     Directives(files(LevelFileName(currentLevelIndex)), scan))
      ensures currentLevel.particles == [] && currentLevel.startTime == -1.0
      ensures forall s :: s in currentLevel.sources ==> fresh(s)
      ensures forall s :: s in currentLevel.sinks ==> fresh(s)
      ensures mixer.mode == old(mixer.mode) && mixer.tick == old(mixer.tick)
    {
      CloseLevel();
      currentLevelIndex := NextIndex(currentLevelIndex);
      var lines := files(LevelFileName(currentLevelIndex));
      EveryLevelBuilds(lines, scan);
      currentLevel := BuildLevel(mixer, bound, lines, scan);
    }

    /** The level being left is destroyed: every voice it owns is removed. */
    method CloseLevel()
      requires Valid()
      modifies currentLevel, mixer
      ensures mixer.voices == ApplyCalls(old(mixer.voices), RemoveAll(old(currentLevel.OwnedVoices())))
      ensures mixer.mode == old(mixer.mode) && mixer.tick == old(mixer.tick)
    {
      currentLevel.Close();
    }

    /** One frame: a complete level gives way to the next one, then the
        level being played runs its frame. */
    method Update(now: real, width: real, height: real, dist: (Vec2, Vec2) -> real,
                  files: string -> seq<string>, scan: Scanner) returns (forces: seq<Event>)
      requires Valid()
      modifies this`currentLevelIndex, this`currentLevel, currentLevel,
               currentLevel.particles, currentLevel.sources, currentLevel.sinks, mixer
      ensures Valid()
      ensures old(currentLevel.AllFull()) ==>
                fresh(currentLevel) && currentLevelIndex == NextIndex(old(currentLevelIndex)) &&
                currentLevel.title == Title(files(LevelFileName(currentLevelIndex))) &&
                currentLevel.startTime == now
      ensures !old(currentLevel.AllFull()) ==>
                currentLevel == old(currentLevel) && currentLevelIndex == old(currentLevelIndex) &&
                currentLevel.FrameState() ==
                  Frame(old(currentLevel.FrameState()), now, currentLevel.circles, currentLevel.sinks,
                        width, height, dist)
      ensures mixer.mode == old(mixer.mode) && mixer.tick == old(mixer.tick)
    {
      ghost var s0 := currentLevel.FrameState();
      ghost var full := currentLevel.AllFull();
      ReplaceIfComplete(files, scan);
      assert !full ==> currentLevel.FrameState() == s0;
      assert forall k :: 0 <= k < |currentLevel.sources| ==>
               currentLevel.sources[k] in old(currentLevel.sources) || fresh(currentLevel.sources[k]);
      assert forall k :: 0 <= k < |currentLevel.sinks| ==>
               currentLevel.sinks[k] in old(currentLevel.sinks) || fresh(currentLevel.sinks[k]);
      forces := Play(now, width, height, dist);
    }

    /** The level being played runs its frame. */
    method Play(now: real, width: real, height: real, dist: (Vec2, Vec2) -> real) returns (forces: seq<Event>)
      requires Valid()
      modifies currentLevel`startTime, currentLevel`particles, currentLevel.particles, currentLevel.sources,
               currentLevel.sinks, mixer
      ensures Valid()
      ensures currentLevel.FrameState() ==
                Frame(old(currentLevel.FrameState()), now, currentLevel.circles, currentLevel.sinks, width, height, dist)
      ensures currentLevel == old(currentLevel) && currentLevelIndex == old(currentLevelIndex)
      ensures old(currentLevel.startTime) == -1.0 ==> currentLevel.startTime == now
      ensures mixer.mode == old(mixer.mode) && mixer.tick == old(mixer.tick)
    {
      var l := currentLevel;
      ghost var s, cs, ss := l.FrameState(), l.circles, l.sinks;
      ghost var app: object := this;
      assert app !in l.particles && app !in l.sources && app !in l.sinks && app != l && app != mixer;
      forces := l.Update(now, width, height, dist);
      assert currentLevel == l && l.circles == cs && l.sinks == ss;
      assert l.FrameState() == Frame(s, now, cs, ss, width, height, dist);
      ClockStartsOnce(s, now, now, cs, ss, width, height, dist);
      assert l.Valid() && l.mixer == mixer;
    }

    /** The check at the start of a frame: a complete level gives way to
        the next one; otherwise nothing changes. */
    method ReplaceIfComplete(files: string -> seq<string>, scan: Scanner)
      requires Valid()
      modifies this`currentLevelIndex, this`currentLevel, currentLevel, mixer
      ensures Valid()
      ensures old(currentLevel.AllFull()) ==>
                fresh(currentLevel) && currentLevelIndex == NextIndex(old(currentLevelIndex)) &&
                currentLevel.title == Title(files(LevelFileName(currentLevelIndex))) &&
                currentLevel.particles == [] && currentLevel.startTime == -1.0
      ensures old(currentLevel.AllFull()) ==>
                currentLevel.Snapshot() ==
                  Load(Unloaded(ApplyCalls(old(mixer.voices), RemoveAll(old(currentLevel.OwnedVoices())))),
                       Directives(files(LevelFileName(currentLevelIndex)), scan))
      ensures !old(currentLevel.AllFull()) ==>
                currentLevel == old(currentLevel) && currentLevelIndex == old(currentLevelIndex) &&
                unchanged(currentLevel, mixer)
      ensures forall k :: 0 <= k < |currentLevel.particles| ==> currentLevel.particles[k] in old(currentLevel.particles)
      ensures forall s :: s in currentLevel.sources ==> s in old(currentLevel.sources) || fresh(s)
      ensures forall s :: s in currentLevel.sinks ==> s in old(currentLevel.sinks) || fresh(s)
      ensures old(currentLevel.AllFull()) ==>
                (forall s :: s in currentLevel.sources ==> fresh(s)) && (forall s :: s in currentLevel.sinks ==> fresh(s))
      ensures mixer.mode == old(mixer.mode) && mixer.tick == old(mixer.tick)
    {
      var done := currentLevel.Complete();
      if done {
        NextLevel(files, scan);
      }
    }

    /** A key press reaches the level first; then 'h' shows the help and
        'n' skips to the next level. */
    method KeyPressed(key: char, files: string -> seq<string>, scan: Scanner)
      requires Valid()
      modifies this`hkey, this`currentLevelIndex, this`currentLevel, currentLevel, mixer
      ensures Valid()
      ensures hkey == (key == 'h' || old(hkey))
      ensures key == 'n' ==>
                fresh(currentLevel) && currentLevelIndex == NextIndex(old(currentLevelIndex)) &&
                currentLevel.title == Title(files(LevelFileName(currentLevelIndex))) &&
                currentLevel.particles == [] && currentLevel.startTime == -1.0
      ensures key == 'n' ==>
                currentLevel.Snapshot() ==
                  Load(Unloaded(ApplyCalls(old(mixer.voices), RemoveAll(old(currentLevel.OwnedVoices())))),
                       Directives(files(LevelFileName(currentLevelIndex)), scan))
      ensures key != 'n' ==> currentLevel == old(currentLevel) && currentLevelIndex == old(currentLevelIndex)
      ensures key == 'r' ==> currentLevel.particles == [] && |mixer.voices| == |old(mixer.voices)|
      ensures key == 'r' ==>
                forall j :: 0 <= j < |mixer.voices| ==>
                  if j in ParticleVoices(old(currentLevel.particles)) then mixer.voices[j].volume == 0.0
                  else mixer.voices[j] == old(mixer.voices)[j]
      ensures key != 'r' && key != 'n' ==>
                currentLevel.particles == old(currentLevel.particles) && mixer.voices == old(mixer.voices)
      ensures mixer.mode == old(mixer.mode) && mixer.tick == old(mixer.tick)
    {
      currentLevel.KeyPressed(key);
      if key == 'h' {
        hkey := true;
      } else if key == 'n' {
        NextLevel(files, scan);
      }
    }

    /** Releasing 'h' hides the help again. */
    method KeyReleased(key: char)
      modifies this`hkey
      ensures hkey == (key != 'h' && old(hkey))
    {
      if key == 'h' {
        hkey := false;
      }
    }

    /** The window's new size is recorded, converted to real. */
    method WindowResized(w: int, h: int)
      modifies this`windowWidth, this`windowHeight
      ensures windowWidth == w as real && windowHeight == h as real
    {
      windowWidth := w as real;
      windowHeight := h as real;
    }

    /** The audio callback is handed on to the mixer. */
    method AudioOut(output: array<real>, bufferSize: int, nChannels: int,
                    sample: (SoundMode, SoundProperties, int) -> real)
      requires 0 <= bufferSize && 0 <= nChannels && bufferSize * nChannels <= output.Length
      modifies mixer, output
      ensures mixer.voices == old(mixer.voices) && mixer.mode == old(mixer.mode)
      ensures mixer.tick == old(mixer.tick) + (if nChannels > 0 then bufferSize else 0)
      ensures forall f: nat, c :: f < bufferSize && 0 <= c < nChannels ==>
                Slot(f, c, nChannels) < bufferSize * nChannels &&
                output[Slot(f, c, nChannels)] == FrameSample(mixer.voices, mixer.mode, old(mixer.tick) + f, sample)
      ensures forall k :: bufferSize * nChannels <= k < output.Length ==> output[k] == old(output[k])
    {
      mixer.AudioOut(output, bufferSize, nChannels, sample);
    }
  }
}

=== FILE: LevelFile.dfy ===
/** The line-oriented level description (Level::loadFromFile in
    src/Level.cpp): a title line, then directive lines `box x y w h`,
    `sound x y freq`, `source x y freq...` and `sink x y freq limit`; empty
    lines and lines starting with `#` are skipped. Splitting a line into
    words is modelled exactly; turning a word into a number is the caller's
    `scan`, standing for the stream's float conversion. */
module LevelFile {
  import opened Wrappers

  /** The characters a stream skips between words. */
  predicate IsSpace(c: char)
  {
    c == ' ' || c == '\t' || c == '\n' || c == '\r' || c == '\U{B}' || c == '\U{C}'
  }

  /** The longest prefix of `s` free of white space. */
  function Word(s: string): (w: string)
    ensures |w| <= |s| && w == s[..|w|]
    ensures forall k :: 0 <= k < |w| ==> !IsSpace(w[k])
    ensures |w| < |s| ==> IsSpace(s[|w|])
    decreases |s|
  {
    if s == [] || IsSpace(s[0]) then [] else [s[0]] + Word(s[1..])
  }

  /** The words of a line, in order, as successive `>>` into a string read them. */
  function Tokens(s: string): (ts: seq<string>)
    ensures forall k :: 0 <= k < |ts| ==> |ts[k]| > 0
    ensures forall k, m :: 0 <= k < |ts| && 0 <= m < |ts[k]| ==> !IsSpace(ts[k][m])
    ensures |ts| <= |s|
    ensures (forall k :: 0 <= k < |s| ==> IsSpace(s[k])) <==> ts == []
    decreases |s|
  {
    if s == [] then []
    else if IsSpace(s[0]) then
      var rest := Tokens(s[1..]);
      assert forall k :: 1 <= k < |s| ==> s[k] == s[1..][k - 1];
      rest
    else
      var w := Word(s);
      [w] + Tokens(s[|w|..])
  }

  /** Conversion of a word to a number; None when the stream would fail on it. */
  type Scanner = string -> Option<real>

  /** How many words from the start convert to numbers: the stream reads
      that many numbers before it fails. */
  function NumericRun(ts: seq<string>, scan: Scanner): (n: nat)
    ensures n <= |ts|
    ensures forall k :: 0 <= k < n ==> scan(ts[k]).Some?
    ensures n < |ts| ==> scan(ts[n]).None?
    decreases |ts|
  {
    if ts == [] || scan(ts[0]).None? then 0 else 1 + NumericRun(ts[1..], scan)
  }

  /** The `k`-th number extracted by a chain of `>>`. Past the first failure
      the stream stores 0 once and then leaves the variables untouched (and
      so indeterminate); the model reads 0 for all of them. */
  function Operand(ts: seq<string>, k: nat, scan: Scanner): real
  {
    if k < NumericRun(ts, scan) then scan(ts[k]).value else 0.0
  }

  /** Float to int conversion, which truncates toward zero. */
  function Truncate(r: real): (n: int)
    ensures 0.0 <= r ==> n as real <= r < n as real + 1.0
    ensures r < 0.0 ==> n as real - 1.0 < r <= n as real
  {
    if r >= 0.0 then r.Floor else -((-r).Floor)
  }

  predicate IsDigit(c: char)
  {
    '0' <= c <= '9'
  }

  /** The number a string of decimal digits denotes. */
  function DecimalValue(s: string): int
    requires forall k :: 0 <= k < |s| ==> IsDigit(s[k])
    decreases |s|
  {
    if s == [] then 0
    else DecimalValue(s[..|s| - 1]) * 10 + (s[|s| - 1] as int - '0' as int)
  }

  /** How many decimal digits `w` starts with. */
  function DigitRun(w: string): (n: nat)
    ensures n <= |w|
    ensures forall k :: 0 <= k < n ==> IsDigit(w[k])
    ensures n < |w| ==> !IsDigit(w[n])
    decreases |w|
  {
    if w == [] || !IsDigit(w[0]) then 0 else 1 + DigitRun(w[1..])
  }

  /** The digits at the front of `w`, read as a number; None without one. */
  function DigitsValue(w: string): Option<int>
  {
    var n := DigitRun(w);
    if n == 0 then None else Some(DecimalValue(w[..n]))
  }

  /** What `>>` into an int reads from the front of the word `w`: a sign,
      if any, and then every decimal digit up to the first other
      character, which it leaves unread; None when no digit follows the
      sign. */
  function IntPrefix(w: string): Option<int>
  {
    if w != [] && w[0] == '-' then
      match DigitsValue(w[1..])
      case Some(v) => Some(-v)
      case None => None
    else if w != [] && w[0] == '+' then DigitsValue(w[1..])
    else DigitsValue(w)
  }

  /** `>>` into an int reads the digits at the front of a word, with their
      sign, and stops at the first character that is not a digit. */
  lemma IntPrefixReadsDigits(ds: string, rest: string)
    requires ds != [] && forall k :: 0 <= k < |ds| ==> IsDigit(ds[k])
    requires rest == [] || !IsDigit(rest[0])
    ensures IntPrefix(ds + rest) == Some(DecimalValue(ds))
    ensures IntPrefix(['-'] + (ds + rest)) == Some(-DecimalValue(ds))
  {
    var w := ds + rest;
    DigitsValueOf(ds, rest);
    assert w[0] == ds[0];
    SignedPrefix(w, DecimalValue(ds));
  }

  /** A word whose digits read as `v` and that starts with no sign reads
      as `v`, and as `-v` after a minus sign. */
  lemma SignedPrefix(w: string, v: int)
    requires DigitsValue(w) == Some(v) && w != [] && w[0] != '-' && w[0] != '+'
    ensures IntPrefix(w) == Some(v)
    ensures IntPrefix(['-'] + w) == Some(-v)
  {
    assert (['-'] + w)[1..] == w;
  }

  /** The digits at the front of digits followed by a non-digit are those digits. */
  lemma DigitsValueOf(ds: string, rest: string)
    requires ds != [] && forall k :: 0 <= k < |ds| ==> IsDigit(ds[k])
    requires rest == [] || !IsDigit(rest[0])
    ensures DigitsValue(ds + rest) == Some(DecimalValue(ds))
  {
    DigitRunOf(ds, rest);
    assert (ds + rest)[..|ds|] == ds;
  }

  /** The digit run of digits followed by a non-digit is those digits. */
  lemma {:induction false} DigitRunOf(ds: string, rest: string)
    requires forall k :: 0 <= k < |ds| ==> IsDigit(ds[k])
    requires rest == [] || !IsDigit(rest[0])
    ensures DigitRun(ds + rest) == |ds|
    decreases |ds|
  {
    if ds == [] {
      assert ds + rest == rest;
    } else {
      assert (ds + rest)[1..] == ds[1..] + rest;
      DigitRunOf(ds[1..], rest);
    }
  }

  /** A quota written with an exponent is read up to the exponent: `1e1`
      reads as 1. */
  lemma QuotaStopsAtExponent()
    ensures IntPrefix("1e1") == Some(1)
  {
    IntPrefixReadsDigits("1", "e1");
    assert "1" + "e1" == "1e1";
    assert DecimalValue("1") == 1 by { assert "1"[..0] == []; }
  }

  /** The int that `>>` reads as the `k`-th operand: the integer at the
      front of word `k`, or 0 when the stream failed before it or the word
      does not start with one. */
  function IntOperand(ts: seq<string>, k: nat, scan: Scanner): int
  {
    if k <= NumericRun(ts, scan) && k < |ts| then
      match IntPrefix(ts[k])
      case Some(n) => n
      case None => 0
    else 0
  }

  /** The numbers from word `from` on, up to the first failure, as ints. */
  function Pattern(ts: seq<string>, from: nat, scan: Scanner): (p: seq<int>)
    requires from <= NumericRun(ts, scan)
    ensures |p| == NumericRun(ts, scan) - from
    ensures forall k :: 0 <= k < |p| ==> p[k] == Truncate(scan(ts[from + k]).value)
    decreases NumericRun(ts, scan) - from
  {
    if from == NumericRun(ts, scan) then [] else [Truncate(scan(ts[from]).value)] + Pattern(ts, from + 1, scan)
  }

  /** One directive line, read. */
  datatype Directive =
    | BoxDirective(x: real, y: real, width: real, height: real)
    | SoundDirective(x: real, y: real, freq: real)
    | SourceDirective(x: real, y: real, pattern: seq<int>)
    | SinkDirective(x: real, y: real, freq: real, limit: int)
    | NoDirective

  /** Whether the loader skips a line after the title. */
  predicate Skipped(line: string)
  {
    line == [] || line[0] == '#'
  }

  /** The first word of a line, or "" for a line of white space. */
  function Prefix(line: string): string
  {
    var ts := Tokens(line);
    if ts == [] then "" else ts[0]
  }

  /** The words after the first. */
  function Arguments(line: string): seq<string>
  {
    var ts := Tokens(line);
    if ts == [] then [] else ts[1..]
  }

  /** The directive a line holds. `source` reads x and y and then every
      number that follows into its pattern, each truncated to an int; if x
      or y fails the stream has failed and the pattern is empty. `sink`
      reads its limit with `>>` into an int, as the digits at the front of
      its word. Any other first word adds nothing. */
  function ParseDirective(line: string, scan: Scanner): (d: Directive)
    ensures d.BoxDirective? <==> Prefix(line) == "box"
    ensures d.SoundDirective? <==> Prefix(line) == "sound"
    ensures d.SourceDirective? <==> Prefix(line) == "source"
    ensures d.SinkDirective? <==> Prefix(line) == "sink"
    ensures d.NoDirective? <==>
              Prefix(line) != "box" && Prefix(line) != "sound" && Prefix(line) != "source" && Prefix(line) != "sink"
  {
    var prefix := Prefix(line);
    var args := Arguments(line);
    if prefix == "box" then
      BoxDirective(Operand(args, 0, scan), Operand(args, 1, scan), Operand(args, 2, scan), Operand(args, 3, scan))
    else if prefix == "sound" then
      SoundDirective(Operand(args, 0, scan), Operand(args, 1, scan), Operand(args, 2, scan))
    else if prefix == "source" then
      SourceDirective(Operand(args, 0, scan), Operand(args, 1, scan),
                      if NumericRun(args, scan) >= 2 then Pattern(args, 2, scan) else [])
    else if prefix == "sink" then
      SinkDirective(Operand(args, 0, scan), Operand(args, 1, scan), Operand(args, 2, scan), IntOperand(args, 3, scan))
    else NoDirective
  }

  /** The title: the first line, or "" for an empty file. */
  function Title(lines: seq<string>): string
  {
    if lines == [] then "" else lines[0]
  }

  /** The directives of a file, in order, one per line after the title that
      is not skipped (NoDirective for an unknown first word). */
  function Directives(lines: seq<string>, scan: Scanner): (ds: seq<Directive>)
    ensures |ds| <= |lines|
    decreases |lines|
  {
    if |lines| <= 1 then []
    else
      var init := lines[..|lines| - 1];
      var last := lines[|lines| - 1];
      Directives(init, scan) + LineDirectives(last, scan)
  }

  /** What one line after the title contributes: nothing if it is skipped. */
  function LineDirectives(line: string, scan: Scanner): (ds: seq<Directive>)
    ensures |ds| <= 1
  {
    if Skipped(line) then [] else [ParseDirective(line, scan)]
  }

  /** The title line is read before the loop and never parsed: files that
      differ only in their first line hold the same directives. */
  lemma {:induction false} TitleNeverParsed(file: seq<string>, other: seq<string>, scan: Scanner)
    requires |file| == |other| && 1 <= |file| && file[1..] == other[1..]
    ensures Directives(file, scan) == Directives(other, scan)
    decreases |file|
  {
    var n := |file|;
    if n > 1 {
      assert file[n - 1] == file[1..][n - 2] == other[n - 1];
      assert file[..n - 1][1..] == file[1..][..n - 2];
      assert other[..n - 1][1..] == other[1..][..n - 2];
      TitleNeverParsed(file[..n - 1], other[..n - 1], scan);
    }
  }

  /** An empty or comment line after the title adds nothing to the file's
      directives, and any other line adds one. */
  lemma SkippedLinesAddNothing(lines: seq<string>, line: string, scan: Scanner)
    requires 1 <= |lines|
    ensures Directives(lines + [line], scan) == Directives(lines, scan) <==> Skipped(line)
    ensures !Skipped(line) ==> |Directives(lines + [line], scan)| == |Directives(lines, scan)| + 1
  {
    assert (lines + [line])[..|lines|] == lines;
  }

  /** A word: non-empty and free of white space. */
  predicate IsWord(w: string)
  {
    w != [] && forall k :: 0 <= k < |w| ==> !IsSpace(w[k])
  }

  /** A `source` line whose operands are only its position gives an empty
      pattern, which ParticleSource::getFrequency then indexes. */
  lemma SourceWithoutPattern(x: string, y: string, scan: Scanner)
    requires IsWord(x) && IsWord(y) && scan(x).Some? && scan(y).Some?
    ensures ParseDirective("source" + " " + x + " " + y, scan).SourceDirective?
    ensures ParseDirective("source" + " " + x + " " + y, scan).pattern == []
  {
    SourceIsWord();
    TokensOfThree("source", x, y);
    var args := [x, y];
    assert Arguments("source" + " " + x + " " + y) == args;
    assert NumericRun(args[1..][1..], scan) == 0;
    assert NumericRun(args[1..], scan) == 1;
    assert NumericRun(args, scan) == 2;
  }

  lemma SourceIsWord()
    ensures IsWord("source")
  {
  }

  /** The words of a line of three words with single spaces between them. */
  lemma TokensOfThree(a: string, b: string, c: string)
    requires IsWord(a) && IsWord(b) && IsWord(c)
    ensures Tokens(a + " " + b + " " + c) == [a, b, c]
  {
    var sp: string := " ";
    TokensOfWordSpace(a, b + sp + c);
    TokensOfTwo(b, c);
    ConcatAssoc(a + sp + b, sp, c);
    ConcatAssoc(a + sp, b, sp + c);
    ConcatAssoc(b, sp, c);
  }

  /** The words of a line of two words with a single space between them. */
  lemma TokensOfTwo(b: string, c: string)
    requires IsWord(b) && IsWord(c)
    ensures Tokens(b + " " + c) == [b, c]
  {
    TokensOfWordSpace(b, c);
    TokensOfWordThen(c, []);
    assert c + [] == c;
  }

  /** A word and a space come off the front of a line as one token. */
  lemma TokensOfWordSpace(w: string, rest: string)
    requires IsWord(w)
    ensures Tokens(w + " " + rest) == [w] + Tokens(rest)
  {
    var sp: string := " ";
    TokensOfWordThen(w, sp + rest);
    TokensOfSpaceThen(' ', rest);
    ConcatAssoc(w, sp, rest);
  }

  /** Concatenation is associative. */
  lemma ConcatAssoc<T>(a: seq<T>, b: seq<T>, c: seq<T>)
    ensures a + (b + c) == a + b + c
  {
  }

  /** White space before a line's words is skipped. */
  lemma TokensOfSpaceThen(c: char, rest: string)
    requires IsSpace(c)
    ensures Tokens([c] + rest) == Tokens(rest)
  {
    assert ([c] + rest)[1..] == rest;
  }

  /** A word followed by white space (or the end) is the next token. */
  lemma TokensOfWordThen(w: string, rest: string)
    requires IsWord(w)
    requires rest == [] || IsSpace(rest[0])
    ensures Tokens(w + rest) == [w] + Tokens(rest)
  {
    WordBeforeSpace(w, rest);
    assert (w + rest)[|w|..] == rest;
  }

  /** A word is read up to the white space that ends it. */
  lemma {:induction false} WordBeforeSpace(w: string, rest: string)
    requires IsWord(w)
    requires rest == [] || IsSpace(rest[0])
    ensures Word(w + rest) == w
    decreases |w|
  {
    var s := w + rest;
    assert s[0] == w[0];
    if |w| > 1 {
      WordBeforeSpace(w[1..], rest);
      assert s[1..] == w[1..] + rest;
      assert [w[0]] + w[1..] == w;
    } else {
      assert s[1..] == rest;
      assert w == [w[0]];
    }
  }
}

=== FILE: Levels.dfy ===
/** A game level (src/Level.cpp): the entities a level file describes, the
    particles in flight, and the per-frame update that previews the sinks'
    pitches, emits particles, repels them from sound sources, draws them
    into sinks and drops those that leave the screen or are absorbed.
    The clock, the window size and the distance between two points are
    parameters; forces on particles and the mixer calls of a frame are
    returned, in the order the level makes them. */
module Levels {
  import opened Wrappers
  import opened Mixing
  import opened Entities
  import opened LevelFile

  /** What a frame asks of the outside world: a mixer call, or a force on
      the particle that owns `voice`. */
  datatype Event =
    | Sound(call: MixerCall)
    | Push(voice: int, force: Force)

  /** A static box of the play field. */
  datatype Box = Box(x: real, y: real, width: real, height: real)

  /** No object appears twice. */
  predicate Distinct<T(==)>(s: seq<T>)
  {
    forall i, j :: 0 <= i < j < |s| ==> s[i] != s[j]
  }

  /** Erasing one element keeps the others distinct. */
  lemma DistinctErase<T>(s: seq<T>, i: int)
    requires Distinct(s) && 0 <= i < |s|
    ensures Distinct(s[..i] + s[i + 1..])
  {
    var r := s[..i] + s[i + 1..];
    forall a, b | 0 <= a < b < |r| ensures r[a] != r[b] {
      var a' := if a < i then a else a + 1;
      var b' := if b < i then b else b + 1;
      assert r[a] == s[a'] && r[b] == s[b'];
    }
  }

  /** Slot `voice` of the mixer exists and is tuned to `freq`. */
  predicate Owns(vs: seq<SoundProperties>, voice: int, freq: real)
  {
    0 <= voice < |vs| && vs[voice].freq == freq
  }

  /** Every one of the particles owns its slot of the mixer. */
  predicate Voiced(vs: seq<SoundProperties>, ps: seq<SoundParticle>)
  {
    forall k :: 0 <= k < |ps| ==> Owns(vs, ps[k].voice, ps[k].frequency)
  }

  // ---------------------------------------------------------------------
  // What a level file builds

  /** What the level holds of a sound source. */
  datatype CircleView = CircleView(pos: Vec2, freq: real)

  /** What a level file fixes of a particle source. */
  datatype SourceView = SourceView(pos: Vec2, pattern: seq<int>)

  /** What a level file fixes of a sink. */
  datatype SinkView = SinkView(pos: Vec2, freq: real, limit: int)

  /** The static contents of a level and the mixer table they register with. */
  datatype Contents = Contents(boxes: seq<Box>, circles: seq<CircleView>, sources: seq<SourceView>,
                               sinks: seq<SinkView>, voices: seq<SoundProperties>)

  /** The contents after building one directive: a box; a sound source and
      its silent voice; a particle source that has not emitted yet; or a
      sink, empty, whose voice the loader starts at once. */
  function Add(c: Contents, d: Directive): (r: Contents)
    ensures |r.voices| == |c.voices| + (if d.SoundDirective? || d.SinkDirective? then 1 else 0)
  {
    match d
    case BoxDirective(x, y, w, h) => c.(boxes := c.boxes + [Box(x, y, w, h)])
    case SoundDirective(x, y, f) =>
      c.(circles := c.circles + [CircleView(Vec2(x, y), f)], voices := c.voices + [SoundProperties(0.0, f)])
    case SourceDirective(x, y, p) => c.(sources := c.sources + [SourceView(Vec2(x, y), p)])
    case SinkDirective(x, y, f, limit) =>
      c.(sinks := c.sinks + [SinkView(Vec2(x, y), f, limit)],
         voices := c.voices + [SoundProperties(PlayVolume(1.0, 0.0), f)])
    case NoDirective => c
  }

  /** The contents after building every directive, in order. */
  function Load(base: Contents, ds: seq<Directive>): Contents
    decreases |ds|
  {
    if ds == [] then base else Add(Load(base, ds[..|ds| - 1]), ds[|ds| - 1])
  }

  /** Loading only adds: each list of the contents keeps what it had in front. */
  lemma {:induction false} LoadExtends(base: Contents, ds: seq<Directive>)
    ensures var r := Load(base, ds);
      |base.boxes| <= |r.boxes| && r.boxes[..|base.boxes|] == base.boxes &&
      |base.circles| <= |r.circles| && r.circles[..|base.circles|] == base.circles &&
      |base.sources| <= |r.sources| && r.sources[..|base.sources|] == base.sources &&
      |base.sinks| <= |r.sinks| && r.sinks[..|base.sinks|] == base.sinks &&
      |base.voices| <= |r.voices| && r.voices[..|base.voices|] == base.voices
    decreases |ds|
  {
    if ds != [] {
      var prev := Load(base, ds[..|ds| - 1]);
      LoadExtends(base, ds[..|ds| - 1]);
      var r := Load(base, ds);
      assert r.boxes[..|base.boxes|] == prev.boxes[..|base.boxes|];
      assert r.circles[..|base.circles|] == prev.circles[..|base.circles|];
      assert r.sources[..|base.sources|] == prev.sources[..|base.sources|];
      assert r.sinks[..|base.sinks|] == prev.sinks[..|base.sinks|];
      assert r.voices[..|base.voices|] == prev.voices[..|base.voices|];
    }
  }

  /** Loading two runs of directives is loading them one after the other. */
  lemma {:induction false} LoadAppend(base: Contents, ds: seq<Directive>, more: seq<Directive>)
    ensures Load(base, ds + more) == Load(Load(base, ds), more)
    decreases |more|
  {
    if more == [] {
      assert ds + more == ds;
    } else {
      LoadAppend(base, ds, more[..|more| - 1]);
      assert (ds + more)[..|ds + more| - 1] == ds + more[..|more| - 1];
      assert (ds + more)[|ds + more| - 1] == more[|more| - 1];
    }
  }

  /** Every voice a level file adds sounds at most at a fifth of full
      volume. */
  lemma {:induction false} LoadedQuiet(base: Contents, ds: seq<Directive>)
    ensures var r := Load(base, ds);
      |base.voices| <= |r.voices| && |base.sinks| <= |r.sinks| &&
      (forall j :: |base.voices| <= j < |r.voices| ==> 0.0 <= r.voices[j].volume <= 0.2)
    decreases |ds|
  {
    if ds != [] {
      LoadedQuiet(base, ds[..|ds| - 1]);
    }
  }

  /** A sound source as the level holds it. */
  function CircleViews(cs: seq<SoundSource>): seq<CircleView>
    decreases |cs|
  {
    if cs == [] then [] else CircleViews(cs[..|cs| - 1]) + [CircleView(cs[|cs| - 1].pos, cs[|cs| - 1].frequency)]
  }

  /** Particle sources as the level holds them. */
  function SourceViews(ss: seq<ParticleSource>): seq<SourceView>
    decreases |ss|
  {
    if ss == [] then []
    else
      var s := ss[|ss| - 1];
      SourceViews(ss[..|ss| - 1]) + [SourceView(s.pos, s.pattern)]
  }

  /** Sinks as the level holds them. */
  function SinkViews(ss: seq<ParticleSink>): seq<SinkView>
    decreases |ss|
  {
    if ss == [] then []
    else
      var s := ss[|ss| - 1];
      SinkViews(ss[..|ss| - 1]) + [SinkView(s.pos, s.frequency, s.limit)]
  }

  /** The directives of a file, one line longer. */
  lemma DirectivesStep(lines: seq<string>, i: nat, scan: Scanner)
    requires 1 <= i < |lines|
    ensures Directives(lines[..i + 1], scan) == Directives(lines[..i], scan) + LineDirectives(lines[i], scan)
  {
    assert lines[..i + 1] == lines[..i] + [lines[i]];
    DirectivesSnoc(lines[..i], lines[i], scan);
  }

  /** Loading line `i` on top of the lines before it loads the file up to
      and including line `i`. */
  lemma LoadNextLine(base: Contents, lines: seq<string>, i: nat, next: nat, scan: Scanner)
    requires 1 <= i < |lines| && next == i + 1
    ensures Load(Load(base, Directives(lines[..i], scan)), LineDirectives(lines[i], scan))
            == Load(base, Directives(lines[..next], scan))
  {
    DirectivesStep(lines, i, scan);
    LoadAppend(base, Directives(lines[..i], scan), LineDirectives(lines[i], scan));
  }

  /** The directives of a file with one more line after the title. */
  lemma DirectivesSnoc(init: seq<string>, last: string, scan: Scanner)
    requires 1 <= |init|
    ensures Directives(init + [last], scan) == Directives(init, scan) + LineDirectives(last, scan)
  {
    var file := init + [last];
    assert file[..|file| - 1] == init && file[|file| - 1] == last;
  }

  /** A voice just added silent and then played at full volume sounds at
      the loudest level Play allows. */
  lemma PlayFreshVoice(vs: seq<SoundProperties>, f: real)
    ensures ApplyCall(vs + [SoundProperties(0.0, f)], Play(|vs|, 1.0)) == vs + [SoundProperties(PlayVolume(1.0, 0.0), f)]
  {
  }

  // ---------------------------------------------------------------------
  // One frame

  /** How far below the window a falling particle may go. */
  const FallMargin: real := 30.0

  /** Whether a particle at `at` has left a window of the given size. */
  predicate OffScreen(at: Vec2, width: real, height: real)
  {
    at.x < 0.0 || at.x > width || at.y > height + FallMargin
  }

  /** Whether sink `i` previews its pitch `elapsed` seconds into the level:
      sink 0 during the first second, sink 1 during the next, and so on. */
  predicate InPreview(i: int, elapsed: real)
  {
    elapsed > i as real && elapsed < (i + 1) as real
  }

  /** The preview flags of `n` sinks `elapsed` seconds into the level. */
  function PreviewFlags(n: nat, elapsed: real): (flags: seq<bool>)
    ensures |flags| == n && forall k :: 0 <= k < n ==> (flags[k] <==> InPreview(k, elapsed))
  {
    seq(n, k => InPreview(k, elapsed))
  }

  /** At most one sink previews at any moment. */
  lemma PreviewOneAtATime(i: int, j: int, elapsed: real)
    requires InPreview(i, elapsed) && InPreview(j, elapsed)
    ensures i == j
  {
  }

  /** The calls of one preview pass: each sink played at full volume in its
      own second and at volume 0 otherwise. */
  function PreviewCalls(sinks: seq<ParticleSink>, elapsed: real): (calls: seq<MixerCall>)
    ensures |calls| == |sinks|
    ensures forall i :: 0 <= i < |sinks| ==>
      calls[i] == Play(sinks[i].voice, if InPreview(i, elapsed) then 1.0 else 0.0)
  {
    seq(|sinks|, i requires 0 <= i < |sinks| => Play(sinks[i].voice, if InPreview(i, elapsed) then 1.0 else 0.0))
  }

  /** What the emission pass reads and writes of a particle source. */
  datatype Emitter = Emitter(pos: Vec2, pattern: seq<int>, last: real, count: int, index: int)

  /** A particle source as the emission pass sees it. */
  function EmitterOf(s: ParticleSource): Emitter
    reads s
  {
    Emitter(s.pos, s.pattern, s.lastEmissionTime, s.emissionCount, s.patternIndex)
  }

  /** Particle sources as the emission pass sees them. */
  function Emitters(ss: seq<ParticleSource>): (es: seq<Emitter>)
    reads ss
    ensures |es| == |ss| && forall k :: 0 <= k < |ss| ==> es[k] == EmitterOf(ss[k])
  {
    seq(|ss|, k reads ss requires 0 <= k < |ss| => EmitterOf(ss[k]))
  }

  /** A source after the emission pass at `now`: once the gate opens it
      records the emission and, if it has a pattern, moves its cursor on. */
  function Gate(e: Emitter, now: real): Emitter
  {
    if now - e.last > EmissionPeriod then
      e.(last := now, count := e.count + 1,
         index := if |e.pattern| > 0 then Advance(e.index, |e.pattern|) else e.index)
    else e
  }

  /** Whether a source emits a particle at `now`: its gate opens and it has
      a pitch to give. */
  predicate Emits(e: Emitter, now: real)
  {
    now - e.last > EmissionPeriod && |e.pattern| > 0
  }

  /** A new particle: where it appears and its pitch. */
  datatype Spawn = Spawn(at: Vec2, freq: real)

  /** The particles an emission pass over the sources creates, in source
      order: one at each source that emits, with the pitch under its cursor. */
  function Spawned(es: seq<Emitter>, now: real): (r: seq<Spawn>)
    requires forall k :: 0 <= k < |es| ==> CursorInRange(es[k].pattern, es[k].index)
    ensures |r| <= |es|
    decreases |es|
  {
    if es == [] then []
    else
      var e := es[|es| - 1];
      assert CursorInRange(e.pattern, e.index);
      Spawned(es[..|es| - 1], now) +
      (if Emits(e, now) then [Spawn(e.pos, e.pattern[e.index] as real)] else [])
  }

  /** The silent voices that new particles register. */
  function SilentVoices(spawns: seq<Spawn>): (vs: seq<SoundProperties>)
    ensures |vs| == |spawns| && forall k :: 0 <= k < |spawns| ==> vs[k] == SoundProperties(0.0, spawns[k].freq)
  {
    seq(|spawns|, k requires 0 <= k < |spawns| => SoundProperties(0.0, spawns[k].freq))
  }

  /** One more source seen by the emission pass. */
  lemma SpawnedStep(es: seq<Emitter>, k: nat, now: real)
    requires k < |es|
    requires forall q :: 0 <= q < |es| ==> CursorInRange(es[q].pattern, es[q].index)
    ensures CursorInRange(es[k].pattern, es[k].index)
    ensures Spawned(es[..k + 1], now) == Spawned(es[..k], now) +
      (if Emits(es[k], now) then [Spawn(es[k].pos, es[k].pattern[es[k].index] as real)] else [])
  {
    assert es[..k + 1][..k] == es[..k];
  }

  /** The voices of two runs of spawns are those of each, in order. */
  lemma SilentVoicesAppend(a: seq<Spawn>, b: seq<Spawn>)
    ensures SilentVoices(a + b) == SilentVoices(a) + SilentVoices(b)
  {
  }

  /** A particle seen as `p` is the fresh particle of `s`, owning voice
      `voice`: at the source, pitched as the spawn says, with no history. */
  predicate Born(p: ParticleView, s: Spawn, voice: int)
  {
    p == ParticleView(s.freq, voice, s.at, Origin, Origin)
  }

  /** A source emits at most once at any instant: a gate that has just
      opened at `now` stays shut at `now`. */
  lemma GateOncePerInstant(e: Emitter, now: real)
    ensures Gate(Gate(e, now), now) == Gate(e, now)
    ensures !Emits(Gate(e, now), now)
  {
  }

  /** The gate keeps a cursor in range. */
  lemma GateKeepsCursor(e: Emitter, now: real)
    requires CursorInRange(e.pattern, e.index)
    ensures CursorInRange(Gate(e, now).pattern, Gate(e, now).index)
  {
  }

  /** When every source's gate is shut nothing is spawned. */
  lemma {:induction false} SpawnedNoneWhenShut(es: seq<Emitter>, now: real)
    requires forall k :: 0 <= k < |es| ==> CursorInRange(es[k].pattern, es[k].index)
    requires forall k :: 0 <= k < |es| ==> now - es[k].last <= EmissionPeriod
    ensures Spawned(es, now) == []
    decreases |es|
  {
    if es != [] {
      SpawnedNoneWhenShut(es[..|es| - 1], now);
    }
  }

  /** When every source emits, each spawns exactly one particle, in source
      order, at its position and with the pitch under its cursor. */
  lemma {:induction false} SpawnedOneEach(es: seq<Emitter>, now: real)
    requires forall k :: 0 <= k < |es| ==> CursorInRange(es[k].pattern, es[k].index) && Emits(es[k], now)
    ensures |Spawned(es, now)| == |es|
    ensures forall k :: 0 <= k < |es| ==> 0 <= es[k].index < |es[k].pattern|
    ensures forall k :: 0 <= k < |es| ==> Spawned(es, now)[k] == Spawn(es[k].pos, es[k].pattern[es[k].index] as real)
    decreases |es|
  {
    if es != [] {
      var n := |es| - 1;
      var init := es[..n];
      SpawnedOneEach(init, now);
      var e := es[n];
      assert CursorInRange(e.pattern, e.index) && Emits(e, now);
      var last := Spawn(e.pos, e.pattern[e.index] as real);
      assert Spawned(es, now) == Spawned(init, now) + [last];
      forall k | 0 <= k < |es|
        ensures Spawned(es, now)[k] == Spawn(es[k].pos, es[k].pattern[es[k].index] as real)
      {
        if k < n {
          assert es[k] == init[k];
        }
      }
    }
  }

  /** Every source after its gate at `now`. */
  function GatedAll(es: seq<Emitter>, now: real): (r: seq<Emitter>)
    ensures |r| == |es| && forall q :: 0 <= q < |es| ==> r[q] == Gate(es[q], now)
  {
    seq(|es|, q requires 0 <= q < |es| => Gate(es[q], now))
  }

  /** The emission pass's sources, one further on. */
  lemma GatedStep(es: seq<Emitter>, k: int, now: real)
    requires 0 <= k < |es|
    ensures (GatedAll(es[..k], now) + es[k..])[k := Gate(es[k], now)] == GatedAll(es[..k + 1], now) + es[k + 1..]
  {
  }

  /** The particles of some spawns as they appear, their voices numbered
      from `base` on. */
  function Newborn(spawns: seq<Spawn>, base: int): (vs: seq<ParticleView>)
    ensures |vs| == |spawns| && forall t :: 0 <= t < |spawns| ==> Born(vs[t], spawns[t], base + t)
  {
    seq(|spawns|, t requires 0 <= t < |spawns| => ParticleView(spawns[t].freq, base + t, spawns[t].at, Origin, Origin))
  }

  /** One more spawn, one more newborn particle. */
  lemma NewbornAppend(spawns: seq<Spawn>, s: Spawn, base: int)
    ensures Newborn(spawns + [s], base) == Newborn(spawns, base) + [ParticleView(s.freq, base + |spawns|, s.at, Origin, Origin)]
  {
  }

  /** After the emission pass has visited every source. */
  lemma EmissionEnds(es: seq<Emitter>, now: real)
    ensures GatedAll(es[..|es|], now) + es[|es|..] == GatedAll(es, now)
    ensures es[..|es|] == es
  {
    assert es[..|es|] == es;
  }

  /** Before the emission pass has visited any source. */
  lemma EmissionStarts(es: seq<Emitter>, vs: seq<ParticleView>, v0: seq<SoundProperties>, now: real)
    ensures GatedAll(es[..0], now) + es[0..] == es
    ensures Spawned(es[..0], now) == [] && vs + Newborn([], |v0|) == vs && v0 + SilentVoices([]) == v0
  {
    assert es[..0] == [];
  }

  /** The sound sources whose influence reaches a particle of matching
      pitch, in order. */
  function Matching(circles: seq<SoundSource>, p: ParticleView, dist: (Vec2, Vec2) -> real): seq<SoundSource>
    decreases |circles|
  {
    if circles == [] then []
    else
      var last := circles[|circles| - 1];
      Matching(circles[..|circles| - 1], p, dist) + (if last.ShouldRepel(p, dist) then [last] else [])
  }

  /** The matching sources are exactly those of `circles` that repel the
      particle, and no more of them than there are sources. */
  lemma {:induction false} MatchingExactly(circles: seq<SoundSource>, p: ParticleView, dist: (Vec2, Vec2) -> real)
    ensures |Matching(circles, p, dist)| <= |circles|
    ensures forall c :: c in Matching(circles, p, dist) <==> c in circles && c.ShouldRepel(p, dist)
    decreases |circles|
  {
    if circles != [] {
      var last := circles[|circles| - 1];
      MatchingExactly(circles[..|circles| - 1], p, dist);
      assert circles == circles[..|circles| - 1] + [last];
    }
  }

  /** How many particles each sink has absorbed. */
  function CountsOf(ss: seq<ParticleSink>): (cs: seq<int>)
    reads ss
    ensures |cs| == |ss| && forall k :: 0 <= k < |ss| ==> cs[k] == ss[k].collectionCount
  {
    seq(|ss|, k reads ss requires 0 <= k < |ss| => ss[k].collectionCount)
  }

  /** Which sinks are playing. */
  function PlayingOf(ss: seq<ParticleSink>): (ps: seq<bool>)
    reads ss
    ensures |ps| == |ss| && forall k :: 0 <= k < |ss| ==> ps[k] == ss[k].isPlaying
  {
    seq(|ss|, k reads ss requires 0 <= k < |ss| => ss[k].isPlaying)
  }

  /** What the rules read of each particle. */
  function Views(ps: seq<SoundParticle>): (vs: seq<ParticleView>)
    reads ps
    ensures |vs| == |ps| && forall q :: 0 <= q < |ps| ==> vs[q] == ps[q].View()
  {
    seq(|ps|, q reads ps requires 0 <= q < |ps| => ps[q].View())
  }

  /** The particles' views once each has updated. */
  function AdvancedAll(vs: seq<ParticleView>): (us: seq<ParticleView>)
    ensures |us| == |vs| && forall q :: 0 <= q < |vs| ==> us[q] == Advanced(vs[q])
  {
    seq(|vs|, q requires 0 <= q < |vs| => Advanced(vs[q]))
  }

  /** Every matching source, in order, pushes the particle and plays its own voice. */
  function RepelAll(m: seq<SoundSource>, p: ParticleView, dist: (Vec2, Vec2) -> real): seq<Event>
    decreases |m|
  {
    if m == [] then []
    else
      var r := m[|m| - 1].Repel(p, dist);
      RepelAll(m[..|m| - 1], p, dist) + [Push(p.voice, r.0), Sound(r.1)]
  }

  /** Repulsion only acts when fewer than two sources reach the particle. */
  function RepelEvents(m: seq<SoundSource>, p: ParticleView, dist: (Vec2, Vec2) -> real): seq<Event>
  {
    if |m| < 2 then RepelAll(m, p, dist) else []
  }

  /** A particle is repelled exactly when a single source reaches it, and
      then by that source. */
  lemma RepelOnlyUnopposed(m: seq<SoundSource>, p: ParticleView, dist: (Vec2, Vec2) -> real)
    ensures |RepelEvents(m, p, dist)| == if |m| == 1 then 2 else 0
    ensures |m| == 1 ==> RepelEvents(m, p, dist) == [Push(p.voice, m[0].Repel(p, dist).0), Sound(m[0].Repel(p, dist).1)]
  {
    if |m| == 1 {
      assert m[..0] == [];
      assert RepelAll(m[..0], p, dist) == [];
    }
  }

  /** The number of sinks that absorb the particle seen as `p`. */
  function CapturingSinks(sinks: seq<ParticleSink>, p: ParticleView, dist: (Vec2, Vec2) -> real): (n: nat)
    ensures n <= |sinks|
    decreases |sinks|
  {
    if sinks == [] then 0
    else (if sinks[0].BandOf(p, dist) == Captured then 1 else 0) + CapturingSinks(sinks[1..], p, dist)
  }

  /** The count of absorbing sinks is positive exactly when some sink's
      band captures the particle. */
  lemma {:induction false} CapturingSinksExactly(sinks: seq<ParticleSink>, p: ParticleView, dist: (Vec2, Vec2) -> real)
    ensures CapturingSinks(sinks, p, dist) > 0 <==> exists k :: 0 <= k < |sinks| && sinks[k].BandOf(p, dist) == Captured
    decreases |sinks|
  {
    if sinks != [] && sinks[0].BandOf(p, dist) != Captured {
      var tail := sinks[1..];
      CapturingSinksExactly(tail, p, dist);
      if CapturingSinks(tail, p, dist) > 0 {
        var k :| 0 <= k < |tail| && tail[k].BandOf(p, dist) == Captured;
        assert sinks[k + 1] == tail[k];
      }
      if exists k :: 0 <= k < |sinks| && sinks[k].BandOf(p, dist) == Captured {
        var k :| 0 <= k < |sinks| && sinks[k].BandOf(p, dist) == Captured;
        assert tail[k - 1] == sinks[k];
      }
    }
  }

  /** The pull of one sink on the particle seen as `p`: one force if the
      particle is in its pulling band, none otherwise. */
  function PullOf(sink: ParticleSink, p: ParticleView, dist: (Vec2, Vec2) -> real): seq<Event>
  {
    if sink.BandOf(p, dist) == Pulled then [Push(p.voice, Attraction(sink.pos, AttractionStrength))] else []
  }

  /** The pulls of every sink the particle is near, in sink order; a sink
      that absorbs it does not pull it, and the sinks after it are still
      asked. */
  function Pulls(sinks: seq<ParticleSink>, p: ParticleView, dist: (Vec2, Vec2) -> real): seq<Event>
    decreases |sinks|
  {
    if sinks == [] then []
    else PullOf(sinks[0], p, dist) + Pulls(sinks[1..], p, dist)
  }

  /** Whether a particle leaves the level this frame. */
  predicate Leaves(p: ParticleView, sinks: seq<ParticleSink>, width: real, height: real, dist: (Vec2, Vec2) -> real)
  {
    OffScreen(p.body, width, height) || CapturingSinks(sinks, p, dist) > 0
  }

  /** What a particle's step asks for after its voice's decay, on screen
      or not: the repulsion of the sources that reach it, the pulls of the
      sinks it is near and then, if it leaves, its removal, once. */
  function Interactions(p: ParticleView, circles: seq<SoundSource>, sinks: seq<ParticleSink>,
                        width: real, height: real, dist: (Vec2, Vec2) -> real): seq<Event>
  {
    RepelEvents(Matching(circles, p, dist), p, dist) + Pulls(sinks, p, dist) +
    (if Leaves(p, sinks, width, height, dist) then [Sound(Remove(p.voice))] else [])
  }

  /** Everything one particle's step asks for, read after its history has
      advanced: its own voice's decay, then its interactions. */
  function StepEvents(p: ParticleView, circles: seq<SoundSource>, sinks: seq<ParticleSink>,
                      width: real, height: real, dist: (Vec2, Vec2) -> real): seq<Event>
  {
    [Sound(Stop(p.voice))] + Interactions(p, circles, sinks, width, height, dist)
  }

  /** The number of removals among some events. */
  function Removals(evs: seq<Event>): nat
    decreases |evs|
  {
    if evs == [] then 0
    else (if evs[0].Sound? && evs[0].call.Remove? then 1 else 0) + Removals(evs[1..])
  }

  lemma {:induction false} RemovalsAppend(a: seq<Event>, b: seq<Event>)
    ensures Removals(a + b) == Removals(a) + Removals(b)
    decreases |a|
  {
    if a != [] {
      assert (a + b)[0] == a[0];
      assert (a + b)[1..] == a[1..] + b;
      RemovalsAppend(a[1..], b);
    } else {
      assert a + b == b;
    }
  }

  lemma {:induction false} RepelNeverRemoves(m: seq<SoundSource>, p: ParticleView, dist: (Vec2, Vec2) -> real)
    ensures Removals(RepelAll(m, p, dist)) == 0
    decreases |m|
  {
    if m != [] {
      var r := m[|m| - 1].Repel(p, dist);
      RepelNeverRemoves(m[..|m| - 1], p, dist);
      RemovalsAppend(RepelAll(m[..|m| - 1], p, dist), [Push(p.voice, r.0), Sound(r.1)]);
      assert Removals([Push(p.voice, r.0), Sound(r.1)]) == 0 by {
        assert r.1.Play?;
        assert [Sound(r.1)][1..] == [];
        assert Removals([Sound(r.1)]) == 0;
        assert [Push(p.voice, r.0), Sound(r.1)][1..] == [Sound(r.1)];
      }
    }
  }

  lemma {:induction false} PullsNeverRemove(sinks: seq<ParticleSink>, p: ParticleView, dist: (Vec2, Vec2) -> real)
    ensures Removals(Pulls(sinks, p, dist)) == 0
    decreases |sinks|
  {
    if sinks != [] {
      var head := PullOf(sinks[0], p, dist);
      PullsNeverRemove(sinks[1..], p, dist);
      RemovalsAppend(head, Pulls(sinks[1..], p, dist));
      assert Removals(head) == 0 by {
        if head != [] { assert head[1..] == []; }
      }
    }
  }

  /** A particle is destroyed at most once in a frame, and exactly when it
      leaves the level. */
  lemma RemovedOnceIfLeaving(p: ParticleView, circles: seq<SoundSource>, sinks: seq<ParticleSink>,
                             width: real, height: real, dist: (Vec2, Vec2) -> real)
    ensures Removals(StepEvents(p, circles, sinks, width, height, dist)) ==
            if Leaves(p, sinks, width, height, dist) then 1 else 0
  {
    var head := [Sound(Stop(p.voice))];
    var gone := [Sound(Remove(p.voice))];
    var m := Matching(circles, p, dist);
    var tail := if Leaves(p, sinks, width, height, dist) then gone else [];
    assert Removals(head) == 0 by { assert head[1..] == []; }
    assert Removals(gone) == 1 by { assert gone[1..] == []; }
    RepelNeverRemoves(m, p, dist);
    assert Removals(RepelEvents(m, p, dist)) == 0 by {
      if |m| >= 2 { assert RepelEvents(m, p, dist) == []; }
    }
    PullsNeverRemove(sinks, p, dist);
    RemovalsAppend(RepelEvents(m, p, dist), Pulls(sinks, p, dist));
    RemovalsAppend(RepelEvents(m, p, dist) + Pulls(sinks, p, dist), tail);
    RemovalsAppend(head, RepelEvents(m, p, dist) + Pulls(sinks, p, dist) + tail);
  }

  /** The particles still in the level after a frame, in order: those
      whose view `vs` says they do not leave. */
  function Survivors(ps: seq<SoundParticle>, vs: seq<ParticleView>, sinks: seq<ParticleSink>, width: real, height: real,
                     dist: (Vec2, Vec2) -> real): (r: seq<SoundParticle>)
    requires |vs| == |ps|
    ensures |r| <= |ps|
    decreases |ps|
  {
    if ps == [] then []
    else
      var n := |ps| - 1;
      Survivors(ps[..n], vs[..n], sinks, width, height, dist) +
      (if Leaves(vs[n], sinks, width, height, dist) then [] else [ps[n]])
  }

  /** Of distinct particles, the survivors are exactly those that do not
      leave, and nothing else. */
  lemma {:induction false} SurvivorsExactly(ps: seq<SoundParticle>, vs: seq<ParticleView>, sinks: seq<ParticleSink>,
                                            width: real, height: real, dist: (Vec2, Vec2) -> real)
    requires |vs| == |ps| && Distinct(ps)
    ensures forall q :: 0 <= q < |ps| ==>
      (ps[q] in Survivors(ps, vs, sinks, width, height, dist) <==> !Leaves(vs[q], sinks, width, height, dist))
    ensures forall p :: p in Survivors(ps, vs, sinks, width, height, dist) ==> p in ps
    decreases |ps|
  {
    if ps != [] {
      var n := |ps| - 1;
      SurvivorsExactly(ps[..n], vs[..n], sinks, width, height, dist);
      assert ps == ps[..n] + [ps[n]];
      forall q | 0 <= q < n
        ensures ps[q] in ps[..n] && ps[q] != ps[n]
      {
        assert ps[..n][q] == ps[q];
      }
    }
  }

  /** The survivors of particles that own their voices own theirs. */
  lemma {:induction false} SurvivorsVoiced(voices: seq<SoundProperties>, ps: seq<SoundParticle>, vs: seq<ParticleView>,
                                           sinks: seq<ParticleSink>, width: real, height: real, dist: (Vec2, Vec2) -> real)
    requires |vs| == |ps| && Voiced(voices, ps)
    ensures Voiced(voices, Survivors(ps, vs, sinks, width, height, dist))
    decreases |ps|
  {
    if ps != [] {
      var n := |ps| - 1;
      assert Voiced(voices, ps[..n]);
      SurvivorsVoiced(voices, ps[..n], vs[..n], sinks, width, height, dist);
    }
  }

  /** The views of the particles that stay, in order. */
  function Staying(us: seq<ParticleView>, sinks: seq<ParticleSink>, width: real, height: real,
                   dist: (Vec2, Vec2) -> real): seq<ParticleView>
    decreases |us|
  {
    if us == [] then []
    else
      var n := |us| - 1;
      Staying(us[..n], sinks, width, height, dist) + (if Leaves(us[n], sinks, width, height, dist) then [] else [us[n]])
  }

  /** The particles that stay are seen exactly as the views that stay. */
  lemma {:induction false} StayingViews(ps: seq<SoundParticle>, us: seq<ParticleView>, sinks: seq<ParticleSink>,
                                        width: real, height: real, dist: (Vec2, Vec2) -> real)
    requires Views(ps) == us
    ensures Views(Survivors(ps, us, sinks, width, height, dist)) == Staying(us, sinks, width, height, dist)
    decreases |ps|
  {
    if ps != [] {
      var n := |ps| - 1;
      assert Views(ps[..n]) == us[..n];
      StayingViews(ps[..n], us[..n], sinks, width, height, dist);
      var kept := Survivors(ps[..n], us[..n], sinks, width, height, dist);
      var last := if Leaves(us[n], sinks, width, height, dist) then [] else [ps[n]];
      assert Views(kept + last) == Views(kept) + Views(last);
    }
  }

  /** What stays is what does not leave, in order and no more. */
  lemma {:induction false} StayingExactly(us: seq<ParticleView>, sinks: seq<ParticleSink>, width: real, height: real,
                                          dist: (Vec2, Vec2) -> real)
    ensures |Staying(us, sinks, width, height, dist)| <= |us|
    ensures forall v :: v in Staying(us, sinks, width, height, dist) <==> v in us && !Leaves(v, sinks, width, height, dist)
    decreases |us|
  {
    if us != [] {
      var n := |us| - 1;
      StayingExactly(us[..n], sinks, width, height, dist);
      assert us == us[..n] + [us[n]];
    }
  }

  /** All the events of a frame's particle pass, particle by particle. */
  function AllStepEvents(vs: seq<ParticleView>, circles: seq<SoundSource>, sinks: seq<ParticleSink>,
                         width: real, height: real, dist: (Vec2, Vec2) -> real): seq<Event>
    decreases |vs|
  {
    if vs == [] then []
    else AllStepEvents(vs[..|vs| - 1], circles, sinks, width, height, dist) +
         StepEvents(vs[|vs| - 1], circles, sinks, width, height, dist)
  }

  /** Whether sink `j` absorbs the particle seen as `v`. */
  predicate CapturedBy(sinks: seq<ParticleSink>, j: int, v: ParticleView, dist: (Vec2, Vec2) -> real)
  {
    0 <= j < |sinks| && sinks[j].BandOf(v, dist) == Captured
  }

  /** How many of the particles sink `j` absorbs: every one within its
      capture radius, on screen or not. */
  function Captures(vs: seq<ParticleView>, sinks: seq<ParticleSink>, j: int, dist: (Vec2, Vec2) -> real): nat
    decreases |vs|
  {
    if vs == [] then 0
    else Captures(vs[..|vs| - 1], sinks, j, dist) + (if CapturedBy(sinks, j, vs[|vs| - 1], dist) then 1 else 0)
  }

  /** The counts `cs` of the sinks once the particle seen as `v` has
      stepped: every sink that absorbs it counts one more, whether it is
      on screen or not. */
  function Absorb(cs: seq<int>, v: ParticleView, sinks: seq<ParticleSink>, dist: (Vec2, Vec2) -> real): seq<int>
  {
    seq(|cs|, j requires 0 <= j < |cs| => cs[j] + if CapturedBy(sinks, j, v, dist) then 1 else 0)
  }

  /** Counts that have risen by one at every sink that absorbs the
      particle, and stayed as they were at every other, are `Absorb`'s. */
  lemma AbsorbEvery(cs: seq<int>, cs': seq<int>, v: ParticleView, sinks: seq<ParticleSink>, dist: (Vec2, Vec2) -> real)
    requires |cs'| == |cs| == |sinks|
    requires forall j :: 0 <= j < |cs| ==> cs'[j] == cs[j] + if sinks[j].BandOf(v, dist) == Captured then 1 else 0
    ensures Absorb(cs, v, sinks, dist) == cs'
  {
  }

  /** The sum of some counts. */
  function Total(cs: seq<int>): int
    decreases |cs|
  {
    if cs == [] then 0 else cs[0] + Total(cs[1..])
  }

  /** One step adds to the sinks' counts, all told, exactly the number of
      sinks that absorb the particle. */
  lemma {:induction false} AbsorbAddsCapturing(cs: seq<int>, v: ParticleView, sinks: seq<ParticleSink>,
                                               dist: (Vec2, Vec2) -> real)
    requires |cs| == |sinks|
    ensures Total(Absorb(cs, v, sinks, dist)) == Total(cs) + CapturingSinks(sinks, v, dist)
    decreases |cs|
  {
    if cs != [] {
      var a := Absorb(cs, v, sinks, dist);
      var rest := Absorb(cs[1..], v, sinks[1..], dist);
      forall j | 0 <= j < |rest|
        ensures a[1..][j] == rest[j]
      {
        assert sinks[1..][j] == sinks[j + 1];
      }
      assert a[1..] == rest;
      AbsorbAddsCapturing(cs[1..], v, sinks[1..], dist);
    }
  }

  /** The counts `counts` of the sinks once the particles seen as `vs`
      have stepped. */
  function Tally(counts: seq<int>, vs: seq<ParticleView>, sinks: seq<ParticleSink>, dist: (Vec2, Vec2) -> real): seq<int>
  {
    seq(|counts|, j requires 0 <= j < |counts| => counts[j] + Captures(vs, sinks, j, dist))
  }

  /** The survivors of one more particle: it joins them unless it leaves. */
  lemma SurvivorsStep(ps: seq<SoundParticle>, us: seq<ParticleView>, k: int, sinks: seq<ParticleSink>,
                      width: real, height: real, dist: (Vec2, Vec2) -> real)
    requires 0 <= k < |ps| && |us| == |ps|
    ensures Survivors(ps[..k + 1], us[..k + 1], sinks, width, height, dist) ==
      Survivors(ps[..k], us[..k], sinks, width, height, dist) + (if Leaves(us[k], sinks, width, height, dist) then [] else [ps[k]])
  {
    assert ps[..k + 1][..k] == ps[..k];
    assert us[..k + 1][..k] == us[..k];
  }

  /** The pass's events over one more particle: its own come last. */
  lemma AllStepEventsStep(us: seq<ParticleView>, k: int, circles: seq<SoundSource>, sinks: seq<ParticleSink>,
                          width: real, height: real, dist: (Vec2, Vec2) -> real)
    requires 0 <= k < |us|
    ensures AllStepEvents(us[..k + 1], circles, sinks, width, height, dist) ==
      AllStepEvents(us[..k], circles, sinks, width, height, dist) + StepEvents(us[k], circles, sinks, width, height, dist)
  {
    assert us[..k + 1][..k] == us[..k];
  }

  /** The counts over one more particle: every sink that absorbs it counts it. */
  lemma TallyStep(counts: seq<int>, us: seq<ParticleView>, k: int, sinks: seq<ParticleSink>, dist: (Vec2, Vec2) -> real)
    requires 0 <= k < |us| && |counts| == |sinks|
    ensures Tally(counts, us[..k + 1], sinks, dist) == Absorb(Tally(counts, us[..k], sinks, dist), us[k], sinks, dist)
  {
    var u := us[..k + 1];
    assert u[..k] == us[..k];
    assert u[|u| - 1] == us[k];
    var t := Tally(counts, u, sinks, dist);
    var a := Absorb(Tally(counts, us[..k], sinks, dist), us[k], sinks, dist);
    forall j | 0 <= j < |counts|
      ensures t[j] == a[j]
    {
      assert Captures(u, sinks, j, dist) ==
        Captures(us[..k], sinks, j, dist) + (if CapturedBy(sinks, j, us[k], dist) then 1 else 0);
    }
  }

  /** The mixer calls among some events, in order. */
  function Calls(evs: seq<Event>): (calls: seq<MixerCall>)
    ensures |calls| <= |evs|
    decreases |evs|
  {
    if evs == [] then []
    else Calls(evs[..|evs| - 1]) + (if evs[|evs| - 1].Sound? then [evs[|evs| - 1].call] else [])
  }

  /** The forces among some events, in order. */
  function Pushes(evs: seq<Event>): (fs: seq<Event>)
    ensures |fs| <= |evs|
    ensures forall k :: 0 <= k < |fs| ==> fs[k].Push?
    decreases |evs|
  {
    if evs == [] then []
    else Pushes(evs[..|evs| - 1]) + (if evs[|evs| - 1].Push? then [evs[|evs| - 1]] else [])
  }

  /** Every event is either a call or a force: the two split a frame's
      events between them. */
  lemma {:induction false} CallsAndPushesSplit(evs: seq<Event>)
    ensures |Calls(evs)| + |Pushes(evs)| == |evs|
    decreases |evs|
  {
    if evs != [] {
      CallsAndPushesSplit(evs[..|evs| - 1]);
    }
  }

  /** The calls of two runs of events are the calls of each, in order. */
  lemma {:induction false} CallsAppend(a: seq<Event>, b: seq<Event>)
    ensures Calls(a + b) == Calls(a) + Calls(b)
    decreases |b|
  {
    if b == [] {
      assert a + b == a;
    } else {
      var init := b[..|b| - 1];
      assert (a + b)[..|a + b| - 1] == a + init;
      CallsAppend(a, init);
      ConcatAssoc(Calls(a), Calls(init), if b[|b| - 1].Sound? then [b[|b| - 1].call] else []);
    }
  }

  // ---------------------------------------------------------------------
  // A frame, seen as a value

  /** What a frame of the level reads and writes: the clock, the particles
      in flight, the particle sources, the sinks' counts and preview flags,
      and the mixer's voice table. */
  datatype Scene = Scene(startTime: real, views: seq<ParticleView>, emitters: seq<Emitter>,
                         counts: seq<int>, playing: seq<bool>, voices: seq<SoundProperties>)

  /** Every source's pattern cursor is in range. */
  predicate Ready(s: Scene)
  {
    forall k :: 0 <= k < |s.emitters| ==> CursorInRange(s.emitters[k].pattern, s.emitters[k].index)
  }

  /** The start of a frame at `now`: the clock starts if it has not, and
      each sink plays during its own second since the start and is silent
      otherwise. */
  function Begun(s: Scene, now: real, sinks: seq<ParticleSink>): Scene
  {
    var start := if s.startTime == -1.0 then now else s.startTime;
    s.(startTime := start,
       playing := PreviewFlags(|sinks|, now - start),
       voices := ApplyCalls(s.voices, PreviewCalls(sinks, now - start)))
  }

  /** The emission pass at `now`: the gates open and the new particles,
      each with a fresh silent voice, join those in flight. */
  function Emitted(s: Scene, now: real): Scene
    requires Ready(s)
  {
    var spawns := Spawned(s.emitters, now);
    s.(views := s.views + Newborn(spawns, |s.voices|),
       emitters := GatedAll(s.emitters, now),
       voices := s.voices + SilentVoices(spawns))
  }

  /** The particle pass: every particle updates, those that leave are gone,
      the sinks count what they absorb and the mixer hears every call. */
  function Swept(s: Scene, circles: seq<SoundSource>, sinks: seq<ParticleSink>, width: real, height: real,
                   dist: (Vec2, Vec2) -> real): Scene
  {
    var us := AdvancedAll(s.views);
    s.(views := Staying(us, sinks, width, height, dist),
       counts := Tally(s.counts, us, sinks, dist),
       voices := ApplyCalls(s.voices, Calls(AllStepEvents(us, circles, sinks, width, height, dist))))
  }

  /** The forces the particle pass asks for, in order. */
  function Forces(s: Scene, circles: seq<SoundSource>, sinks: seq<ParticleSink>, width: real, height: real,
                  dist: (Vec2, Vec2) -> real): seq<Event>
  {
    Pushes(AllStepEvents(AdvancedAll(s.views), circles, sinks, width, height, dist))
  }

  /** One whole frame at `now`. */
  function Frame(s: Scene, now: real, circles: seq<SoundSource>, sinks: seq<ParticleSink>, width: real, height: real,
                 dist: (Vec2, Vec2) -> real): Scene
    requires Ready(s)
  {
    Swept(Emitted(Begun(s, now, sinks), now), circles, sinks, width, height, dist)
  }

  /** The clock starts on the first frame and never moves after. */
  lemma ClockStartsOnce(s: Scene, now: real, later: real, circles: seq<SoundSource>, sinks: seq<ParticleSink>,
                        width: real, height: real, dist: (Vec2, Vec2) -> real)
    requires Ready(s)
    ensures Frame(s, now, circles, sinks, width, height, dist).startTime ==
      if s.startTime == -1.0 then now else s.startTime
    ensures s.startTime != -1.0 ==> Frame(s, later, circles, sinks, width, height, dist).startTime == s.startTime
  {
  }

  /** In any frame at most one sink previews, and only during its own second. */
  lemma PreviewIsExclusive(s: Scene, now: real, circles: seq<SoundSource>, sinks: seq<ParticleSink>,
                           width: real, height: real, dist: (Vec2, Vec2) -> real)
    requires Ready(s)
    ensures var f := Frame(s, now, circles, sinks, width, height, dist);
      |f.playing| == |sinks| &&
      (forall i, j :: 0 <= i < j < |sinks| ==> !(f.playing[i] && f.playing[j])) &&
      forall i :: 0 <= i < |sinks| ==> (f.playing[i] <==> InPreview(i, now - f.startTime))
  {
    var f := Frame(s, now, circles, sinks, width, height, dist);
    forall i, j | 0 <= i < j < |sinks|
      ensures !(f.playing[i] && f.playing[j])
    {
      if f.playing[i] && f.playing[j] {
        PreviewOneAtATime(i, j, now - f.startTime);
      }
    }
  }

  /** Sinks' counts never go down in a frame, so a full sink stays full. */
  lemma CountsNeverDrop(s: Scene, now: real, circles: seq<SoundSource>, sinks: seq<ParticleSink>,
                        width: real, height: real, dist: (Vec2, Vec2) -> real)
    requires Ready(s)
    ensures var f := Frame(s, now, circles, sinks, width, height, dist);
      |f.counts| == |s.counts| && forall j :: 0 <= j < |s.counts| ==> f.counts[j] >= s.counts[j]
  {
  }

  /** The voice table only grows in a frame: by one silent voice per new
      particle, and no voice is ever retuned. */
  lemma VoicesOnlyGrow(s: Scene, now: real, circles: seq<SoundSource>, sinks: seq<ParticleSink>,
                       width: real, height: real, dist: (Vec2, Vec2) -> real)
    requires Ready(s)
    ensures var f := Frame(s, now, circles, sinks, width, height, dist);
      |f.voices| == |s.voices| + |Spawned(s.emitters, now)| &&
      forall j :: 0 <= j < |s.voices| ==> f.voices[j].freq == s.voices[j].freq
  {
    var b := Begun(s, now, sinks);
    var previews := PreviewCalls(sinks, now - b.startTime);
    assert b.voices == ApplyCalls(s.voices, previews) && b.emitters == s.emitters;
    ApplyCallsKeepsFrequencies(s.voices, previews);
    var spawns := Spawned(s.emitters, now);
    var e := Emitted(b, now);
    assert e.voices == b.voices + SilentVoices(spawns);
    var calls := Calls(AllStepEvents(AdvancedAll(e.views), circles, sinks, width, height, dist));
    assert Frame(s, now, circles, sinks, width, height, dist).voices == ApplyCalls(e.voices, calls);
    ApplyCallsKeepsFrequencies(e.voices, calls);
  }

  /** The particles after a frame are the arrivals, updated, that do not
      leave: none is lost that should stay and none is kept that leaves. */
  lemma ParticlesAfterFrame(s: Scene, now: real, circles: seq<SoundSource>, sinks: seq<ParticleSink>,
                            width: real, height: real, dist: (Vec2, Vec2) -> real)
    requires Ready(s)
    ensures var us := AdvancedAll(Emitted(Begun(s, now, sinks), now).views);
      var f := Frame(s, now, circles, sinks, width, height, dist);
      forall v :: v in f.views <==> v in us && !Leaves(v, sinks, width, height, dist)
  {
    var us := AdvancedAll(Emitted(Begun(s, now, sinks), now).views);
    StayingExactly(us, sinks, width, height, dist);
  }

  /** A source emits at most once at any instant: a second frame at the
      same `now` creates no particle. */
  lemma EmitsOncePerInstant(s: Scene, now: real, circles: seq<SoundSource>, sinks: seq<ParticleSink>,
                            width: real, height: real, dist: (Vec2, Vec2) -> real)
    requires Ready(s)
    ensures Ready(Frame(s, now, circles, sinks, width, height, dist))
    ensures Spawned(Frame(s, now, circles, sinks, width, height, dist).emitters, now) == []
  {
    var es := Frame(s, now, circles, sinks, width, height, dist).emitters;
    assert es == GatedAll(s.emitters, now);
    forall k | 0 <= k < |es|
      ensures CursorInRange(es[k].pattern, es[k].index) && now - es[k].last <= EmissionPeriod
    {
      GateKeepsCursor(s.emitters[k], now);
    }
    SpawnedNoneWhenShut(es, now);
  }

  // ---------------------------------------------------------------------
  // The particle pass as written

  /** How many times the pass as written erases at the loop index while it
      steps particle `p`: once if it is off screen, and once for every sink
      that absorbs it, since the sink loop goes on after a capture and the
      erased particle is still read (as it was) after each erase. */
  function ErasesAsWritten(p: ParticleView, sinks: seq<ParticleSink>, width: real, height: real,
                           dist: (Vec2, Vec2) -> real): (e: nat)
    ensures e <= |sinks| + 1
    ensures OffScreen(p.body, width, height) ==> e >= 1
  {
    (if OffScreen(p.body, width, height) then 1 else 0) + CapturingSinks(sinks, p, dist)
  }

  /** The corrected pass erases a particle exactly when the pass as written
      would erase at its index at least once. */
  lemma LeavesIffErased(p: ParticleView, sinks: seq<ParticleSink>, width: real, height: real,
                        dist: (Vec2, Vec2) -> real)
    ensures Leaves(p, sinks, width, height, dist) <==> ErasesAsWritten(p, sinks, width, height, dist) > 0
  {
  }

  /** A particle that is off screen and yet within a sink's capture radius
      makes the pass as written erase twice at the loop index: the particle
      itself, and then, since it is still stepped through the sinks after
      that erase and the index has moved back, the particle stepped before
      it (or a position before the start of the list). The corrected pass
      removes its voice once. */
  lemma OffScreenCaptureErasesTwice(p: ParticleView, circles: seq<SoundSource>, sinks: seq<ParticleSink>,
                                    width: real, height: real, dist: (Vec2, Vec2) -> real)
    requires OffScreen(p.body, width, height) && CapturingSinks(sinks, p, dist) > 0
    ensures ErasesAsWritten(p, sinks, width, height, dist) >= 2
    ensures Removals(StepEvents(p, circles, sinks, width, height, dist)) == 1
  {
    RemovedOnceIfLeaving(p, circles, sinks, width, height, dist);
  }

  /** Every entry of `live` is a position below `n`. */
  predicate Positions(live: seq<nat>, n: nat)
  {
    forall k :: 0 <= k < |live| ==> live[k] < n
  }

  /** `e` erases at the loop index `i`, each followed by `i--`; None once an
      erase falls before the start of the vector. */
  function EraseRun(live: seq<nat>, i: int, e: nat, n: nat): (r: Option<(seq<nat>, int)>)
    requires -1 <= i < |live| && Positions(live, n)
    ensures r.None? <==> e > i + 1
    ensures r.Some? ==> |r.value.0| == |live| - e && r.value.1 == i - e && r.value.1 >= -1
    ensures r.Some? ==> Positions(r.value.0, n)
    decreases e
  {
    if e == 0 then Some((live, i))
    else if i < 0 then None
    else
      var rest := live[..i] + live[i + 1..];
      assert forall k :: 0 <= k < |rest| ==> rest[k] == live[if k < i then k else k + 1];
      EraseRun(rest, i - 1, e - 1, n)
  }

  /** The particle loop of Level::update as written, on positions: `live`
      holds the positions (in the original list) of the particles still in
      the vector, `i` is the loop index and `erases[x]` how many times the
      step of the particle at position `x` erases. The result is the
      positions left, or None when the pass erases before the start. */
  function SweepAsWritten(live: seq<nat>, i: int, erases: seq<nat>): (r: Option<seq<nat>>)
    requires 0 <= i <= |live| && Positions(live, |erases|)
    ensures r.Some? ==> |r.value| <= |live| && Positions(r.value, |erases|)
    decreases |live| - i
  {
    if i == |live| then Some(live)
    else
      match EraseRun(live, i, erases[live[i]], |erases|)
      case None => None
      case Some(next) => SweepAsWritten(next.0, next.1 + 1, erases)
  }

  /** The positions a correct pass keeps, in order: those whose step erases nothing. */
  function Kept(live: seq<nat>, erases: seq<nat>): (r: seq<nat>)
    requires Positions(live, |erases|)
    ensures |r| <= |live|
    decreases |live|
  {
    if live == [] then []
    else
      assert Positions(live[1..], |erases|) by {
        assert forall k :: 1 <= k < |live| ==> live[k] == live[1..][k - 1];
      }
      (if erases[live[0]] == 0 then [live[0]] else []) + Kept(live[1..], erases)
  }

  /** Kept holds the positions whose step erases nothing, and only those. */
  lemma {:induction false} KeptExactly(live: seq<nat>, erases: seq<nat>)
    requires Positions(live, |erases|)
    ensures forall x :: x in Kept(live, erases) <==> x in live && erases[x] == 0
    decreases |live|
  {
    if live != [] {
      assert Positions(live[1..], |erases|) by {
        assert forall k :: 1 <= k < |live| ==> live[k] == live[1..][k - 1];
      }
      KeptExactly(live[1..], erases);
      assert live == [live[0]] + live[1..];
    }
  }

  /** While no step erases more than once, the pass as written keeps
      exactly what a correct pass keeps. */
  lemma {:induction false} SweepAgreesWhenSingle(live: seq<nat>, i: int, erases: seq<nat>)
    requires 0 <= i <= |live| && Positions(live, |erases|)
    requires forall k :: 0 <= k < |live| ==> erases[live[k]] <= 1
    ensures SweepAsWritten(live, i, erases) == Some(live[..i] + Kept(live[i..], erases))
    decreases |live| - i, 1
  {
    if i == |live| {
      assert live[i..] == [];
      assert Kept(live[i..], erases) == [];
      assert live[..i] + [] == live;
    } else if erases[live[i]] == 0 {
      SweepKeeps(live, i, erases);
    } else {
      SweepErases(live, i, erases);
    }
  }

  /** A particle that stays is passed over. */
  lemma {:induction false} SweepKeeps(live: seq<nat>, i: int, erases: seq<nat>)
    requires 0 <= i < |live| && Positions(live, |erases|)
    requires forall k :: 0 <= k < |live| ==> erases[live[k]] <= 1
    requires erases[live[i]] == 0
    ensures SweepAsWritten(live, i, erases) == Some(live[..i] + Kept(live[i..], erases))
    decreases |live| - i, 0
  {
    var x := live[i];
    KeptStep(live, i, erases);
    PassOver(live, i, erases);
    SweepAgreesWhenSingle(live, i + 1, erases);
    assert live[..i + 1] == live[..i] + [x];
    ConcatAssoc(live[..i], [x], Kept(live[i + 1..], erases));
  }

  /** The loop as written moves past a particle that erases nothing. */
  lemma PassOver(live: seq<nat>, i: int, erases: seq<nat>)
    requires 0 <= i < |live| && Positions(live, |erases|)
    requires erases[live[i]] == 0
    ensures SweepAsWritten(live, i, erases) == SweepAsWritten(live, i + 1, erases)
  {
    assert EraseRun(live, i, 0, |erases|) == Some((live, i));
  }

  /** A particle that leaves is erased once, and the loop index stays. */
  lemma {:induction false} SweepErases(live: seq<nat>, i: int, erases: seq<nat>)
    requires 0 <= i < |live| && Positions(live, |erases|)
    requires forall k :: 0 <= k < |live| ==> erases[live[k]] <= 1
    requires erases[live[i]] == 1
    ensures SweepAsWritten(live, i, erases) == Some(live[..i] + Kept(live[i..], erases))
    decreases |live| - i, 0
  {
    var rest := live[..i] + live[i + 1..];
    KeptStep(live, i, erases);
    EraseSingle(live, i, erases);
    assert SweepAsWritten(live, i, erases) == SweepAsWritten(rest, i, erases) by {
      assert EraseRun(live, i, 1, |erases|) == Some((rest, i - 1));
    }
    SweepAgreesWhenSingle(rest, i, erases);
    assert [] + Kept(live[i + 1..], erases) == Kept(live[i + 1..], erases);
  }

  /** The positions from `i` on that a correct pass keeps, one at a time. */
  lemma KeptStep(live: seq<nat>, i: int, erases: seq<nat>)
    requires 0 <= i < |live| && Positions(live, |erases|)
    ensures Kept(live[i..], erases) == (if erases[live[i]] == 0 then [live[i]] else []) + Kept(live[i + 1..], erases)
  {
    assert live[i..][0] == live[i];
    assert live[i..][1..] == live[i + 1..];
  }

  /** Erasing the entry at `i` keeps what is before and after it. */
  lemma EraseSingle(live: seq<nat>, i: int, erases: seq<nat>)
    requires 0 <= i < |live| && Positions(live, |erases|)
    requires forall k :: 0 <= k < |live| ==> erases[live[k]] <= 1
    ensures var rest := live[..i] + live[i + 1..];
      Positions(rest, |erases|) && (forall k :: 0 <= k < |rest| ==> erases[rest[k]] <= 1) &&
      rest[..i] == live[..i] && rest[i..] == live[i + 1..]
  {
    var rest := live[..i] + live[i + 1..];
    assert forall k :: 0 <= k < |rest| ==> rest[k] == live[if k < i then k else k + 1];
  }

  /** A particle absorbed by two sinks, stepped after one that stays, takes
      the one that stays with it; a correct pass keeps that one. */
  lemma DoubleCaptureErasesNeighbour()
    ensures SweepAsWritten([0, 1], 0, [0, 2]) == Some([])
    ensures Kept([0, 1], [0, 2]) == [0]
  {
    assert [0, 1][1..] == [1];
    assert SweepAsWritten([0, 1], 1, [0, 2]) == SweepAsWritten([], 0, [0, 2]) by {
      assert EraseRun([0, 1], 1, 2, 2) == EraseRun([0], 0, 1, 2);
      assert EraseRun([0], 0, 1, 2) == EraseRun([], -1, 0, 2);
    }
  }

  /** The first particle absorbed by two sinks makes the pass erase before
      the start of the vector. */
  lemma DoubleCaptureFirstUndefined()
    ensures SweepAsWritten([0], 0, [2]) == None
  {
    assert EraseRun([0], 0, 2, 1) == EraseRun([], -1, 1, 1);
  }

  // ---------------------------------------------------------------------
  // Contacts and teardown

  /** A fixture of the physics world; particles carry their voice as data. */
  datatype Fixture = Fixture(userData: Option<int>)

  /** The two fixtures of a contact, either of which may be absent. */
  datatype Contact = Contact(a: Option<Fixture>, b: Option<Fixture>)

  /** The voice a contact side carries, if any. */
  function CarriedVoice(f: Option<Fixture>): Option<int>
  {
    if f.Some? then f.value.userData else None
  }

  /** The calls a contact makes: every side that carries a voice plays it
      at full volume, side a first. */
  function ContactCalls(c: Contact): (calls: seq<MixerCall>)
    ensures |calls| == (if CarriedVoice(c.a).Some? then 1 else 0) + (if CarriedVoice(c.b).Some? then 1 else 0)
    ensures forall k :: 0 <= k < |calls| ==> calls[k].Play? && calls[k].volume == 1.0
    ensures forall k :: 0 <= k < |calls| ==>
              Some(calls[k].source) == CarriedVoice(c.a) || Some(calls[k].source) == CarriedVoice(c.b)
  {
    (if CarriedVoice(c.a).Some? then [Play(CarriedVoice(c.a).value, 1.0)] else []) +
    (if CarriedVoice(c.b).Some? then [Play(CarriedVoice(c.b).value, 1.0)] else [])
  }

  /** A contact between two particles of distinct voices whose volumes are
      in [0, 1] leaves both voices at a fifth of full volume. */
  lemma ContactSoundsBoth(vs: seq<SoundProperties>, va: int, vb: int)
    requires ValidSource(vs, va) && ValidSource(vs, vb) && va != vb
    requires VolumesInRange(vs)
    ensures var r := ApplyCalls(vs, ContactCalls(Contact(Some(Fixture(Some(va))), Some(Fixture(Some(vb))))));
      |r| == |vs| && r[va].volume == 0.2 && r[vb].volume == 0.2 &&
      forall j :: 0 <= j < |vs| && j != va && j != vb ==> r[j] == vs[j]
  {
    var calls := ContactCalls(Contact(Some(Fixture(Some(va))), Some(Fixture(Some(vb)))));
    assert calls == [Play(va, 1.0), Play(vb, 1.0)];
    var once := ApplyCall(vs, Play(va, 1.0));
    var twice := ApplyCall(once, Play(vb, 1.0));
    assert calls[1..] == [Play(vb, 1.0)];
    assert ApplyCalls(vs, calls) == ApplyCalls(once, [Play(vb, 1.0)]);
    assert ApplyCalls(once, [Play(vb, 1.0)]) == ApplyCalls(twice, []);
    assert 0.0 <= vs[va].volume <= 1.0 && 0.0 <= vs[vb].volume <= 1.0;
  }

  /** The voices of some particles, in order. */
  function ParticleVoices(ps: seq<SoundParticle>): (ids: seq<int>)
    ensures |ids| == |ps| && forall k :: 0 <= k < |ps| ==> ids[k] == ps[k].voice
  {
    seq(|ps|, k requires 0 <= k < |ps| => ps[k].voice)
  }

  /** The voices of some sound sources, in order. */
  function CircleVoices(cs: seq<SoundSource>): (ids: seq<int>)
    ensures |ids| == |cs| && forall k :: 0 <= k < |cs| ==> ids[k] == cs[k].voice
  {
    seq(|cs|, k requires 0 <= k < |cs| => cs[k].voice)
  }

  /** The voices of some sinks, in order. */
  function SinkVoices(ss: seq<ParticleSink>): (ids: seq<int>)
    ensures |ids| == |ss| && forall k :: 0 <= k < |ss| ==> ids[k] == ss[k].voice
  {
    seq(|ss|, k requires 0 <= k < |ss| => ss[k].voice)
  }

  // ---------------------------------------------------------------------
  // The level

  /** Every emitter's pattern cursor is in range. */
  ghost predicate Cursors(sources: seq<ParticleSource>)
    reads sources
  {
    forall i :: 0 <= i < |sources| ==> CursorInRange(sources[i].pattern, sources[i].patternIndex)
  }

  /** Every sounding entity owns a slot of `voices` tuned to its pitch. */
  ghost predicate Tuned(voices: seq<SoundProperties>, circles: seq<SoundSource>, sinks: seq<ParticleSink>,
                        particles: seq<SoundParticle>)
  {
    (forall k :: 0 <= k < |circles| ==> Owns(voices, circles[k].voice, circles[k].frequency)) &&
    (forall k :: 0 <= k < |sinks| ==> Owns(voices, sinks[k].voice, sinks[k].frequency)) &&
    Voiced(voices, particles)
  }

  /** Mixer calls never retune a voice, so they keep every entity tuned. */
  lemma TunedKeptByCalls(voices: seq<SoundProperties>, calls: seq<MixerCall>, circles: seq<SoundSource>,
                         sinks: seq<ParticleSink>, particles: seq<SoundParticle>)
    requires Tuned(voices, circles, sinks, particles)
    ensures Tuned(ApplyCalls(voices, calls), circles, sinks, particles)
  {
    ApplyCallsKeepsFrequencies(voices, calls);
  }

  class Level {
    /** The mixer every entity of the level registers its voice with. */
    const mixer: SoundMixer
    const title: string
    var boxes: seq<Box>
    var circles: seq<SoundSource>
    var sources: seq<ParticleSource>
    var sinks: seq<ParticleSink>
    var particles: seq<SoundParticle>
    /** When the first update ran; -1 until then. */
    var startTime: real

    /** No entity is held twice, every emitter's cursor is in range, and
        every sounding entity owns a mixer slot tuned to its pitch. */
    ghost predicate Valid()
      reads this, sources, mixer
    {
      Distinct(sources) && Distinct(sinks) && Distinct(particles) &&
      Cursors(sources) && Tuned(mixer.voices, circles, sinks, particles)
    }

    /** A level read from a file of `lines` (the constructor, through
        loadFromFile): the title is the first line, then one entity per
        directive, in file order, each registering its voice with `m`. The
        level has not started and holds no particle. */
    constructor (m: SoundMixer, lines: seq<string>, scan: Scanner)
      modifies m
      ensures Valid() && mixer == m && title == Title(lines)
      ensures Snapshot() == Load(Contents([], [], [], [], old(m.voices)), Directives(lines, scan))
      ensures particles == [] && startTime == -1.0
      ensures forall s :: s in sources ==> fresh(s)
      ensures forall s :: s in sinks ==> fresh(s)
      ensures m.mode == old(m.mode) && m.tick == old(m.tick)
    {
      mixer := m;
      title := Title(lines);
      boxes := [];
      circles := [];
      sources := [];
      sinks := [];
      particles := [];
      startTime := -1.0;
      new;
      ghost var base := Snapshot();
      assert base == Contents([], [], [], [], old(m.voices));
      LoadBody(lines, scan);
    }

    /** The level's static contents and the mixer table, as values. */
    ghost function Snapshot(): Contents
      reads this, mixer
    {
      Contents(boxes, CircleViews(circles), SourceViews(sources), SinkViews(sinks), mixer.voices)
    }

    /** What loading leaves alone: the mixer's mode and clock, the
        particles and the start time. */
    ghost predicate Untouched(mode: SoundMode, tick: int, ps: seq<SoundParticle>, start: real)
      reads this, mixer
    {
      mixer.mode == mode && mixer.tick == tick && particles == ps && startTime == start
    }

    /** The lines after the title, in order. */
    method LoadBody(lines: seq<string>, scan: Scanner)
      requires Valid() && sources == [] && sinks == []
      modifies this, mixer
      ensures Valid() && Snapshot() == Load(old(Snapshot()), Directives(lines, scan))
      ensures Untouched(old(mixer.mode), old(mixer.tick), old(particles), old(startTime))
      ensures forall s :: s in sources ==> fresh(s)
      ensures forall s :: s in sinks ==> fresh(s)
    {
      ghost var base, mode, tick, ps, start := Snapshot(), mixer.mode, mixer.tick, particles, startTime;
      var i := if lines == [] then 0 else 1;
      assert Directives(lines[..i], scan) == [];
      while i < |lines|
        invariant i <= |lines| && (lines != [] ==> 1 <= i)
        invariant Valid()
        invariant Snapshot() == Load(base, Directives(lines[..i], scan))
        invariant Untouched(mode, tick, ps, start)
        invariant forall s :: s in sources ==> fresh(s)
        invariant forall s :: s in sinks ==> fresh(s)
      {
        i := LoadLineAt(lines, i, scan, base);
      }
      assert lines[..i] == lines;
    }

    /** Line `i` of a file whose earlier lines are loaded on top of `base`. */
    method LoadLineAt(lines: seq<string>, i: nat, scan: Scanner, ghost base: Contents) returns (next: nat)
      requires 1 <= i < |lines|
      requires Valid() && Snapshot() == Load(base, Directives(lines[..i], scan))
      modifies this, mixer
      ensures next == i + 1
      ensures Valid() && Snapshot() == Load(base, Directives(lines[..next], scan))
      ensures Untouched(old(mixer.mode), old(mixer.tick), old(particles), old(startTime))
      ensures forall s :: s in sources ==> s in old(sources) || fresh(s)
      ensures forall s :: s in sinks ==> s in old(sinks) || fresh(s)
    {
      next := i + 1;
      LoadLine(lines[i], scan);
      LoadNextLine(base, lines, i, next, scan);
    }

    /** One line after the title: nothing if it is skipped, else the entity
        its directive describes. */
    method LoadLine(line: string, scan: Scanner)
      requires Valid()
      modifies this, mixer
      ensures Valid() && Snapshot() == Load(old(Snapshot()), LineDirectives(line, scan))
      ensures mixer.mode == old(mixer.mode) && mixer.tick == old(mixer.tick)
      ensures particles == old(particles) && startTime == old(startTime)
      ensures |old(sources)| <= |sources| && sources[..|old(sources)|] == old(sources)
      ensures forall k :: |old(sources)| <= k < |sources| ==> fresh(sources[k])
      ensures |old(sinks)| <= |sinks| && sinks[..|old(sinks)|] == old(sinks)
      ensures forall k :: |old(sinks)| <= k < |sinks| ==> fresh(sinks[k])
    {
      if !Skipped(line) {
        var d := ParseDirective(line, scan);
        Build(d);
        assert [d][..0] == [];
      }
    }

    /** Builds the entity one directive describes, after the others. */
    method Build(d: Directive)
      requires Valid()
      modifies this, mixer
      ensures Valid() && Snapshot() == Add(old(Snapshot()), d)
      ensures mixer.mode == old(mixer.mode) && mixer.tick == old(mixer.tick)
      ensures particles == old(particles) && startTime == old(startTime)
      ensures |old(sources)| <= |sources| && sources[..|old(sources)|] == old(sources)
      ensures forall k :: |old(sources)| <= k < |sources| ==> fresh(sources[k])
      ensures |old(sinks)| <= |sinks| && sinks[..|old(sinks)|] == old(sinks)
      ensures forall k :: |old(sinks)| <= k < |sinks| ==> fresh(sinks[k])
    {
      match d
      case BoxDirective(x, y, w, h) =>
        boxes := boxes + [Box(x, y, w, h)];
      case SoundDirective(x, y, f) =>
        AddSound(x, y, f);
      case SourceDirective(x, y, pattern) =>
        AddSource(x, y, pattern);
      case SinkDirective(x, y, f, limit) =>
        AddSink(x, y, f, limit);
      case NoDirective =>
    }

    /** A `sound` directive: a sound source and its silent voice. */
    method AddSound(x: real, y: real, f: real)
      requires Valid()
      modifies this, mixer
      ensures Valid() && Snapshot() == Add(old(Snapshot()), SoundDirective(x, y, f))
      ensures mixer.mode == old(mixer.mode) && mixer.tick == old(mixer.tick)
      ensures particles == old(particles) && startTime == old(startTime)
      ensures |old(sources)| <= |sources| && sources[..|old(sources)|] == old(sources)
      ensures forall k :: |old(sources)| <= k < |sources| ==> fresh(sources[k])
      ensures |old(sinks)| <= |sinks| && sinks[..|old(sinks)|] == old(sinks)
      ensures forall k :: |old(sinks)| <= k < |sinks| ==> fresh(sinks[k])
    {
      var c := new SoundSource(f, Vec2(x, y), mixer);
      circles := circles + [c];
      assert circles[..|circles| - 1] == old(circles);
    }

    /** A `source` directive: a particle emitter, which owns no voice. */
    method AddSource(x: real, y: real, pattern: seq<int>)
      requires Valid()
      modifies this
      ensures Valid() && Snapshot() == Add(old(Snapshot()), SourceDirective(x, y, pattern))
      ensures particles == old(particles) && startTime == old(startTime)
      ensures |old(sources)| <= |sources| && sources[..|old(sources)|] == old(sources)
      ensures forall k :: |old(sources)| <= k < |sources| ==> fresh(sources[k])
      ensures |old(sinks)| <= |sinks| && sinks[..|old(sinks)|] == old(sinks)
      ensures forall k :: |old(sinks)| <= k < |sinks| ==> fresh(sinks[k])
    {
      var src := new ParticleSource(pattern, Vec2(x, y));
      sources := sources + [src];
      assert sources[..|sources| - 1] == old(sources);
    }

    /** A `sink` directive: a sink, whose voice starts playing at once. */
    method AddSink(x: real, y: real, f: real, limit: int)
      requires Valid()
      modifies this, mixer
      ensures Valid() && Snapshot() == Add(old(Snapshot()), SinkDirective(x, y, f, limit))
      ensures sinks[|sinks| - 1].isPlaying && sinks[|sinks| - 1].collectionCount == 0
      ensures mixer.mode == old(mixer.mode) && mixer.tick == old(mixer.tick)
      ensures particles == old(particles) && startTime == old(startTime)
      ensures |old(sources)| <= |sources| && sources[..|old(sources)|] == old(sources)
      ensures forall k :: |old(sources)| <= k < |sources| ==> fresh(sources[k])
      ensures |old(sinks)| <= |sinks| && sinks[..|old(sinks)|] == old(sinks)
      ensures forall k :: |old(sinks)| <= k < |sinks| ==> fresh(sinks[k])
    {
      var sink := new ParticleSink(limit, f, Vec2(x, y), mixer);
      sinks := sinks + [sink];
      assert sinks[..|sinks| - 1] == old(sinks);
      PlayFreshVoice(old(mixer.voices), f);
      PlaySink(|sinks| - 1);
    }

    /** Sink `k` plays its pitch at full volume. */
    method PlaySink(k: int)
      requires Valid() && 0 <= k < |sinks|
      modifies sinks[k], mixer
      ensures Valid()
      ensures sinks[k].isPlaying && sinks[k].collectionCount == old(sinks[k].collectionCount)
      ensures mixer.voices == ApplyCall(old(mixer.voices), Play(sinks[k].voice, 1.0))
      ensures mixer.mode == old(mixer.mode) && mixer.tick == old(mixer.tick)
    {
      var call := sinks[k].Play();
      mixer.Apply(call);
    }

    /** Sink `k` falls silent. */
    method StopSink(k: int)
      requires Valid() && 0 <= k < |sinks|
      modifies sinks[k], mixer
      ensures Valid()
      ensures !sinks[k].isPlaying && sinks[k].collectionCount == old(sinks[k].collectionCount)
      ensures mixer.voices == ApplyCall(old(mixer.voices), Play(sinks[k].voice, 0.0))
      ensures mixer.mode == old(mixer.mode) && mixer.tick == old(mixer.tick)
    {
      var call := sinks[k].Stop();
      mixer.Apply(call);
    }

    // -------------------------------------------------------------------
    // Queries and events

    /** Whether every sink has absorbed as many particles as it holds. */
    ghost predicate AllFull()
      reads this, sinks
    {
      forall k :: 0 <= k < |sinks| ==> sinks[k].IsFull()
    }

    /** The level is complete when every sink is full; a level without
        sinks is complete at once. */
    method Complete() returns (done: bool)
      ensures done <==> AllFull()
    {
      var i := 0;
      while i < |sinks|
        invariant 0 <= i <= |sinks|
        invariant forall k :: 0 <= k < i ==> sinks[k].IsFull()
      {
        if !sinks[i].IsFull() {
          return false;
        }
        i := i + 1;
      }
      return true;
    }

    /** A contact plays, at full volume, the voice of each side that
        carries one. */
    method OnContactStart(c: Contact)
      requires Valid()
      modifies mixer
      ensures Valid()
      ensures mixer.voices == ApplyCalls(old(mixer.voices), ContactCalls(c))
      ensures mixer.mode == old(mixer.mode) && mixer.tick == old(mixer.tick)
    {
      mixer.ApplyAll(ContactCalls(c));
      ApplyCallsKeepsFrequencies(old(mixer.voices), ContactCalls(c));
    }

    /** Key 'r' drops every particle in flight, and each one's voice with
        it; other keys change nothing here. */
    method KeyPressed(key: char)
      requires Valid()
      modifies this, mixer
      ensures Valid()
      ensures key == 'r' ==> particles == []
      ensures key != 'r' ==> particles == old(particles) && mixer.voices == old(mixer.voices)
      ensures |mixer.voices| == |old(mixer.voices)|
      ensures forall j :: 0 <= j < |mixer.voices| && key == 'r' && j in ParticleVoices(old(particles)) ==>
                mixer.voices[j].volume == 0.0
      ensures forall j :: 0 <= j < |mixer.voices| && j !in ParticleVoices(old(particles)) ==>
                mixer.voices[j] == old(mixer.voices)[j]
      ensures boxes == old(boxes) && circles == old(circles)
      ensures sources == old(sources) && sinks == old(sinks) && startTime == old(startTime)
      ensures mixer.mode == old(mixer.mode) && mixer.tick == old(mixer.tick)
    {
      if key == 'r' {
        var ids := ParticleVoices(particles);
        particles := [];
        mixer.ApplyAll(RemoveAll(ids));
        RemovesSilence(old(mixer.voices), ids);
        ApplyCallsKeepsFrequencies(old(mixer.voices), RemoveAll(ids));
      }
    }

    /** The voices the level's entities own, in the order the destructor
        releases them: particles, then sound sources, then sinks. */
    function OwnedVoices(): seq<int>
      reads this
    {
      ParticleVoices(particles) + CircleVoices(circles) + SinkVoices(sinks)
    }

    /** The destructor: every entity goes, and every voice it owned falls
        silent; the table keeps its length and every other voice. */
    method Close()
      requires Valid()
      modifies this, mixer
      ensures boxes == [] && circles == [] && sources == [] && sinks == [] && particles == []
      ensures |mixer.voices| == |old(mixer.voices)|
      ensures forall j :: 0 <= j < |mixer.voices| && j in old(OwnedVoices()) ==> mixer.voices[j].volume == 0.0
      ensures forall j :: 0 <= j < |mixer.voices| && j !in old(OwnedVoices()) ==> mixer.voices[j] == old(mixer.voices)[j]
      ensures mixer.voices == ApplyCalls(old(mixer.voices), RemoveAll(old(OwnedVoices())))
      ensures mixer.mode == old(mixer.mode) && mixer.tick == old(mixer.tick)
    {
      var ids := OwnedVoices();
      boxes, particles, circles := [], [], [];
      sinks, sources := [], [];
      mixer.ApplyAll(RemoveAll(ids));
      RemovesSilence(old(mixer.voices), ids);
    }

    // -------------------------------------------------------------------
    // One frame, pass by pass

    /** The first update records the time the level started. */
    method StartClock(now: real)
      requires Valid()
      modifies this`startTime
      ensures Valid()
      ensures startTime == if old(startTime) == -1.0 then now else old(startTime)
    {
      if startTime == -1.0 {
        startTime := now;
      }
    }

    /** The preview pass has set the first `i` sinks. */
    ghost predicate PreviewedTo(elapsed: real, i: int, v0: seq<SoundProperties>, counts: seq<int>,
                                mode: SoundMode, tick: int)
      reads this, sources, sinks, mixer
    {
      0 <= i <= |sinks| && |counts| == |sinks| && Valid() &&
      (forall k :: 0 <= k < i ==> sinks[k].isPlaying == InPreview(k, elapsed)) &&
      (forall k :: 0 <= k < |sinks| ==> sinks[k].collectionCount == counts[k]) &&
      ApplyCalls(mixer.voices, PreviewCalls(sinks, elapsed)[i..]) == ApplyCalls(v0, PreviewCalls(sinks, elapsed)) &&
      mixer.mode == mode && mixer.tick == tick
    }

    /** Sink `k` during the preview pass, `elapsed` seconds in. */
    method PreviewSink(k: int, elapsed: real, ghost v0: seq<SoundProperties>, ghost counts: seq<int>,
                       ghost mode: SoundMode, ghost tick: int) returns (next: int)
      requires k < |sinks| && PreviewedTo(elapsed, k, v0, counts, mode, tick)
      modifies sinks[k], mixer
      ensures next == k + 1 && PreviewedTo(elapsed, next, v0, counts, mode, tick)
    {
      next := k + 1;
      ghost var calls := PreviewCalls(sinks, elapsed);
      assert calls[k..][1..] == calls[next..];
      var on := elapsed > k as real && elapsed < (k + 1) as real;
      SwitchSink(k, on);
    }

    /** Sink `k` plays if `on` and stops otherwise. */
    method SwitchSink(k: int, on: bool)
      requires Valid() && 0 <= k < |sinks|
      modifies sinks[k], mixer
      ensures Valid()
      ensures sinks[k].isPlaying == on && sinks[k].collectionCount == old(sinks[k].collectionCount)
      ensures mixer.voices == ApplyCall(old(mixer.voices), Play(sinks[k].voice, if on then 1.0 else 0.0))
      ensures mixer.mode == old(mixer.mode) && mixer.tick == old(mixer.tick)
    {
      if on {
        PlaySink(k);
      } else {
        StopSink(k);
      }
    }

    /** The preview pass: each sink plays its pitch during its own second
        after the start and is silent otherwise. */
    method PreviewSinks(elapsed: real)
      requires Valid()
      modifies sinks, mixer
      ensures Valid()
      ensures forall k :: 0 <= k < |sinks| ==> sinks[k].isPlaying == InPreview(k, elapsed)
      ensures forall k :: 0 <= k < |sinks| ==> sinks[k].collectionCount == old(sinks[k].collectionCount)
      ensures mixer.voices == ApplyCalls(old(mixer.voices), PreviewCalls(sinks, elapsed))
      ensures mixer.mode == old(mixer.mode) && mixer.tick == old(mixer.tick)
    {
      ghost var v0, counts, mode, tick := mixer.voices, CountsOf(sinks), mixer.mode, mixer.tick;
      var i := 0;
      while i < |sinks|
        invariant PreviewedTo(elapsed, i, v0, counts, mode, tick)
      {
        i := PreviewSink(i, elapsed, v0, counts, mode, tick);
      }
      assert PreviewCalls(sinks, elapsed)[i..] == [];
    }

    /** The particles the emission pass at `now` creates, one per source
        that emits, in source order. */
    ghost function Emissions(now: real): seq<Spawn>
      requires Cursors(sources)
      reads this, sources
    {
      Spawned(Emitters(sources), now)
    }

    /** The level as a frame sees it. */
    ghost function FrameState(): (s: Scene)
      reads this, particles, sources, sinks, mixer
      ensures Cursors(sources) ==> Ready(s)
    {
      Scene(startTime, Views(particles), Emitters(sources), CountsOf(sinks), PlayingOf(sinks), mixer.voices)
    }

    /** The emission pass at `now` has opened the gates of the first `g`
        sources, which were `es0` before it, and added the particles of the
        first `n`; the particles were `ps0`, seen as `vs0`, and the mixer
        table `v0`. */
    ghost predicate EmitState(now: real, g: int, n: int, es0: seq<Emitter>, ps0: seq<SoundParticle>,
                              vs0: seq<ParticleView>, v0: seq<SoundProperties>, mode: SoundMode, tick: int)
      reads this, sources, particles, mixer
    {
      0 <= n <= g <= |es0| && Valid() && |vs0| == |ps0| &&
      (forall q :: 0 <= q < |es0| ==> CursorInRange(es0[q].pattern, es0[q].index)) &&
      Emitters(sources) == GatedAll(es0[..g], now) + es0[g..] &&
      |particles| >= |ps0| && particles[..|ps0|] == ps0 &&
      Views(particles) == vs0 + Newborn(Spawned(es0[..n], now), |v0|) &&
      mixer.voices == v0 + SilentVoices(Spawned(es0[..n], now)) && mixer.mode == mode && mixer.tick == tick
    }

    /** Source `k` opens its gate if the period has passed and, if so and
        if it has a pattern, gives the pitch under its cursor. */
    method OpenGate(k: int, now: real) returns (freq: Option<real>)
      requires Valid() && 0 <= k < |sources|
      modifies sources[k]
      ensures Valid()
      ensures Emitters(sources) == old(Emitters(sources))[k := Gate(old(EmitterOf(sources[k])), now)]
      ensures freq.Some? <==> Emits(old(EmitterOf(sources[k])), now)
      ensures freq.Some? ==> freq.value == sources[k].pattern[old(sources[k].patternIndex)] as real
    {
      ghost var before := Emitters(sources);
      var source := sources[k];
      freq := None;
      var emit := source.ShouldEmitParticle(now);
      if emit {
        freq := source.NextFrequency();
      }
      forall q | 0 <= q < |sources|
        ensures Emitters(sources)[q] == before[k := Gate(before[k], now)][q]
      {
        if q != k {
          assert sources[q] != source;
        }
      }
    }

    /** A new particle at `at` with pitch `freq`, after the others, with a
        silent voice of its own. */
    method AddParticle(freq: real, at: Vec2) returns (p: SoundParticle)
      requires Valid()
      modifies this`particles, mixer
      ensures Valid() && fresh(p)
      ensures particles == old(particles) + [p]
      ensures Views(particles) == old(Views(particles)) + [ParticleView(freq, |old(mixer.voices)|, at, Origin, Origin)]
      ensures mixer.voices == old(mixer.voices) + [SoundProperties(0.0, freq)]
      ensures mixer.mode == old(mixer.mode) && mixer.tick == old(mixer.tick)
    {
      ghost var views := Views(particles);
      p := new SoundParticle(freq, at, mixer);
      assert Views(particles) == views;
      particles := particles + [p];
      assert Voiced(mixer.voices, particles) by {
        assert Voiced(old(mixer.voices), old(particles));
      }
    }

    /** Source `k` opens its gate during the emission pass, and gives the
        pitch of its particle if it emits one. */
    method GateAt(now: real, k: int, ghost es0: seq<Emitter>, ghost ps0: seq<SoundParticle>, ghost vs0: seq<ParticleView>,
                  ghost v0: seq<SoundProperties>, ghost mode: SoundMode, ghost tick: int)
      returns (freq: Option<real>)
      requires k < |es0| && EmitState(now, k, k, es0, ps0, vs0, v0, mode, tick)
      modifies sources[k]
      ensures EmitState(now, k + 1, k, es0, ps0, vs0, v0, mode, tick)
      ensures freq.Some? <==> Emits(es0[k], now)
      ensures freq.Some? ==> freq.value == es0[k].pattern[es0[k].index] as real
    {
      GatedStep(es0, k, now);
      ghost var views, voices := Views(particles), mixer.voices;
      assert EmitterOf(sources[k]) == es0[k];
      freq := OpenGate(k, now);
      assert Views(particles) == views && mixer.voices == voices;
    }

    /** The particle of source `k`, which emits with pitch `freq`, joins
        the others. */
    method SpawnAt(now: real, k: int, freq: real, ghost es0: seq<Emitter>, ghost ps0: seq<SoundParticle>,
                   ghost vs0: seq<ParticleView>, ghost v0: seq<SoundProperties>, ghost mode: SoundMode, ghost tick: int)
      returns (p: SoundParticle)
      requires k < |es0| && EmitState(now, k + 1, k, es0, ps0, vs0, v0, mode, tick)
      requires Emits(es0[k], now) && freq == es0[k].pattern[es0[k].index] as real
      modifies this`particles, mixer
      ensures EmitState(now, k + 1, k + 1, es0, ps0, vs0, v0, mode, tick)
      ensures particles == old(particles) + [p] && fresh(p)
    {
      SpawnedStep(es0, k, now);
      ghost var spawned := Spawned(es0[..k], now);
      ghost var sp := Spawn(es0[k].pos, freq);
      assert Spawned(es0[..k + 1], now) == spawned + [sp];
      ghost var emitters, list, voices := Emitters(sources), particles, mixer.voices;
      assert EmitterOf(sources[k]) == Gate(es0[k], now);
      p := AddParticle(freq, sources[k].pos);
      assert Emitters(sources) == emitters;
      assert particles[..|ps0|] == list[..|ps0|];
      SilentVoicesAppend(spawned, [sp]);
      assert SilentVoices([sp]) == [SoundProperties(0.0, freq)];
      ConcatAssoc(v0, SilentVoices(spawned), SilentVoices([sp]));
      NewbornAppend(spawned, sp, |v0|);
      ConcatAssoc(vs0, Newborn(spawned, |v0|), [ParticleView(freq, |voices|, es0[k].pos, Origin, Origin)]);
    }

    /** Source `k` during the emission pass: once its gate opens, and if it
        has a pitch to give, a particle appears at it with that pitch. */
    method EmitAt(now: real, k: int, ghost es0: seq<Emitter>, ghost ps0: seq<SoundParticle>, ghost vs0: seq<ParticleView>,
                  ghost v0: seq<SoundProperties>, ghost mode: SoundMode, ghost tick: int)
      requires k < |es0| && EmitState(now, k, k, es0, ps0, vs0, v0, mode, tick)
      modifies this`particles, sources[k], mixer
      ensures EmitState(now, k + 1, k + 1, es0, ps0, vs0, v0, mode, tick)
      ensures forall q :: q in particles ==> q in old(particles) || fresh(q)
    {
      var freq := GateAt(now, k, es0, ps0, vs0, v0, mode, tick);
      if freq.Some? {
        var p := SpawnAt(now, k, freq.value, es0, ps0, vs0, v0, mode, tick);
      } else {
        SpawnedStep(es0, k, now);
        assert Spawned(es0[..k + 1], now) == Spawned(es0[..k], now);
      }
    }

    /** The emission pass: every source whose gate opens at `now` and that
        has a pitch to give adds one particle, in source order, after the
        particles already in flight, each with a fresh silent voice. */
    method EmitParticles(now: real)
      requires Valid()
      modifies this`particles, sources, mixer
      ensures Valid()
      ensures Emitters(sources) == GatedAll(old(Emitters(sources)), now)
      ensures |particles| >= |old(particles)| && particles[..|old(particles)|] == old(particles)
      ensures Views(particles) == old(Views(particles)) + Newborn(old(Emissions(now)), |old(mixer.voices)|)
      ensures mixer.voices == old(mixer.voices) + SilentVoices(old(Emissions(now)))
      ensures mixer.mode == old(mixer.mode) && mixer.tick == old(mixer.tick)
      ensures forall q :: q in particles ==> q in old(particles) || fresh(q)
    {
      ghost var es0, ps0, vs0 := Emitters(sources), particles, Views(particles);
      ghost var v0, mode, tick := mixer.voices, mixer.mode, mixer.tick;
      EmissionStarts(es0, vs0, v0, now);
      EmitEach(now, es0, ps0, vs0, v0, mode, tick);
      EmissionEnds(es0, now);
    }

    /** The emission pass, seen on the frame's state. */
    method EmitFrame(now: real)
      requires Valid()
      modifies this`particles, sources, mixer
      ensures Valid()
      ensures FrameState() == Emitted(old(FrameState()), now)
      ensures mixer.mode == old(mixer.mode) && mixer.tick == old(mixer.tick)
      ensures forall q :: q in particles ==> q in old(particles) || fresh(q)
    {
      ghost var s0 := FrameState();
      EmitParticles(now);
      assert CountsOf(sinks) == s0.counts && PlayingOf(sinks) == s0.playing;
    }

    /** The loop of the emission pass, from the first source to the last. */
    method EmitEach(now: real, ghost es0: seq<Emitter>, ghost ps0: seq<SoundParticle>, ghost vs0: seq<ParticleView>,
                    ghost v0: seq<SoundProperties>, ghost mode: SoundMode, ghost tick: int)
      requires EmitState(now, 0, 0, es0, ps0, vs0, v0, mode, tick) && |sources| == |es0|
      modifies this`particles, sources, mixer
      ensures EmitState(now, |es0|, |es0|, es0, ps0, vs0, v0, mode, tick)
      ensures forall q :: q in particles ==> q in old(particles) || fresh(q)
    {
      var k := 0;
      while k < |sources|
        invariant k <= |sources| == |es0|
        invariant EmitState(now, k, k, es0, ps0, vs0, v0, mode, tick)
        invariant forall q :: q in particles ==> q in old(particles) || fresh(q)
      {
        EmitAt(now, k, es0, ps0, vs0, v0, mode, tick);
        k := k + 1;
      }
    }

    /** The sound sources that reach the particle seen as `p`, in order. */
    method Repellants(p: ParticleView, dist: (Vec2, Vec2) -> real) returns (m: seq<SoundSource>)
      ensures m == Matching(circles, p, dist)
    {
      m := [];
      var j := 0;
      while j < |circles|
        invariant 0 <= j <= |circles|
        invariant m == Matching(circles[..j], p, dist)
      {
        assert circles[..j + 1][..j] == circles[..j];
        if circles[j].ShouldRepel(p, dist) {
          m := m + [circles[j]];
        }
        j := j + 1;
      }
      assert circles[..j] == circles;
    }

    /** The repulsion of the particle seen as `p` by the sources that
        reach it: none unless fewer than two do. */
    static method RepelBy(m: seq<SoundSource>, p: ParticleView, dist: (Vec2, Vec2) -> real) returns (evs: seq<Event>)
      ensures evs == RepelEvents(m, p, dist)
    {
      evs := [];
      if |m| < 2 {
        var j := 0;
        while j < |m|
          invariant 0 <= j <= |m|
          invariant evs == RepelAll(m[..j], p, dist)
        {
          assert m[..j + 1][..j] == m[..j];
          var r := m[j].Repel(p, dist);
          evs := evs + [Push(p.voice, r.0), Sound(r.1)];
          j := j + 1;
        }
        assert m[..j] == m;
      }
    }

    /** The sink pass for particle `p`: every sink in turn pulls it, absorbs
        it or leaves it be, and each sink that absorbs it counts it. */
    method AttractAll(p: SoundParticle, dist: (Vec2, Vec2) -> real) returns (captured: bool, evs: seq<Event>)
      requires Distinct(sinks)
      modifies sinks
      ensures captured <==> CapturingSinks(sinks, p.View(), dist) > 0
      ensures evs == Pulls(sinks, p.View(), dist)
      ensures forall j :: 0 <= j < |sinks| ==>
        sinks[j].collectionCount == old(sinks[j].collectionCount) + (if sinks[j].BandOf(p.View(), dist) == Captured then 1 else 0)
      ensures forall j :: 0 <= j < |sinks| ==> sinks[j].isPlaying == old(sinks[j].isPlaying)
    {
      ghost var v, counts, playing := p.View(), CountsOf(sinks), PlayingOf(sinks);
      assert sinks[0..] == sinks;
      captured, evs := AttractEach(p, v, dist, counts, playing);
      assert sinks[|sinks|..] == [];
    }

    /** The loop of the sink pass, over every sink, for `p` seen as `v`. */
    method AttractEach(p: SoundParticle, ghost v: ParticleView, dist: (Vec2, Vec2) -> real,
                       ghost counts: seq<int>, ghost playing: seq<bool>)
      returns (captured: bool, evs: seq<Event>)
      requires AttractedTo(v, dist, 0, false, [], counts, playing) && p.View() == v
      modifies sinks
      ensures AttractedTo(v, dist, |sinks|, captured, evs, counts, playing)
    {
      captured, evs := false, [];
      var i := 0;
      while i < |sinks|
        invariant AttractedTo(v, dist, i, captured, evs, counts, playing) && p.View() == v
      {
        captured, evs := AttractAt(p, v, dist, i, captured, evs, counts, playing);
        i := i + 1;
      }
    }

    /** The sink pass for the particle seen as `p` has asked the first `j`
        sinks: `captured` says whether one of them absorbed it, `evs` holds
        their pulls, and each of them that absorbed it has counted it. */
    ghost predicate AttractedTo(p: ParticleView, dist: (Vec2, Vec2) -> real, j: int, captured: bool, evs: seq<Event>,
                                counts: seq<int>, playing: seq<bool>)
      reads this, sinks
    {
      0 <= j <= |sinks| && |counts| == |sinks| && |playing| == |sinks| && Distinct(sinks) &&
      (CapturingSinks(sinks, p, dist) > 0 <==> captured || CapturingSinks(sinks[j..], p, dist) > 0) &&
      Pulls(sinks, p, dist) == evs + Pulls(sinks[j..], p, dist) &&
      (forall k :: 0 <= k < |sinks| ==>
        sinks[k].collectionCount == counts[k] + (if k < j && sinks[k].BandOf(p, dist) == Captured then 1 else 0)) &&
      (forall k :: 0 <= k < |sinks| ==> sinks[k].isPlaying == playing[k])
    }

    /** Sink `j` attracts `p`, seen as `v`. */
    method AttractAt(p: SoundParticle, ghost v: ParticleView, dist: (Vec2, Vec2) -> real, j: int, captured: bool, evs: seq<Event>,
                     ghost counts: seq<int>, ghost playing: seq<bool>)
      returns (captured': bool, evs': seq<Event>)
      requires j < |sinks| && p.View() == v
      requires AttractedTo(v, dist, j, captured, evs, counts, playing)
      modifies sinks[j]
      ensures AttractedTo(v, dist, j + 1, captured', evs', counts, playing)
    {
      ghost var rest := sinks[j..];
      assert rest[0] == sinks[j] && rest[1..] == sinks[j + 1..];
      var absorbed, pull := sinks[j].Attract(p, dist);
      assert p.View() == v;
      captured' := captured || absorbed;
      evs' := if pull.Some? then evs + [Push(p.voice, pull.value)] else evs;
      ConcatAssoc(evs, PullOf(sinks[j], v, dist), Pulls(sinks[j + 1..], v, dist));
    }

    /** One particle's step after its history has shifted, on screen or
        not: the sources that reach it repel it, every sink pulls or
        absorbs it, and `leaves` says whether it goes, being off screen or
        absorbed. */
    method Interact(p: SoundParticle, ghost v: ParticleView, width: real, height: real, dist: (Vec2, Vec2) -> real)
      returns (leaves: bool, evs: seq<Event>)
      requires Distinct(sinks) && p.View() == v
      modifies sinks
      ensures leaves <==> Leaves(v, sinks, width, height, dist)
      ensures evs == Interactions(v, circles, sinks, width, height, dist)
      ensures CountsOf(sinks) == Absorb(old(CountsOf(sinks)), v, sinks, dist)
      ensures PlayingOf(sinks) == old(PlayingOf(sinks))
    {
      ghost var before := CountsOf(sinks);
      var offScreen := OffScreen(p.body, width, height);
      var m := Repellants(p.View(), dist);
      var repel := RepelBy(m, p.View(), dist);
      var captured, pulls := AttractAll(p, dist);
      leaves := offScreen || captured;
      evs := repel + pulls + if leaves then [Sound(Remove(p.voice))] else [];
      AbsorbEvery(before, CountsOf(sinks), v, sinks, dist);
    }

    /** The particles `ps` the pass started with, seen as `vs` then, once
        the first `k` of them have updated; `us` is how each looks after
        its update. */
    static ghost predicate Stepped(ps: seq<SoundParticle>, k: int, vs: seq<ParticleView>, us: seq<ParticleView>)
      reads ps
    {
      0 <= k <= |ps| && |vs| == |ps| && us == AdvancedAll(vs) && Views(ps) == us[..k] + vs[k..]
    }

    /** The `k`-th particle, `p`, updates: its voice fades and its history shifts. */
    static method ShiftAt(ghost ps: seq<SoundParticle>, ghost k: int, p: SoundParticle,
                          ghost vs: seq<ParticleView>, ghost us: seq<ParticleView>)
      returns (call: MixerCall)
      requires 0 <= k < |ps| && p == ps[k] && Distinct(ps) && Stepped(ps, k, vs, us)
      modifies p
      ensures Stepped(ps, k + 1, vs, us) && p.View() == us[k]
      ensures call == Stop(p.voice)
    {
      ghost var before := Views(ps);
      call := p.Update();
      forall q | 0 <= q < |ps|
        ensures Views(ps)[q] == (us[..k + 1] + vs[k + 1..])[q]
      {
        if q != k {
          assert ps[q] != p;
          assert Views(ps)[q] == before[q];
        }
      }
    }

    /** The particle pass has stepped the first `k` of the particles `ps`
        it started with: `evs` are their events, they have updated, and
        the sinks have counted those they absorbed. */
    static ghost predicate SweptState(ps: seq<SoundParticle>, vs: seq<ParticleView>, us: seq<ParticleView>, k: int,
                                      evs: seq<Event>, circles: seq<SoundSource>, sinks: seq<ParticleSink>,
                                      counts: seq<int>, playing: seq<bool>,
                                      width: real, height: real, dist: (Vec2, Vec2) -> real)
      reads ps, sinks
    {
      Stepped(ps, k, vs, us) &&
      |counts| == |sinks| && |playing| == |sinks| && Distinct(ps) && Distinct(sinks) &&
      evs == AllStepEvents(us[..k], circles, sinks, width, height, dist) &&
      CountsOf(sinks) == Tally(counts, us[..k], sinks, dist) && PlayingOf(sinks) == playing
    }

    /** As SweptState, and `list` holds, in order, the stepped particles
        that stay and then those not yet stepped; `i` is where the next one
        stands. */
    static ghost predicate SweptTo(ps: seq<SoundParticle>, vs: seq<ParticleView>, us: seq<ParticleView>, k: int, i: int,
                                   evs: seq<Event>, list: seq<SoundParticle>, circles: seq<SoundSource>, sinks: seq<ParticleSink>,
                                   counts: seq<int>, playing: seq<bool>,
                                   width: real, height: real, dist: (Vec2, Vec2) -> real)
      reads ps, sinks
    {
      SweptState(ps, vs, us, k, evs, circles, sinks, counts, playing, width, height, dist) &&
      list == Survivors(ps[..k], us[..k], sinks, width, height, dist) + ps[k..] &&
      i == |Survivors(ps[..k], us[..k], sinks, width, height, dist)|
    }

    /** One frame of the level at time `now`, in a window of the given
        size: the clock starts on the first frame; each sink previews its
        pitch during its own second; the sources emit; every particle
        steps. The forces the particles ask for are returned, in order,
        and the calls their steps make reach the mixer after the pass. */
    method Update(now: real, width: real, height: real, dist: (Vec2, Vec2) -> real) returns (forces: seq<Event>)
      requires Valid()
      modifies this`startTime, this`particles, particles, sources, sinks, mixer
      ensures Valid()
      ensures FrameState() == Frame(old(FrameState()), now, circles, sinks, width, height, dist)
      ensures forces == Forces(Emitted(Begun(old(FrameState()), now, sinks), now), circles, sinks, width, height, dist)
      ensures circles == old(circles) && sinks == old(sinks)
      ensures mixer.mode == old(mixer.mode) && mixer.tick == old(mixer.tick)
    {
      ghost var s0, cs, ss := FrameState(), circles, sinks;
      BeginFrame(now);
      ghost var s1 := FrameState();
      assert s1 == Begun(s0, now, ss);
      forces := Advance(now, width, height, dist);
      assert circles == cs && sinks == ss;
      assert FrameState() == Swept(Emitted(s1, now), cs, ss, width, height, dist);
      assert forces == Forces(Emitted(s1, now), cs, ss, width, height, dist);
    }

    /** The start of a frame: the clock and the sinks' preview. */
    method BeginFrame(now: real)
      requires Valid()
      modifies this`startTime, sinks, mixer
      ensures Valid()
      ensures FrameState() == Begun(old(FrameState()), now, sinks)
      ensures mixer.mode == old(mixer.mode) && mixer.tick == old(mixer.tick)
    {
      ghost var s0 := FrameState();
      StartClock(now);
      ghost var s1 := FrameState();
      assert s1 == s0.(startTime := startTime);
      var elapsed := now - startTime;
      ghost var target := s1.(playing := PreviewFlags(|sinks|, elapsed),
                              voices := ApplyCalls(mixer.voices, PreviewCalls(sinks, elapsed)));
      assert target == Begun(s0, now, sinks);
      PreviewFrame(elapsed);
      assert FrameState() == target;
    }

    /** The sinks' preview, seen on the frame's state. */
    method PreviewFrame(elapsed: real)
      requires Valid()
      modifies sinks, mixer
      ensures Valid()
      ensures FrameState() == old(FrameState()).(playing := PreviewFlags(|sinks|, elapsed),
                                                  voices := ApplyCalls(old(mixer.voices), PreviewCalls(sinks, elapsed)))
      ensures mixer.mode == old(mixer.mode) && mixer.tick == old(mixer.tick)
    {
      ghost var s0 := FrameState();
      PreviewSinks(elapsed);
      assert Emitters(sources) == s0.emitters && Views(particles) == s0.views;
      assert CountsOf(sinks) == s0.counts;
      assert PlayingOf(sinks) == PreviewFlags(|sinks|, elapsed);
    }

    /** The rest of a frame once the sinks have previewed: the sources
        emit, then every particle steps. */
    method Advance(now: real, width: real, height: real, dist: (Vec2, Vec2) -> real) returns (forces: seq<Event>)
      requires Valid()
      modifies this`particles, particles, sources, sinks, mixer
      ensures Valid()
      ensures FrameState() == Swept(Emitted(old(FrameState()), now), circles, sinks, width, height, dist)
      ensures forces == Forces(Emitted(old(FrameState()), now), circles, sinks, width, height, dist)
      ensures mixer.mode == old(mixer.mode) && mixer.tick == old(mixer.tick)
    {
      EmitFrame(now);
      assert forall k :: 0 <= k < |particles| ==> particles[k] in old(particles) || fresh(particles[k]);
      forces := StepFrame(width, height, dist);
    }

    /** The end of a frame: the particle pass, then its calls reach the mixer. */
    method StepAndMix(width: real, height: real, dist: (Vec2, Vec2) -> real) returns (forces: seq<Event>)
      requires Valid()
      modifies this`particles, particles, sinks, mixer
      ensures Valid()
      ensures var us := AdvancedAll(old(Views(particles)));
        Views(particles) == Staying(us, sinks, width, height, dist) &&
        CountsOf(sinks) == Tally(old(CountsOf(sinks)), us, sinks, dist) &&
        forces == Pushes(AllStepEvents(us, circles, sinks, width, height, dist)) &&
        mixer.voices == ApplyCalls(old(mixer.voices), Calls(AllStepEvents(us, circles, sinks, width, height, dist)))
      ensures PlayingOf(sinks) == old(PlayingOf(sinks))
      ensures mixer.mode == old(mixer.mode) && mixer.tick == old(mixer.tick)
    {
      ghost var ps := particles;
      ghost var us := AdvancedAll(Views(particles));
      var evs := StepParticles(width, height, dist);
      StayingViews(ps, us, sinks, width, height, dist);
      Deliver(Calls(evs));
      forces := Pushes(evs);
    }

    /** The mixer hears `calls`, in order; nothing else of the level changes. */
    method Deliver(calls: seq<MixerCall>)
      requires Valid()
      modifies mixer
      ensures Valid()
      ensures mixer.voices == ApplyCalls(old(mixer.voices), calls)
      ensures mixer.mode == old(mixer.mode) && mixer.tick == old(mixer.tick)
      ensures CountsOf(sinks) == old(CountsOf(sinks)) && PlayingOf(sinks) == old(PlayingOf(sinks))
      ensures Views(particles) == old(Views(particles))
    {
      ghost var voices := mixer.voices;
      mixer.ApplyAll(calls);
      TunedKeptByCalls(voices, calls, circles, sinks, particles);
    }

    /** The particle pass and its calls, seen on the frame's state. */
    method StepFrame(width: real, height: real, dist: (Vec2, Vec2) -> real) returns (forces: seq<Event>)
      requires Valid()
      modifies this`particles, particles, sinks, mixer
      ensures Valid()
      ensures FrameState() == Swept(old(FrameState()), circles, sinks, width, height, dist)
      ensures forces == Forces(old(FrameState()), circles, sinks, width, height, dist)
      ensures mixer.mode == old(mixer.mode) && mixer.tick == old(mixer.tick)
    {
      ghost var es := Emitters(sources);
      forces := StepAndMix(width, height, dist);
      assert Emitters(sources) == es;
    }

    /** The particle pass over the particles the frame started with. Each
        one updates; those off screen or absorbed leave, and the others
        keep their order. The events are those of each particle's step,
        read after its update, in order, and each sink counts the
        particles it absorbed. */
    method StepParticles(width: real, height: real, dist: (Vec2, Vec2) -> real) returns (evs: seq<Event>)
      requires Valid()
      modifies this`particles, particles, sinks
      ensures Valid()
      ensures Views(old(particles)) == AdvancedAll(old(Views(particles)))
      ensures particles == Survivors(old(particles), AdvancedAll(old(Views(particles))), sinks, width, height, dist)
      ensures evs == AllStepEvents(AdvancedAll(old(Views(particles))), circles, sinks, width, height, dist)
      ensures PlayingOf(sinks) == old(PlayingOf(sinks))
      ensures CountsOf(sinks) == Tally(old(CountsOf(sinks)), AdvancedAll(old(Views(particles))), sinks, dist)
    {
      ghost var vs := Views(particles);
      ghost var voices := mixer.voices;
      assert Voiced(voices, particles);
      var list;
      list, evs := SweepAll(particles, vs, width, height, dist);
      assert unchanged(this, mixer) && unchanged(sources);
      SurvivorsVoiced(voices, particles, AdvancedAll(vs), sinks, width, height, dist);
      KeepSurvivors(list, particles);
    }

    /** The particles that stay replace the level's list; what the pass did
        to every particle, sink and source is kept. */
    method KeepSurvivors(list: seq<SoundParticle>, ghost ps: seq<SoundParticle>)
      requires Distinct(sources) && Distinct(sinks) && Distinct(list) && Cursors(sources)
      requires Tuned(mixer.voices, circles, sinks, list)
      modifies this`particles
      ensures Valid()
      ensures particles == list
      ensures Views(ps) == old(Views(ps))
      ensures CountsOf(sinks) == old(CountsOf(sinks)) && PlayingOf(sinks) == old(PlayingOf(sinks))
      ensures Cursors(sources) == old(Cursors(sources))
    {
      particles := list;
    }

    /** The particle pass over the particles `ps`, seen as `vs` before it. */
    method SweepAll(ps: seq<SoundParticle>, ghost vs: seq<ParticleView>, width: real, height: real, dist: (Vec2, Vec2) -> real)
      returns (list: seq<SoundParticle>, evs: seq<Event>)
      requires Distinct(ps) && Distinct(sinks) && vs == Views(ps)
      modifies ps, sinks
      ensures Distinct(list)
      ensures Views(ps) == AdvancedAll(vs)
      ensures list == Survivors(ps, AdvancedAll(vs), sinks, width, height, dist)
      ensures evs == AllStepEvents(AdvancedAll(vs), circles, sinks, width, height, dist)
      ensures PlayingOf(sinks) == old(PlayingOf(sinks))
      ensures CountsOf(sinks) == Tally(old(CountsOf(sinks)), AdvancedAll(vs), sinks, dist)
    {
      ghost var us := AdvancedAll(vs);
      ghost var counts, playing := CountsOf(sinks), PlayingOf(sinks);
      SweepStarts(ps, vs, us, circles, sinks, width, height, dist);
      var i;
      ghost var k;
      list, i, k, evs := Sweep(ps, vs, us, counts, playing, width, height, dist);
      SweepEnds(ps, vs, us, k, i, evs, list, circles, sinks, counts, playing, width, height, dist);
    }

    /** The loop of the particle pass, from the first of the particles `ps`
        to the last. Particles that leave are erased from `list`, which
        starts as `ps`. */
    method Sweep(ps: seq<SoundParticle>, ghost vs: seq<ParticleView>, ghost us: seq<ParticleView>,
                 ghost counts: seq<int>, ghost playing: seq<bool>, width: real, height: real, dist: (Vec2, Vec2) -> real)
      returns (list: seq<SoundParticle>, i: int, ghost k: int, evs: seq<Event>)
      requires SweptTo(ps, vs, us, 0, 0, [], ps, circles, sinks, counts, playing, width, height, dist)
      modifies ps, sinks
      ensures i >= |list| && Distinct(list)
      ensures SweptTo(ps, vs, us, k, i, evs, list, circles, sinks, counts, playing, width, height, dist)
    {
      list, i, k, evs := ps, 0, 0, [];
      while i < |list|
        invariant Distinct(list)
        invariant SweptTo(ps, vs, us, k, i, evs, list, circles, sinks, counts, playing, width, height, dist)
        decreases |ps| - k
      {
        list, i, evs := StepAt(ps, vs, us, k, list, i, evs, counts, playing, width, height, dist);
        k := k + 1;
      }
    }

    /** Before the pass, nothing is stepped. */
    static lemma SweepStarts(ps: seq<SoundParticle>, vs: seq<ParticleView>, us: seq<ParticleView>,
                             circles: seq<SoundSource>, sinks: seq<ParticleSink>,
                             width: real, height: real, dist: (Vec2, Vec2) -> real)
      requires Distinct(ps) && Distinct(sinks) && vs == Views(ps) && us == AdvancedAll(vs)
      ensures SweptTo(ps, vs, us, 0, 0, [], ps, circles, sinks, CountsOf(sinks), PlayingOf(sinks), width, height, dist)
    {
      assert ps[..0] == [] && us[..0] == [];
      assert Tally(CountsOf(sinks), [], sinks, dist) == CountsOf(sinks);
    }

    /** Once the index passes the last particle, every particle is stepped. */
    static lemma SweepEnds(ps: seq<SoundParticle>, vs: seq<ParticleView>, us: seq<ParticleView>, k: int, i: int,
                           evs: seq<Event>, list: seq<SoundParticle>, circles: seq<SoundSource>, sinks: seq<ParticleSink>,
                           counts: seq<int>, playing: seq<bool>, width: real, height: real, dist: (Vec2, Vec2) -> real)
      requires SweptTo(ps, vs, us, k, i, evs, list, circles, sinks, counts, playing, width, height, dist)
      requires i >= |list|
      ensures Views(ps) == us
      ensures list == Survivors(ps, us, sinks, width, height, dist)
      ensures evs == AllStepEvents(us, circles, sinks, width, height, dist)
      ensures PlayingOf(sinks) == playing
      ensures CountsOf(sinks) == Tally(counts, us, sinks, dist)
    {
      assert k == |ps|;
      assert ps[..k] == ps && us[..k] == us;
    }

    /** Steps `list[i]`, the `k`-th of the particles the pass started
        with, and erases it from `list` if it leaves. */
    method StepAt(ghost ps: seq<SoundParticle>, ghost vs: seq<ParticleView>, ghost us: seq<ParticleView>, ghost k: int,
                  list: seq<SoundParticle>, i: int, evs: seq<Event>, ghost counts: seq<int>, ghost playing: seq<bool>,
                  width: real, height: real, dist: (Vec2, Vec2) -> real)
      returns (list': seq<SoundParticle>, i': int, evs': seq<Event>)
      requires Distinct(list) && i < |list|
      requires SweptTo(ps, vs, us, k, i, evs, list, circles, sinks, counts, playing, width, height, dist)
      modifies ps[k], sinks
      ensures Distinct(list')
      ensures SweptTo(ps, vs, us, k + 1, i', evs', list', circles, sinks, counts, playing, width, height, dist)
    {
      ghost var kept := Survivors(ps[..k], us[..k], sinks, width, height, dist);
      ListAt(list, kept, ps, k, i);
      var leaves;
      leaves, evs' := StepKth(ps, vs, us, k, list[i], evs, kept, counts, playing, width, height, dist);
      if leaves {
        DistinctErase(list, i);
        list', i' := list[..i] + list[i + 1..], i;
      } else {
        list', i' := list, i + 1;
      }
      ListStep(list, kept, ps, k, i, leaves);
      SweptToNext(ps, vs, us, k, i', evs', list', kept, leaves, circles, sinks, counts, playing, width, height, dist);
    }

    /** The pass has stepped the `k`-th particle, which stays or goes. */
    static lemma SweptToNext(ps: seq<SoundParticle>, vs: seq<ParticleView>, us: seq<ParticleView>, k: int, i: int,
                             evs: seq<Event>, list: seq<SoundParticle>, kept: seq<SoundParticle>, leaves: bool,
                             circles: seq<SoundSource>, sinks: seq<ParticleSink>, counts: seq<int>, playing: seq<bool>,
                             width: real, height: real, dist: (Vec2, Vec2) -> real)
      requires 0 <= k < |ps|
      requires SweptState(ps, vs, us, k + 1, evs, circles, sinks, counts, playing, width, height, dist)
      requires Survivors(ps[..k + 1], us[..k + 1], sinks, width, height, dist) == kept + (if leaves then [] else [ps[k]])
      requires leaves ==> list == kept + ps[k + 1..] && i == |kept|
      requires !leaves ==> list == (kept + [ps[k]]) + ps[k + 1..] && i == |kept| + 1
      ensures SweptTo(ps, vs, us, k + 1, i, evs, list, circles, sinks, counts, playing, width, height, dist)
    {
    }

    /** The particle at the pass's index is the next one to step. */
    static lemma ListAt<T>(list: seq<T>, kept: seq<T>, ps: seq<T>, k: int, i: int)
      requires 0 <= k <= |ps| && list == kept + ps[k..] && i == |kept| && i < |list|
      ensures k < |ps| && list[i] == ps[k]
    {
    }

    /** The list after the `k`-th particle stays or goes. */
    static lemma ListStep<T>(list: seq<T>, kept: seq<T>, ps: seq<T>, k: int, i: int, leaves: bool)
      requires 0 <= k < |ps| && list == kept + ps[k..] && i == |kept|
      ensures leaves ==> list[..i] + list[i + 1..] == kept + ps[k + 1..]
      ensures !leaves ==> list == (kept + [ps[k]]) + ps[k + 1..]
    {
      assert ps[k..] == [ps[k]] + ps[k + 1..];
      if leaves {
        assert list[..i] == kept;
        assert list[i + 1..] == ps[k + 1..];
      }
    }

    /** Steps the `k`-th particle, `p`, and extends what the pass has
        computed of the earlier ones by it. */
    method StepKth(ghost ps: seq<SoundParticle>, ghost vs: seq<ParticleView>, ghost us: seq<ParticleView>, ghost k: int,
                   p: SoundParticle, evs: seq<Event>, ghost kept: seq<SoundParticle>,
                   ghost counts: seq<int>, ghost playing: seq<bool>,
                   width: real, height: real, dist: (Vec2, Vec2) -> real)
      returns (leaves: bool, evs': seq<Event>)
      requires 0 <= k < |ps| && p == ps[k]
      requires SweptState(ps, vs, us, k, evs, circles, sinks, counts, playing, width, height, dist)
      requires kept == Survivors(ps[..k], us[..k], sinks, width, height, dist)
      modifies p, sinks
      ensures SweptState(ps, vs, us, k + 1, evs', circles, sinks, counts, playing, width, height, dist)
      ensures Survivors(ps[..k + 1], us[..k + 1], sinks, width, height, dist) == kept + (if leaves then [] else [p])
    {
      ghost var tally := CountsOf(sinks);
      var call := ShiftAt(ps, k, p, vs, us);
      assert CountsOf(sinks) == tally && PlayingOf(sinks) == playing;
      ghost var views := Views(ps);
      var e;
      leaves, e := Interact(p, us[k], width, height, dist);
      assert Views(ps) == views;
      evs' := evs + ([Sound(call)] + e);
      SurvivorsStep(ps, us, k, sinks, width, height, dist);
      AllStepEventsStep(us, k, circles, sinks, width, height, dist);
      TallyStep(counts, us, k, sinks, dist);
    }
  }
}

=== FILE: Mixing.dfy ===
/** The synthesiser mixer: a table of voices that only ever grows, the three
    volume envelopes applied to one slot at a time, and the render callback
    that mixes the active voices into an interleaved output buffer
    (src/ofSoundMixer.cpp). */
module Mixing {
  import opened Wrappers

  /** One voice of the table: its envelope value and its pitch in Hz. */
  datatype SoundProperties = SoundProperties(volume: real, freq: real)

  /** The waveform generator applied to every voice alike. */
  datatype SoundMode = SinMode | TriangleMode | SquareMode | SawMode

  /** A call that an entity makes on the voice it owns. `Remove` is the
      destructor's RemoveSource; the other three are the envelopes. */
  datatype MixerCall =
    | Ping(source: int, volume: real, duration: real)
    | Play(source: int, volume: real)
    | Stop(source: int)
    | Remove(source: int)

  /** Voices seeded by the constructor: 770 Hz for the first, 110 Hz lower for each next one. */
  const SeedFrequency: real := 770.0
  const SeedStep: real := 110.0

  /** openFrameworks' linear interpolation ofLerp(a, b, t). */
  function Lerp(a: real, b: real, t: real): real
  {
    a + (b - a) * t
  }

  /** std::max on two volumes. */
  function Max(a: real, b: real): real
  {
    if a < b then b else a
  }

  /** Volume after Ping(v): 80% of the way from v to full volume. It does
      not depend on the volume the voice had, nor on the duration argument. */
  function PingVolume(v: real): (r: real)
    ensures r == 0.2 * v + 0.8
    ensures 0.0 <= v <= 1.0 ==> 0.8 <= r <= 1.0
    ensures v <= 1.0 ==> v <= r
  {
    Lerp(v, 1.0, 0.8)
  }

  /** Volume after Play(v) on a voice at `cur`: the louder of the two, pulled
      80% of the way toward silence. */
  function PlayVolume(v: real, cur: real): (r: real)
    ensures r == 0.2 * Max(v, cur)
    ensures 0.0 <= Max(v, cur) ==> 0.0 <= r <= Max(v, cur)
    ensures 0.0 <= v <= 1.0 && 0.0 <= cur <= 1.0 ==> 0.0 <= r <= 0.2
  {
    Lerp(Max(v, cur), 0.0, 0.8)
  }

  /** Volume after Stop on a voice at `cur`: a 10% step toward silence. */
  function StopVolume(cur: real): (r: real)
    ensures r == 0.9 * cur
    ensures 0.0 <= cur ==> 0.0 <= r <= cur
    ensures 0.0 < cur ==> r < cur
  {
    Lerp(cur, 0.0, 0.1)
  }

  /** Whether `source` names a slot of the table. */
  predicate ValidSource(vs: seq<SoundProperties>, source: int)
  {
    0 <= source < |vs|
  }

  /** The table with slot `source` given a new volume. */
  function SetVolume(vs: seq<SoundProperties>, source: int, volume: real): (r: seq<SoundProperties>)
    requires ValidSource(vs, source)
    ensures |r| == |vs|
    ensures r[source] == SoundProperties(volume, vs[source].freq)
    ensures forall j :: 0 <= j < |vs| && j != source ==> r[j] == vs[j]
  {
    vs[source := vs[source].(volume := volume)]
  }

  /** The effect of one call on the table. A call naming no slot changes
      nothing (Remove included: this is the guarded RemoveSource, see
      RemoveAsWritten for the code as written). */
  function ApplyCall(vs: seq<SoundProperties>, call: MixerCall): (r: seq<SoundProperties>)
    ensures |r| == |vs|
    ensures forall j :: 0 <= j < |vs| ==> r[j].freq == vs[j].freq
    ensures forall j :: 0 <= j < |vs| && j != call.source ==> r[j] == vs[j]
    ensures !ValidSource(vs, call.source) ==> r == vs
  {
    if !ValidSource(vs, call.source) then vs
    else
      match call
      case Ping(s, v, _) => SetVolume(vs, s, PingVolume(v))
      case Play(s, v) => SetVolume(vs, s, PlayVolume(v, vs[s].volume))
      case Stop(s) => SetVolume(vs, s, StopVolume(vs[s].volume))
      case Remove(s) => SetVolume(vs, s, 0.0)
  }

  /** The effect of a sequence of calls, delivered in order. */
  function ApplyCalls(vs: seq<SoundProperties>, calls: seq<MixerCall>): seq<SoundProperties>
    decreases |calls|
  {
    if calls == [] then vs else ApplyCalls(ApplyCall(vs, calls[0]), calls[1..])
  }

  /** RemoveSource as written: it writes slot `source` without the range
      check the envelopes make. `None` stands for the write outside the
      vector, which the C++ leaves undefined. */
  function RemoveAsWritten(vs: seq<SoundProperties>, source: int): (r: Option<seq<SoundProperties>>)
    ensures r.Some? <==> ValidSource(vs, source)
    ensures r.Some? ==> r.value == SetVolume(vs, source, 0.0)
  {
    if ValidSource(vs, source) then Some(SetVolume(vs, source, 0.0)) else None
  }

  /** The one-past-the-end handle is undefined for RemoveSource as written,
      while the guarded Remove leaves the table as it is. */
  lemma RemoveAsWrittenPastEnd(vs: seq<SoundProperties>)
    ensures RemoveAsWritten(vs, |vs|) == None
    ensures RemoveAsWritten(vs, -1) == None
    ensures ApplyCall(vs, Remove(|vs|)) == vs && ApplyCall(vs, Remove(-1)) == vs
  {
  }

  /** Every voice's envelope value lies in [0, 1]. */
  ghost predicate VolumesInRange(vs: seq<SoundProperties>)
  {
    forall j :: 0 <= j < |vs| ==> 0.0 <= vs[j].volume <= 1.0
  }

  /** The volume argument of a call lies in [0, 1]. */
  predicate ArgumentInRange(call: MixerCall)
  {
    match call
    case Ping(_, v, _) => 0.0 <= v <= 1.0
    case Play(_, v) => 0.0 <= v <= 1.0
    case _ => true
  }

  /** One call with an argument in [0, 1] keeps every volume in [0, 1]. */
  lemma ApplyCallKeepsRange(vs: seq<SoundProperties>, call: MixerCall)
    requires VolumesInRange(vs) && ArgumentInRange(call)
    ensures VolumesInRange(ApplyCall(vs, call))
  {
    if ValidSource(vs, call.source) {
      var r := ApplyCall(vs, call);
      assert 0.0 <= r[call.source].volume <= 1.0 by {
        match call
        case Ping(s, v, _) =>
        case Play(s, v) => assert 0.0 <= vs[s].volume <= 1.0;
        case Stop(s) => assert 0.0 <= vs[s].volume <= 1.0;
        case Remove(s) =>
      }
    }
  }

  /** Calls with arguments in [0, 1] keep every volume in [0, 1], however many. */
  lemma {:induction false} ApplyCallsKeepsRange(vs: seq<SoundProperties>, calls: seq<MixerCall>)
    requires VolumesInRange(vs)
    requires forall k :: 0 <= k < |calls| ==> ArgumentInRange(calls[k])
    ensures VolumesInRange(ApplyCalls(vs, calls))
    decreases |calls|
  {
    if calls != [] {
      ApplyCallKeepsRange(vs, calls[0]);
      ApplyCallsKeepsRange(ApplyCall(vs, calls[0]), calls[1..]);
    }
  }

  /** Calls never change the number of voices or any voice's frequency. */
  lemma {:induction false} ApplyCallsKeepsFrequencies(vs: seq<SoundProperties>, calls: seq<MixerCall>)
    ensures |ApplyCalls(vs, calls)| == |vs|
    ensures forall j :: 0 <= j < |vs| ==> ApplyCalls(vs, calls)[j].freq == vs[j].freq
    decreases |calls|
  {
    if calls != [] {
      ApplyCallsKeepsFrequencies(ApplyCall(vs, calls[0]), calls[1..]);
    }
  }

  /** Playing a voice at full volume a second time leaves it where the first
      call did: the envelope settles at a fifth of full volume. */
  lemma PlayFullIdempotent(vs: seq<SoundProperties>, s: int)
    requires ValidSource(vs, s) && 0.0 <= vs[s].volume <= 1.0
    ensures ApplyCall(vs, Play(s, 1.0))[s].volume == 0.2
    ensures ApplyCall(ApplyCall(vs, Play(s, 1.0)), Play(s, 1.0)) == ApplyCall(vs, Play(s, 1.0))
  {
    var once := ApplyCall(vs, Play(s, 1.0));
    assert once[s].volume == 0.2;
    var twice := ApplyCall(once, Play(s, 1.0));
    assert twice[s] == once[s];
    assert forall j :: 0 <= j < |once| ==> twice[j] == once[j];
  }

  /** The destructor calls of a set of owners, one per voice. */
  function RemoveAll(ids: seq<int>): (calls: seq<MixerCall>)
    ensures |calls| == |ids|
    ensures forall k :: 0 <= k < |ids| ==> calls[k] == Remove(ids[k])
  {
    if ids == [] then [] else [Remove(ids[0])] + RemoveAll(ids[1..])
  }

  /** Removing a list of voices silences each of them and touches no other. */
  lemma {:induction false} RemovesSilence(vs: seq<SoundProperties>, ids: seq<int>)
    ensures |ApplyCalls(vs, RemoveAll(ids))| == |vs|
    ensures forall j :: 0 <= j < |vs| && j in ids ==> ApplyCalls(vs, RemoveAll(ids))[j].volume == 0.0
    ensures forall j :: 0 <= j < |vs| && j !in ids ==> ApplyCalls(vs, RemoveAll(ids))[j] == vs[j]
    decreases |ids|
  {
    if ids != [] {
      var first := ApplyCall(vs, Remove(ids[0]));
      assert RemoveAll(ids)[1..] == RemoveAll(ids[1..]);
      RemovesSilence(first, ids[1..]);
      assert ApplyCalls(vs, RemoveAll(ids)) == ApplyCalls(first, RemoveAll(ids[1..]));
      forall j | 0 <= j < |vs| && j in ids
        ensures ApplyCalls(vs, RemoveAll(ids))[j].volume == 0.0
      {
        if j !in ids[1..] {
          assert j == ids[0];
        }
      }
      forall j | 0 <= j < |vs| && j !in ids
        ensures ApplyCalls(vs, RemoveAll(ids))[j] == vs[j]
      {
        assert j != ids[0] && j !in ids[1..];
      }
    }
  }

  /** Whether every call names a slot below `n`. */
  predicate CallsBelow(calls: seq<MixerCall>, n: int)
  {
    forall k :: 0 <= k < |calls| ==> calls[k].source < n
  }

  /** Appending a voice commutes with calls on the voices already there: a
      model that delivers an entity's calls after a later AddSource ends
      with the same table as one that delivers them at once. */
  lemma {:induction false} AppendCommutes(vs: seq<SoundProperties>, p: SoundProperties, calls: seq<MixerCall>)
    requires CallsBelow(calls, |vs|)
    ensures ApplyCalls(vs + [p], calls) == ApplyCalls(vs, calls) + [p]
    decreases |calls|
  {
    if calls != [] {
      var c := calls[0];
      assert ApplyCall(vs + [p], c) == ApplyCall(vs, c) + [p] by {
        if ValidSource(vs, c.source) {
          assert (vs + [p])[c.source] == vs[c.source];
        }
      }
      AppendCommutes(ApplyCall(vs, c), p, calls[1..]);
    }
  }

  /** Voices that currently sound, in table order. */
  function Active(vs: seq<SoundProperties>): seq<SoundProperties>
    decreases |vs|
  {
    if vs == [] then []
    else Active(vs[..|vs| - 1]) + (if vs[|vs| - 1].volume > 0.0 then [vs[|vs| - 1]] else [])
  }

  /** Active keeps exactly the voices with a positive volume: nothing it
      keeps is silent, and it is empty only when every voice is silent. */
  lemma {:induction false} ActiveSoundsOnly(vs: seq<SoundProperties>)
    ensures |Active(vs)| <= |vs|
    ensures forall k :: 0 <= k < |Active(vs)| ==> Active(vs)[k].volume > 0.0
    ensures forall k :: 0 <= k < |Active(vs)| ==> Active(vs)[k] in vs
    ensures |Active(vs)| == 0 <==> forall j :: 0 <= j < |vs| ==> vs[j].volume <= 0.0
    decreases |vs|
  {
    if vs != [] {
      var init := vs[..|vs| - 1];
      ActiveSoundsOnly(init);
      assert vs == init + [vs[|vs| - 1]];
      if |Active(vs)| == 0 {
        forall j | 0 <= j < |vs| ensures vs[j].volume <= 0.0 {
          if j < |vs| - 1 { assert vs[j] == init[j]; }
        }
      }
    }
  }

  /** Sum of the per-voice samples of `voices` at `tick`; `sample` is the
      waveform generator, left uninterpreted. */
  function SumSamples(voices: seq<SoundProperties>, mode: SoundMode, tick: int,
                      sample: (SoundMode, SoundProperties, int) -> real): real
    decreases |voices|
  {
    if voices == [] then 0.0
    else SumSamples(voices[..|voices| - 1], mode, tick, sample) + sample(mode, voices[|voices| - 1], tick)
  }

  lemma SumSamplesSnoc(voices: seq<SoundProperties>, v: SoundProperties, mode: SoundMode, tick: int,
                       sample: (SoundMode, SoundProperties, int) -> real)
    ensures SumSamples(voices + [v], mode, tick, sample) == SumSamples(voices, mode, tick, sample) + sample(mode, v, tick)
  {
    assert (voices + [v])[..|voices|] == voices;
  }

  /** The value written to every channel of one frame: the mean of the
      active voices' samples, and silence when no voice is active. */
  function FrameSample(vs: seq<SoundProperties>, mode: SoundMode, tick: int,
                       sample: (SoundMode, SoundProperties, int) -> real): real
  {
    var active := Active(vs);
    if |active| == 0 then 0.0 else SumSamples(active, mode, tick, sample) / (|active| as real)
  }

  /** The frame value as written: the sum divided by the active count even
      when that count is 0. `None` stands for the float 0/0, a NaN. */
  function FrameSampleAsWritten(vs: seq<SoundProperties>, mode: SoundMode, tick: int,
                                sample: (SoundMode, SoundProperties, int) -> real): (r: Option<real>)
    ensures r.None? <==> |Active(vs)| == 0
  {
    var active := Active(vs);
    if |active| == 0 then None else Some(SumSamples(active, mode, tick, sample) / (|active| as real))
  }

  /** With every voice silent the frame as written is 0/0, where the
      corrected frame is silence; with a voice sounding the two agree. */
  lemma SilentTableDividesByZero(vs: seq<SoundProperties>, mode: SoundMode, tick: int,
                                 sample: (SoundMode, SoundProperties, int) -> real)
    requires forall j :: 0 <= j < |vs| ==> vs[j].volume <= 0.0
    ensures FrameSampleAsWritten(vs, mode, tick, sample) == None
    ensures FrameSample(vs, mode, tick, sample) == 0.0
  {
    ActiveSoundsOnly(vs);
  }

  /** Where some voice sounds, the corrected frame is the frame as written. */
  lemma SoundingTableAgrees(vs: seq<SoundProperties>, mode: SoundMode, tick: int,
                            sample: (SoundMode, SoundProperties, int) -> real, j: int)
    requires 0 <= j < |vs| && vs[j].volume > 0.0
    ensures FrameSampleAsWritten(vs, mode, tick, sample) == Some(FrameSample(vs, mode, tick, sample))
  {
    ActiveSoundsOnly(vs);
  }

  /** Index of channel `c` of frame `f` in an interleaved buffer of `n`
      channels, that is f * n + c (SlotIsProduct). */
  function Slot(f: nat, c: int, n: int): (r: int)
    ensures 0 <= c && 0 <= n ==> c <= r
    decreases f
  {
    if f == 0 then c else Slot(f - 1, c, n) + n
  }

  lemma {:induction false} SlotIsProduct(f: nat, c: int, n: int)
    ensures Slot(f, c, n) == f * n + c
    decreases f
  {
    if f > 0 {
      SlotIsProduct(f - 1, c, n);
    }
  }

  lemma {:induction false} SlotShift(f: nat, c: int, n: int)
    ensures Slot(f, c, n) == Slot(f, 0, n) + c
    decreases f
  {
    if f > 0 {
      SlotShift(f - 1, c, n);
    }
  }

  lemma {:induction false} SlotMonotone(f: nat, g: nat, n: int)
    requires f <= g && 0 <= n
    ensures Slot(f, 0, n) <= Slot(g, 0, n)
    decreases g
  {
    if f < g {
      SlotMonotone(f, g - 1, n);
    }
  }

  /** Channel `c` of frame `f` lies within frame `f`. */
  lemma SlotWithin(f: nat, c: int, n: int)
    requires 0 <= c < n
    ensures Slot(f, 0, n) <= Slot(f, c, n) < Slot(f + 1, 0, n)
  {
    SlotShift(f, c, n);
  }

  /** A slot of an earlier frame lies before the first slot of a later one. */
  lemma SlotBefore(f: nat, c: int, g: nat, n: int)
    requires 0 <= c < n && f < g
    ensures Slot(f, c, n) < Slot(g, 0, n)
  {
    SlotShift(f, c, n);
    SlotMonotone(f + 1, g, n);
  }

  /** Writes `value` into every channel of frame `f`: the inner loop of audioOut. */
  method WriteFrame(output: array<real>, f: nat, n: int, value: real)
    requires 0 <= n && Slot(f + 1, 0, n) <= output.Length
    modifies output
    ensures forall c :: 0 <= c < n ==> Slot(f, c, n) < output.Length && output[Slot(f, c, n)] == value
    ensures forall k :: 0 <= k < output.Length && !(Slot(f, 0, n) <= k < Slot(f + 1, 0, n)) ==>
              output[k] == old(output[k])
  {
    var i := Slot(f, 0, n);
    var j := 0;
    while j < n
      invariant 0 <= j <= n
      invariant forall c :: 0 <= c < j ==> Slot(f, c, n) < output.Length && output[Slot(f, c, n)] == value
      invariant forall k :: 0 <= k < output.Length && !(i <= k < i + j) ==> output[k] == old(output[k])
    {
      SlotWithin(f, j, n);
      SlotShift(f, j, n);
      output[i + j] := value;
      forall c | 0 <= c < j ensures Slot(f, c, n) != i + j {
        SlotShift(f, c, n);
      }
      j := j + 1;
    }
  }

  class SoundMixer {
    /** The voice table; an index into it is a voice handle. */
    var voices: seq<SoundProperties>
    /** The waveform applied to all voices. */
    var mode: SoundMode
    /** The sample clock of the render callback (a function-local static in the source). */
    var tick: int

    /** Seeds `numSources` silent voices at 770, 660, 550, ... Hz. */
    constructor (numSources: int)
      ensures |voices| == if numSources > 0 then numSources else 0
      ensures forall i :: 0 <= i < |voices| ==>
                voices[i] == SoundProperties(0.0, SeedFrequency - (i as real) * SeedStep)
      ensures mode == SinMode && tick == 0
    {
      var seeded: seq<SoundProperties> := [];
      var i := 0;
      while i < numSources
        invariant 0 <= i && |seeded| == i
        invariant numSources > 0 ==> i <= numSources
        invariant numSources <= 0 ==> i == 0
        invariant forall k :: 0 <= k < i ==>
                    seeded[k] == SoundProperties(0.0, SeedFrequency - (k as real) * SeedStep)
      {
        seeded := seeded + [SoundProperties(0.0, SeedFrequency - (i as real) * SeedStep)];
        i := i + 1;
      }
      voices := seeded;
      mode := SinMode;
      tick := 0;
    }

    /** Appends a voice; its handle is the old table length. */
    method AddSource(properties: SoundProperties) returns (id: int)
      modifies this
      ensures id == |old(voices)|
      ensures voices == old(voices) + [properties]
      ensures voices[id] == properties
      ensures mode == old(mode) && tick == old(tick)
    {
      voices := voices + [properties];
      id := |voices| - 1;
    }

    /** Mutes a voice; the slot stays, so every handle stays valid. Unlike
        the source, a handle outside the table is refused and reported. */
    method RemoveSource(source: int) returns (removed: bool)
      modifies this
      ensures removed <==> ValidSource(old(voices), source)
      ensures voices == ApplyCall(old(voices), Remove(source))
      ensures removed ==> voices == SetVolume(old(voices), source, 0.0)
      ensures mode == old(mode) && tick == old(tick)
    {
      removed := ValidSource(voices, source);
      if removed {
        voices := SetVolume(voices, source, 0.0);
      }
    }

    /** Strikes a voice: its volume becomes PingVolume(volume); `duration` is unused. */
    method Ping(source: int, volume: real, duration: real)
      modifies this
      ensures ValidSource(old(voices), source) ==> voices == SetVolume(old(voices), source, PingVolume(volume))
      ensures !ValidSource(old(voices), source) ==> voices == old(voices)
      ensures mode == old(mode) && tick == old(tick)
    {
      if source < 0 || source >= |voices| {
        return;
      }
      voices := SetVolume(voices, source, PingVolume(volume));
    }

    /** Sustains a voice: its volume becomes PlayVolume(volume, current volume). */
    method Play(source: int, volume: real)
      modifies this
      ensures ValidSource(old(voices), source) ==>
                voices == SetVolume(old(voices), source, PlayVolume(volume, old(voices)[source].volume))
      ensures !ValidSource(old(voices), source) ==> voices == old(voices)
      ensures mode == old(mode) && tick == old(tick)
    {
      if source < 0 || source >= |voices| {
        return;
      }
      voices := SetVolume(voices, source, PlayVolume(volume, voices[source].volume));
    }

    /** Releases a voice: its volume becomes StopVolume(current volume). */
    method Stop(source: int)
      modifies this
      ensures ValidSource(old(voices), source) ==>
                voices == SetVolume(old(voices), source, StopVolume(old(voices)[source].volume))
      ensures !ValidSource(old(voices), source) ==> voices == old(voices)
      ensures mode == old(mode) && tick == old(tick)
    {
      if source < 0 || source >= |voices| {
        return;
      }
      voices := SetVolume(voices, source, StopVolume(voices[source].volume));
    }

    /** Selects the waveform for every voice. */
    method SetMode(m: SoundMode)
      modifies this
      ensures mode == m && voices == old(voices) && tick == old(tick)
    {
      mode := m;
    }

    /** Delivers one entity call to the method it stands for. */
    method Apply(call: MixerCall)
      modifies this
      ensures voices == ApplyCall(old(voices), call)
      ensures mode == old(mode) && tick == old(tick)
    {
      match call
      case Ping(s, v, d) => Ping(s, v, d);
      case Play(s, v) => Play(s, v);
      case Stop(s) => Stop(s);
      case Remove(s) => var _ := RemoveSource(s);
    }

    /** Delivers entity calls in order. */
    method ApplyAll(calls: seq<MixerCall>)
      modifies this
      ensures voices == ApplyCalls(old(voices), calls)
      ensures mode == old(mode) && tick == old(tick)
    {
      var k := 0;
      while k < |calls|
        invariant 0 <= k <= |calls|
        invariant ApplyCalls(voices, calls[k..]) == ApplyCalls(old(voices), calls)
        invariant mode == old(mode) && tick == old(tick)
      {
        assert calls[k..][1..] == calls[k + 1..];
        Apply(calls[k]);
        k := k + 1;
      }
    }

    /** The active count and the sum of the active voices' samples at the
        current tick: one pass of the inner loop of audioOut. */
    method MixFrame(sample: (SoundMode, SoundProperties, int) -> real) returns (activeCount: int, audioSample: real)
      ensures activeCount == |Active(voices)|
      ensures audioSample == SumSamples(Active(voices), mode, tick, sample)
    {
      activeCount := 0;
      audioSample := 0.0;
      var j := 0;
      while j < |voices|
        invariant 0 <= j <= |voices|
        invariant activeCount == |Active(voices[..j])|
        invariant audioSample == SumSamples(Active(voices[..j]), mode, tick, sample)
      {
        assert voices[..j + 1][..j] == voices[..j];
        assert Active(voices[..j + 1]) ==
          Active(voices[..j]) + (if voices[j].volume > 0.0 then [voices[j]] else []);
        if voices[j].volume > 0.0 {
          SumSamplesSnoc(Active(voices[..j]), voices[j], mode, tick, sample);
          activeCount := activeCount + 1;
          audioSample := audioSample + sample(mode, voices[j], tick);
        } else {
          assert Active(voices[..j + 1]) == Active(voices[..j]);
        }
        j := j + 1;
      }
      assert voices[..j] == voices;
    }

    /** The render callback: fills `bufferSize` interleaved frames of
        `nChannels` channels, every channel of a frame with the frame's
        mixed sample, and advances the sample clock once per frame. */
    method AudioOut(output: array<real>, bufferSize: int, nChannels: int,
                    sample: (SoundMode, SoundProperties, int) -> real)
      requires 0 <= bufferSize && 0 <= nChannels && bufferSize * nChannels <= output.Length
      modifies this, output
      ensures voices == old(voices) && mode == old(mode)
      ensures tick == old(tick) + (if nChannels > 0 then bufferSize else 0)
      ensures forall f: nat, c :: f < bufferSize && 0 <= c < nChannels ==>
                Slot(f, c, nChannels) < bufferSize * nChannels &&
                output[Slot(f, c, nChannels)] == FrameSample(voices, mode, old(tick) + f, sample)
      ensures forall k :: bufferSize * nChannels <= k < output.Length ==> output[k] == old(output[k])
    {
      var frame: nat := 0;
      var i := 0;
      SlotIsProduct(bufferSize, 0, nChannels);
      while i < bufferSize * nChannels
        invariant i == Slot(frame, 0, nChannels) && i <= bufferSize * nChannels
        invariant nChannels > 0 ==> frame <= bufferSize
        invariant nChannels == 0 ==> frame == 0
        invariant voices == old(voices) && mode == old(mode)
        invariant tick == old(tick) + frame
        invariant forall f: nat, c :: f < frame && 0 <= c < nChannels ==>
                    Slot(f, c, nChannels) < i &&
                    output[Slot(f, c, nChannels)] == FrameSample(voices, mode, old(tick) + f, sample)
        invariant forall k :: i <= k < output.Length ==> output[k] == old(output[k])
        decreases bufferSize * nChannels - i
      {
        if frame >= bufferSize {
          SlotMonotone(bufferSize, frame, nChannels);
        }
        SlotMonotone(frame + 1, bufferSize, nChannels);
        var activeCount, audioSample := MixFrame(sample);
        var value := if activeCount == 0 then 0.0 else audioSample / (activeCount as real);
        assert value == FrameSample(voices, mode, tick, sample);
        tick := tick + 1;
        WriteFrame(output, frame, nChannels, value);
        forall f: nat, c | f < frame + 1 && 0 <= c < nChannels
          ensures Slot(f, c, nChannels) < Slot(frame + 1, 0, nChannels)
          ensures output[Slot(f, c, nChannels)] == FrameSample(voices, mode, old(tick) + f, sample)
        {
          if f < frame {
            SlotBefore(f, c, frame, nChannels);
          } else {
            SlotWithin(f, c, nChannels);
          }
        }
        frame := frame + 1;
        i := i + nChannels;
      }
      if nChannels > 0 && frame < bufferSize {
        SlotMonotone(frame + 1, bufferSize, nChannels);
      }
    }
  }
}

=== FILE: Wrappers.dfy ===
/** Optional values, used for reads that can fail and for outcomes that the
    original program leaves undefined. */
module Wrappers {

  datatype Option<+T> = None | Some(value: T)
}
